=== FILE: README.md ===
# shellux front end and evaluator, modelled in Dafny

shellux is a small shell language. Source text is tokenized, the tokens are
parsed by recursive descent into an abstract syntax tree, and a tree-walking
interpreter evaluates the program against a scoped environment. This project
models those three stages, along with the token and syntax-tree types they
share.

Each stage is written as a set of pure functions over immutable values:

- **Lexer.** It reads a `string` with an explicit `Cursor` (position, line,
  column). Each reader returns the token together with the cursor after it.
- **Parser.** It reads a `seq<Token>` at a position. Each parsing function
  returns a `Result` of the parsed value and the next position, or the parse
  error.
- **Interpreter.** It takes the environment and returns an `Outcome`: the
  result plus the environment left behind. The Rust `Environment` is held by
  value (its parent is boxed and it is cloned on every block, call and closure
  capture), so it is the immutable datatype `Values.Env`.

Files:

| file | models |
|---|---|
| `wrappers.dfy`, `sequences.dfy` | `Option`/`Result`, and `join` on string slices |
| `tokens.dfy` | `TokenType`, `Token`, `keyword_or_identifier` (src/lexer/token.rs) |
| `lexer.dfy` | `Lexer` (src/lexer/mod.rs) |
| `lexer_props.dfy`, `lexer_tests.dfy` | properties of the lexer and its unit tests |
| `ast.dfy` | `Expr`, `Stmt`, operators, `Program` (src/parser/ast.rs) |
| `parser.dfy` | `Parser` (src/parser/mod.rs) |
| `parser_props.dfy`, `source_tests.dfy` | properties of the parser and its unit tests, from source text |
| `values.dfy` | `Value`, its equality, `Environment` (src/interpreter/mod.rs) |
| `operators.dfy` | `apply_binary_operator`, `apply_unary_operator` |
| `interpreter.dfy` | `Interpreter` |
| `fuel.dfy`, `interpreter_props.dfy` | fuel monotonicity, evaluator properties and unit tests |

The code's behaviour is modelled as written, including these points:

- A block runs in a child of a copy of the environment. Afterwards the
  pre-block environment is put back, so an assignment to an outer variable
  inside an `if` body or a function body does not survive the block
  (`ExecBlock`, `InterpreterProps.BlockDiscardsAssignment`,
  src/interpreter/mod.rs:254-265).
- The environment is put back only when the block succeeds. When a
  statement fails, the `?` returns before the restore, and the error leaves
  the block's own scope in place, with its bindings. A failing function body
  likewise leaves the callee's scope in place of the caller's environment
  (`InterpreterProps.BlockFailureKeepsScope`, `FailedBlockKeepsScope`,
  `FailedCallKeepsCalleeScope`, `FailedCallLeavesCallee`,
  src/interpreter/mod.rs:260 and 339).
- `+=` and `-=` behave like `=`.
- `return` does not stop a block.
- A function's closure is captured before its own name is bound, so a call
  of its own name inside its body does not reach the function.
- The parser compares token kinds by tag only. As a result, any identifier
  counts as the `_` wildcard or as `as` in a `catch` clause.
- `catch {` consumes the brace while looking for an exception type.

Outside the model, and supplied as parameters:

- The `Host` value supplies built-in functions, external processes, `sh -c`
  command substitution, float arithmetic and comparison, and float and map
  rendering.
- The parameter `close` supplies float closeness in `Value` equality.

Evaluation takes `fuel`, spent once per user-function call. The `OutOfFuel`
failure is an artefact of the model.

## Model

| member | source | states |
|---|---|---|
| Tokens.NewToken | src/lexer/token.rs:106-113 | the token keeps kind, line, column and length exactly as given |
| Tokens.ErrorToken | src/lexer/token.rs:115-122 | an error token carries its message and always has length 1 |
| Tokens.EofToken | src/lexer/token.rs:124-131 | the EOF sentinel has length 0 at the given position |
| Tokens.KeywordOrIdentifier | src/lexer/token.rs:134-152 | a word classifies either as a keyword kind or as `Identifier` carrying the word itself |
| Tokens.Lookup | src/lexer/token.rs:135-152 | a lookup in a keyword-only table yields a keyword kind or `Identifier(word)` |
| Tokens.LookupMiss | src/lexer/token.rs:152 | a word that no row spells falls through to `Identifier(word)` |
| Tokens.LookupFound | src/lexer/token.rs:135-151 | a word that some row spells yields that row's kind |
| Tokens.LookupFirst | src/lexer/token.rs:135-151 | the first matching row decides, like the first matching arm |
| Tokens.KeywordTableConsistent | src/lexer/token.rs:135-151 | every row of the keyword table pairs a keyword kind with that kind's own spelling |
| Tokens.KeywordTableAt | src/lexer/token.rs:135-151 | each keyword kind has its row, and no earlier row has the same spelling |
| Tokens.KeywordClassification | src/lexer/token.rs:134-152 | a word is one of the 16 keywords iff it classifies as a keyword, iff it does not classify as `Identifier(word)`; a keyword's kind spells the word back |
| Tokens.KeywordRoundTrip | src/lexer/token.rs:134-152 | classifying a keyword kind's spelling gives back that kind |
| Tokens.SameTagIgnoresPayload | src/parser/mod.rs:763-769 | tag comparison ignores payloads (any two identifiers match), is exact on payload-free kinds, and is symmetric |
| Tokens.SameTagIsDiscriminant | src/parser/mod.rs:763-769 | two kinds have the same tag iff they are the same variant of the token type, whatever their payloads |
| Tokens.TagInverse | src/lexer/token.rs:2-95 | the variant index determines the kind up to its payload |
| Lexer.Advance | src/lexer/mod.rs:301-311 | a newline moves to the next line at column 1; any other character moves one column right; line and column stay in step with the reference `LineAt`/`ColumnAt` |
| Lexer.SkipWhitespace | src/lexer/mod.rs:321-329 | skips exactly the maximal run of whitespace other than newline |
| Lexer.ScanTo | src/lexer/mod.rs:337-343 | stops at the first occurrence of the stop character (newline for line comments, single quote for single-quoted strings) or at the end of input, skipping no stop character |
| Lexer.ReadLineComment | src/lexer/mod.rs:331-346 | the comment text is everything after `#` up to but excluding the newline, and contains no newline |
| Lexer.ScanBlockComment | src/lexer/mod.rs:348-366 | the body ends at the first star-slash, or runs to the end of input when there is none |
| Lexer.ReadBlockComment | src/lexer/mod.rs:348-366 | the comment text is the input between the opening marker and the first closing star-slash, which is consumed; with no closer the comment runs to the end |
| Lexer.ScanNumber | src/lexer/mod.rs:374-385 | the scanned text stays a numeral, takes every following digit, and takes a dot only once and only when a digit follows it |
| Lexer.ShapeIsNumeral | src/lexer/mod.rs:374-389 | the scanned shape is a numeral, with a dot exactly when one was taken |
| Lexer.ReadNumber | src/lexer/mod.rs:368-409 | the token covers the whole digit run; its kind is `Float` when the text has a dot, `Integer` with the decimal value when it fits in i64, and otherwise `Error("Invalid integer: …")` |
| Lexer.ScanIdent | src/lexer/mod.rs:412-430 | takes the maximal run of identifier characters |
| Lexer.ReadIdentifier | src/lexer/mod.rs:412-430 | the token is the classification of the maximal identifier run, with that run's length |
| Lexer.Unescape | src/lexer/mod.rs:450-465 | `\n`, `\t`, `\r`, `\\`, `\"` and `\'` decode to newline, tab, carriage return, backslash, double quote and single quote; an unknown escape keeps both the backslash and the character |
| Lexer.ScanString | src/lexer/mod.rs:432-474 | the scan either ends just after a closing double quote or reaches the end of input |
| Lexer.ReadString | src/lexer/mod.rs:432-474 | a double-quoted string gives a `String` token whose length is the decoded text plus two quotes, or `Error("Unterminated string")` at the end of input |
| Lexer.ReadSingleQuoteString | src/lexer/mod.rs:476-501 | a single-quoted string is taken verbatim up to the first single quote, or gives `Error("Unterminated string")` |
| Lexer.ScanCommand | src/lexer/mod.rs:538-576 | the scan stops just after a closing parenthesis, or reaches the end of input |
| Lexer.ReadCommand | src/lexer/mod.rs:538-576 | `$(` … `)` gives `Command` with the text between the markers and length text+3, or `Error("Unterminated command")` after consuming the rest of the input |
| Lexer.FindRow | src/lexer/mod.rs:105-288 | the operator row found is one for the current character |
| Lexer.Operator | src/lexer/mod.rs:105-297 | an operator or unexpected-character token starts at the cursor, is not EOF and consumes one or two characters |
| Lexer.TokenAt | src/lexer/mod.rs:50-297 | every token that starts at a character consumes at least one character, is not EOF and is placed at the cursor |
| Lexer.NextToken | src/lexer/mod.rs:44-51 | after skipping blanks, EOF is produced exactly at the end of input and consumes nothing; every other token consumes input |
| LexerProps.SingleQuoteEitherWay | src/lexer/mod.rs:440-470 | inside a double-quoted string, `'` and `\'` both add a single quote |
| Lexer.EofCons | src/lexer/mod.rs:29-42 | putting a non-EOF token before a stream that ends with its only EOF keeps that shape |
| Lexer.TokenizeFrom | src/lexer/mod.rs:29-42 | the token stream is non-empty, ends with EOF, and has no earlier EOF |
| Lexer.Tokenize | src/lexer/mod.rs:29-42 | the token stream of any input is non-empty, ends with EOF, and has no earlier EOF |
| Lexer.TokenizeStep | src/lexer/mod.rs:29-42 | tokenizing is the next token followed by tokenizing the rest, stopping after EOF |
| Lexer.NextTokenPlaced | src/lexer/mod.rs:44-51 | the next token has the line and column of the first index after the skipped whitespace |
| Lexer.TokenizePositions | src/lexer/mod.rs:29-51 | each token has the line and column of its start index; start indices strictly increase, each lies at a character other than skipped whitespace, and the last token (EOF) starts at the end of input |
| Lexer.TokenizePlaced | src/lexer/mod.rs:29-42 | every token of a whole input has the line and column of its start index, and those indices strictly increase up to the EOF token at the end of input |
| LexerProps.RowAgrees | src/lexer/mod.rs:105-288 | an operator row agrees with the reference spellings of every kind it can produce |
| LexerProps.LoneAgrees | src/lexer/mod.rs:105-288 | a row with no two-character kind agrees with the reference spellings |
| LexerProps.ArithmeticAgrees | src/lexer/mod.rs:105-158 | the arithmetic and assignment rows give exactly the kinds spelled `+ += - -= -> * ** / % = ==` |
| LexerProps.LogicAgrees | src/lexer/mod.rs:160-233 | the comparison, logical and bitwise rows give exactly the kinds spelled `! != < <= << > >= >> & && \| \|\| \|> ^ ~` |
| LexerProps.PunctuationAgrees | src/lexer/mod.rs:235-288 | the punctuation rows give exactly the kinds spelled `: := ( ) { } [ ] , ; .` |
| LexerProps.TableAgrees | src/lexer/mod.rs:105-288 | every row of the operator table agrees with the reference spellings |
| LexerProps.FindRowHit | src/lexer/mod.rs:105-288 | a character that some row starts with finds a row |
| LexerProps.FindRowMiss | src/lexer/mod.rs:290-297 | a character that no row starts with finds none |
| LexerProps.OperatorRowFound | src/lexer/mod.rs:105-288 | every character that spells a one-character operator has a row producing exactly that kind |
| LexerProps.OperatorPairFound | src/lexer/mod.rs:105-243 | a row's two-character lookup agrees with the reference two-character spellings |
| LexerProps.PairNeedsOperator | src/lexer/mod.rs:105-243 | every two-character operator starts with a one-character operator |
| LexerProps.OperatorRowMissing | src/lexer/mod.rs:290-297 | a character that spells no operator has no row |
| LexerProps.OperatorPair | src/lexer/mod.rs:105-243 | when the next character completes a two-character operator, that operator wins, with length 2 |
| LexerProps.OperatorSingle | src/lexer/mod.rs:105-288 | otherwise the one-character kind is produced, with length 1 |
| LexerProps.OperatorUnknown | src/lexer/mod.rs:290-297 | an unrecognised character becomes `Error("Unexpected character: 'c'")` and is skipped |
| LexerProps.TokenAtOperator | src/lexer/mod.rs:50-297 | a character that starts no literal, word, comment or command goes to the operator arms |
| LexerProps.OneCharOperatorToken | src/lexer/mod.rs:105-288 | a one-character operator not followed by a completing character gives its kind with length 1 |
| LexerProps.ParenToken | src/lexer/mod.rs:245-253 | parentheses are single-character tokens |
| LexerProps.UnexpectedCharacterSkipped | src/lexer/mod.rs:290-297 | an unrecognised character yields the error token and the cursor moves past it |
| LexerProps.NewlineIsToken | src/lexer/mod.rs:53-56 | a newline is its own token, and the next token starts on the following line at column 1 |
| LexerProps.EscapeChar | src/lexer/mod.rs:450-465 | the escaped spelling of a character is itself or a backslash pair |
| LexerProps.EscapeCharDecodes | src/lexer/mod.rs:450-465 | decoding the escaped spelling of any character gives the character back |
| LexerProps.ScanEscaped | src/lexer/mod.rs:432-474 | scanning the escaped spelling of a text followed by a closing quote decodes to exactly that text |
| LexerProps.StringInPlace | src/lexer/mod.rs:432-474 | an escaped text between double quotes anywhere in the input reads back as that text |
| LexerProps.StringLiteralRoundTrip | src/lexer/mod.rs:432-474 | for every text, reading the quoted escaped spelling gives back the text and consumes the whole literal |
| LexerProps.ScanCommandNesting | src/lexer/mod.rs:549-573 | the closing parenthesis found is the one that balances the opening `$(` |
| LexerProps.ReadCommandBalanced | src/lexer/mod.rs:538-576 | a captured command is balanced and is followed by its closing parenthesis; an unterminated command never closes |
| LexerProps.BalancedNoEarlyClose | src/lexer/mod.rs:549-573 | inside balanced text, no parenthesis closes the command early |
| LexerProps.CommandRoundTrip | src/lexer/mod.rs:538-576 | any balanced text between `$(` and `)` reads back as exactly that command, whatever follows |
| LexerProps.IntegerLiteralRoundTrip | src/lexer/mod.rs:368-409 | the decimal spelling of any i64-sized natural number lexes back to that integer, consuming the whole spelling |
| LexerProps.DigitsReadWhole | src/lexer/mod.rs:374-385 | a run of digits is read whole |
| LexerProps.NextTokenAt | src/lexer/mod.rs:44-51 | the next token is the token at the first non-blank character |
| LexerProps.ReadWord | src/lexer/mod.rs:412-430 | a maximal identifier run is read whole and classified by `keyword_or_identifier` |
| LexerProps.KeywordWord | src/lexer/mod.rs:412-430 | a keyword's spelling as a whole word gives that keyword kind |
| LexerProps.NameWord | src/lexer/mod.rs:412-430 | a non-keyword word gives `Identifier` with the word |
| LexerProps.WordAfterBlanks | src/lexer/mod.rs:44-89 | after blanks, a letter or `_` starts an identifier token |
| LexerProps.KindsStep | src/lexer/mod.rs:29-42 | the kinds of a token stream are those of the next token followed by those of the rest |
| LexerProps.LoneToken | src/lexer/mod.rs:29-42 | an input that is exactly one token lexes to that token and EOF |
| LexerProps.QuotedLiteral | src/lexer/mod.rs:432-474 | a quoted text with nothing to escape lexes to one `String` token with that text, then EOF |
| LexerProps.NoEscapesNeeded | src/lexer/mod.rs:439-470 | a text without quotes or backslashes is its own escaped spelling |
| LexerProps.CommandLiteral | src/lexer/mod.rs:538-576 | a balanced command lexes to one `Command` token, then EOF |
| LexerTests.BasicTokens | src/lexer/mod.rs:585-595 | `let x is 42` lexes to `Let, Identifier("x"), Is, Integer(42), EOF` |
| LexerTests.StringLiteral | src/lexer/mod.rs:598-608 | `"Hello, world!"` lexes to `String("Hello, world!"), EOF` |
| LexerTests.CommandExecution | src/lexer/mod.rs:611-621 | `$(ls -la)` lexes to `Command("ls -la"), EOF` |
| LexerTests.WorldTokens | src/parser/mod.rs:810-812 | `name is "World"` lexes to `Identifier("name"), Is, String("World"), EOF` |
| LexerTests.HelloTokens | src/parser/mod.rs:828-830 | `print("Hello")` lexes to `Identifier("print"), LeftParen, String("Hello"), RightParen, EOF` |
| Ast.NewProgram | src/parser/ast.rs:259-264 | a new program has no statements |
| Ast.AddStatement | src/parser/ast.rs:266-268 | adding a statement grows the program by one, puts the statement last, and keeps earlier statements in order |
| Ast.BuildProgramYields | src/parser/ast.rs:259-268 | successive additions from an empty program yield exactly the statements added, in order |
| Parser.Step | src/parser/mod.rs:775-790 | the cursor never moves past EOF or the end of the tokens |
| Parser.ExpectToken | src/parser/mod.rs:726-740 | succeeds iff the current token has the expected tag, and then consumes exactly it; otherwise it reports the end of input or the mismatch |
| Parser.ExpectIdentifier | src/parser/mod.rs:742-751 | succeeds iff the current token is an identifier, yielding its name |
| Parser.SkipSeparators | src/parser/mod.rs:753-761 | skips exactly the maximal run of newlines and comments, and never fails |
| Parser.ParseExpression | src/parser/mod.rs:301-303 | a parsed expression consumes at least one token |
| Parser.ParseBinary | src/parser/mod.rs:305-393 | each precedence level consumes at least one token |
| Parser.ParseUnary | src/parser/mod.rs:395-405 | a unary expression consumes at least one token |
| Parser.ParsePostfix | src/parser/mod.rs:407-471 | a postfix expression consumes at least one token |
| Parser.ParsePrimary | src/parser/mod.rs:473-524 | a primary consumes at least one token, and at the end of input it fails with "Unexpected end of input" |
| Parser.ExprItems | src/parser/mod.rs:490-498 | a comma-separated list yields at least one expression |
| Parser.ParsePattern | src/parser/mod.rs:526-537 | any identifier token is the wildcard and consumes one token; otherwise the pattern is an expression, and only a failed expression makes it fail |
| Parser.ParseAssignmentTarget | src/parser/mod.rs:539-549 | succeeds iff the postfix expression is an identifier, index or field access |
| Parser.ParseType | src/parser/mod.rs:551-567 | a type is exactly one identifier token, otherwise "Expected type" |
| Parser.OptionalType | src/parser/mod.rs:75-79 | without the marker token no type is read and nothing is consumed |
| Parser.ParseLet | src/parser/mod.rs:72-110 | `let` gives a `Let` statement and `const` a `Const` statement |
| Parser.ParseIsAssignment | src/parser/mod.rs:587-598 | `name is expr` gives a `Let` with no type annotation |
| Parser.ParseAssignment | src/parser/mod.rs:260-281 | an assignment statement parses to `Assignment` |
| Parser.ParseAssignmentOperator | src/parser/mod.rs:265-274 | succeeds iff the token is `=`, `+=` or `-=`; otherwise "Expected assignment operator" |
| Parser.ParseReturn | src/parser/mod.rs:197-206 | `return` before a newline or the end gives `Return(None)` |
| Parser.CatchClauses | src/parser/mod.rs:213-232 | with no `catch` keyword there are no clauses and nothing is consumed |
| Parser.ParseBlock | src/parser/mod.rs:283-299 | a block ends just after its closing brace |
| Parser.BlockItems | src/parser/mod.rs:286-296 | the statements of a block stop at a closing brace or at the end of input |
| Parser.ParseStatement | src/parser/mod.rs:38-70 | a statement consumes at least one token |
| Parser.ProgramItems | src/parser/mod.rs:17-36 | statements parsed so far are kept, in order, at the front of the program |
| Parser.Parse | src/parser/mod.rs:17-36 | a program of separators only is empty; otherwise the first statement's error is the result, or the first statement is kept and parsing goes on after it |
| Parser.BracedBlock | src/parser/mod.rs:158-159 | a compound statement's body needs `{`: at the end it fails with "Unexpected end of input", on another token with that token named, and after `{` it is the block |
| Parser.ElseClause | src/parser/mod.rs:161-166 | without `else` right after the then-block there is no else branch and nothing is consumed |
| ParserProps.Precedence | src/parser/mod.rs:305-393 | `a op1 b op2 c` nests to the right when op2 binds tighter and to the left otherwise |
| ParserProps.TighterRight | src/parser/mod.rs:305-393 | a tighter second operator takes `b op2 c` as the right operand |
| ParserProps.SameLevelLeft | src/parser/mod.rs:305-393 | two operators of one level build a left-nested tree |
| ParserProps.TighterLeft | src/parser/mod.rs:305-393 | a looser second operator takes `a op1 b` as its left operand |
| ParserProps.LeftPair | src/parser/mod.rs:305-393 | a level's loop folds its first operand into the left operand of the next |
| ParserProps.LadderDown | src/parser/mod.rs:305-393 | an operand with no operator of the levels in between parses the same at every looser level |
| ParserProps.LadderUp | src/parser/mod.rs:305-405 | a unary operand followed by no operator of the given levels parses the same at those levels |
| ParserProps.Operand | src/parser/mod.rs:301-405 | a unary operand followed by a non-operator is a whole expression |
| ParserProps.OnlyLevel | src/parser/mod.rs:641-707 | each binary operator token belongs to exactly one precedence level |
| ParserProps.TailStops | src/parser/mod.rs:305-393 | a level's loop stops at a token that is not one of its operators |
| ParserProps.TailExtends | src/parser/mod.rs:305-393 | a level's loop builds `Binary(left, op, right)` and goes on from there |
| ParserProps.PlainPostfix | src/parser/mod.rs:407-471 | a primary not followed by `(`, `[` or `.` is the whole postfix expression |
| ParserProps.Atom | src/parser/mod.rs:395-471 | a primary with no prefix operator is the whole unary expression |
| ParserProps.CallOfName | src/parser/mod.rs:407-428 | `name(args)` gives `Call(name, args)`, with the arguments in order |
| ParserProps.CallNeedsName | src/parser/mod.rs:407-428 | `(` after anything but a name fails, with "Invalid function call" when the arguments parse |
| ParserProps.IsDeclaration | src/parser/mod.rs:587-598 | `name is expr` as a statement gives `Let(name, None, expr)` and skips the following separators |
| ParserProps.LetDeclaration | src/parser/mod.rs:72-110 | `let name is expr` and `const name is expr` give `Let` and `Const` with no type annotation |
| ParserProps.NameIsAssignment | src/parser/mod.rs:571-617 | a name followed by `=`, `+=` or `-=` is an assignment and not an `is` declaration |
| ParserProps.NameAssignment | src/parser/mod.rs:260-281 | `name op expr` as a statement gives `Assignment(Identifier(name), op, expr)` |
| ParserProps.AssignmentParts | src/parser/mod.rs:260-281 | an assignment is its target, its operator and its value, followed by separators |
| ParserProps.ExpressionStatement | src/parser/mod.rs:62-67 | anything else is an expression statement |
| ParserProps.CallIsNoAssignment | src/parser/mod.rs:600-617 | a call is never an assignment target |
| ParserProps.CatchSwallowsBrace | src/parser/mod.rs:213-228 | in `catch {` the brace is consumed by the failed exception-type read, so the clause then fails on the next token |
| ParserProps.CatchTyped | src/parser/mod.rs:213-232 | `catch T { … }` gives a clause with exception type T and no variable |
| ParserProps.CatchAnyWordIsAs | src/parser/mod.rs:213-232 | any identifier in the `as` position binds the variable, because tags are compared without payloads |
| ParserProps.FunctionStatement | src/parser/mod.rs:112-154 | `fn name(params) { body }` gives a Function statement with those parameters, no return type and that body, ending after the body |
| ParserProps.NoParameters | src/parser/mod.rs:114-137 | `()` is an empty parameter list |
| ParserProps.NameExpected | src/parser/mod.rs:742-751 | after `fn` and after `for` a name must come first: at the end it fails with the end-of-input error of `expect_identifier`, and on another token with an error naming that token |
| ParserProps.IfStatement | src/parser/mod.rs:156-173 | `if c { … }` and its else clause give an If statement with that condition, then-block and else branch |
| ParserProps.NoElseClause | src/parser/mod.rs:161-166 | a token other than `else` after the then-block, a newline included, means no else branch |
| ParserProps.ElseBlockClause | src/parser/mod.rs:161-164 | `else { … }` gives the braced block as the else branch |
| ParserProps.ForStatement | src/parser/mod.rs:175-187 | `for v in e { … }` gives a For statement over `v` and `e` with that body |
| ParserProps.WhileStatement | src/parser/mod.rs:189-195 | `while c { … }` gives a While statement with that condition and body |
| ParserProps.TryStatement | src/parser/mod.rs:208-240 | `try { … }` and its catch clauses give a Try statement with that body and those clauses |
| ParserProps.MatchStatement | src/parser/mod.rs:242-258 | `match e { arms }` gives a Match statement over `e` with those arms, ending after the closing brace |
| ParserProps.NoArms | src/parser/mod.rs:244-257 | `{ }` is a match body without arms |
| Parser.ProgramSeparator | src/parser/mod.rs:20-27 | a newline or comment between statements is skipped |
| Parser.ProgramSkipsSeparators | src/parser/mod.rs:20-27 | any run of newlines and comments between statements is skipped |
| Parser.ProgramFirstError | src/parser/mod.rs:29-32 | the first failing statement aborts the parse with its error, and no partial program is returned |
| Parser.ProgramNext | src/parser/mod.rs:29-31 | a parsed statement is added to the program and parsing goes on after it |
| ParserProps.TimesBindsTighter | src/interpreter/mod.rs:545 | `2 + 3 * 4` parses as `Add(2, Multiply(3, 4))` |
| ParserProps.MinusAssociatesLeft | src/parser/mod.rs:365-378 | `1 - 2 - 3` parses as `Subtract(Subtract(1, 2), 3)` |
| ParserProps.ParseHello | src/parser/mod.rs:827-842 | the tokens of `print("Hello")` parse to one call statement of `print` with one string argument |
| ParserProps.ParseWorld | src/parser/mod.rs:809-824 | the tokens of `name is "World"` parse to one `Let` of `name` to a string |
| SourceTests.SimpleLet | src/parser/mod.rs:809-824 | the text `name is "World"` parses to `[Let("name", None, String("World"))]` |
| SourceTests.FunctionCall | src/parser/mod.rs:827-842 | the text `print("Hello")` parses to `[Expression(Call("print", [String("Hello")]))]` |
| Values.TypeName | src/interpreter/mod.rs:26-37 | the type name is one of the eight names |
| Values.TypeNameNamesVariant | src/interpreter/mod.rs:26-37 | two values have the same type name iff they are the same variant |
| Values.IsTruthy | src/interpreter/mod.rs:39-50 | a value is truthy iff it is not `false`, `nil`, `0`, a zero float, `""`, `[]` or an empty map; every function is truthy |
| Values.ValueEqReflexive | src/interpreter/mod.rs:82-96 | value equality is reflexive when float closeness is |
| Values.ValueEqSymmetric | src/interpreter/mod.rs:82-96 | value equality is symmetric when float closeness is |
| Values.ValueEqShape | src/interpreter/mod.rs:82-96 | equal values have the same type name, two nils are equal, equal arrays have equal lengths and equal maps equal key sets |
| Values.NatToString | src/interpreter/mod.rs:54 | the rendering of a natural number is a non-empty digit string whose decimal value is that number, with no leading zero |
| Values.IntToString | src/interpreter/mod.rs:54 | the rendering of an integer is its digits with no leading zero, preceded by `-` exactly when it is negative |
| Values.DecimalCanonical | src/interpreter/mod.rs:54 | rendering is canonical: a digit string without a leading zero is exactly the rendering of its own value |
| Values.NewEnv | src/interpreter/mod.rs:99-105 | a new environment is empty and has no parent |
| Values.Child | src/interpreter/mod.rs:107-113 | a child environment is empty, with the given parent |
| Values.DefineVariable | src/interpreter/mod.rs:123-126 | defining overwrites the value and the const flag in the current scope only |
| Values.Define | src/interpreter/mod.rs:115-117 | `define` binds a non-const variable |
| Values.DefineConst | src/interpreter/mod.rs:119-121 | `define_const` binds a const variable |
| Values.Set | src/interpreter/mod.rs:138-154 | assignment succeeds iff the name is bound and the binding found is not const; an unbound name gives "Undefined variable", a const binding gives "Cannot assign to const variable" |
| Values.GetAfterDefine | src/interpreter/mod.rs:115-136 | after a definition the name reads the new value with the new const flag, and other names read as before |
| Values.DefinePreserves | src/interpreter/mod.rs:115-126 | a definition keeps the scope structure and its depth |
| Values.SetEffect | src/interpreter/mod.rs:138-154 | a successful assignment changes the value of that name only, and no const flag or scope depth |
| Values.ChildSeesParent | src/interpreter/mod.rs:107-136 | a fresh child scope reads and reports const exactly like its parent |
| Values.Get | src/interpreter/mod.rs:128-136 | lookup returns the binding of the first scope, innermost outward, that binds the name, and nothing when no scope does |
| Values.ToString | src/interpreter/mod.rs:52-73 | integers render as their decimal digits with `-` for negatives, strings as themselves, booleans as `true`/`false`, nil as `nil`, arrays in brackets (the empty array as `[]`) and functions as `function name` |
| Sequences.Join | src/interpreter/mod.rs:58-61 | joining no parts gives the empty string, one part gives that part, and the first part starts the result |
| Sequences.JoinAppend | src/interpreter/mod.rs:58-61 | the separator goes between neighbouring parts only: one more part at the end adds the separator and that part |
| Values.Renderings | src/interpreter/mod.rs:59 | the elements of an array rendered one by one, in order |
| Values.JoinValuesJoins | src/interpreter/mod.rs:58-61 | the text between the brackets is the element renderings joined with `, ` |
| Values.ArrayToString | src/interpreter/mod.rs:58-61 | an array renders as `[`, its element renderings joined with `, `, and `]` |
| Values.ArrayToStringAppend | src/interpreter/mod.rs:58-61 | one more element at the end of an array adds `, ` and that element's rendering before the `]` |
| Values.MixedArrayToString | src/interpreter/mod.rs:52-73 | the array `[1, true, "a"]` renders as `[1, true, a]` |
| Operators.TruncDivision | src/interpreter/mod.rs:402-410 | integer division rounds toward zero and the remainder takes the dividend's sign, as Rust does |
| Operators.TruncModSigned | src/interpreter/mod.rs:410 | the Rust remainder is the magnitude remainder with the dividend's sign |
| Operators.CheckedInt | src/interpreter/mod.rs:399-418 | an integer result is produced iff it fits in i64 |
| Operators.ApplyBinary | src/interpreter/mod.rs:392-474 | comparisons give booleans, integer results fit in i64, and type pairs with no arm are unequal under `==` and `!=` and an error naming both type names under any other operator |
| Operators.IntOp | src/interpreter/mod.rs:399-418 | on two integers an operator fails as unsupported iff it has no integer arm; "Division by zero" happens iff it is `/` by 0; comparisons and only they give booleans; integer results fit in i64 |
| Operators.FloatOp | src/interpreter/mod.rs:420-438 | on two floats an operator fails as unsupported iff it has no float arm; "Division by zero" happens iff it is `/` by zero; `==` and `!=` compare by closeness; comparisons give booleans and arithmetic floats |
| Operators.StringOp | src/interpreter/mod.rs:440-445 | on two strings only `+`, `==` and `!=` succeed; `+` concatenates, and `==`/`!=` compare the texts |
| Operators.BoolOp | src/interpreter/mod.rs:455-461 | on two booleans only the `And` and `Or` operators, `==` and `!=` succeed, giving booleans; `And` is conjunction and `Or` disjunction |
| Operators.AcceptedFailsAtRuntime | src/interpreter/mod.rs:392-474 | an operator the type pair accepts fails only on division by zero or overflow |
| Operators.RejectedFails | src/interpreter/mod.rs:392-474 | an operator the type pair does not accept always fails, with an error about the operator |
| Operators.EqualityNeverFails | src/interpreter/mod.rs:392-474 | `==` and `!=` never fail, whatever the operand types |
| Operators.DivisionByZeroExactly | src/interpreter/mod.rs:403-408 | "Division by zero" happens exactly for `/` with a numeric left operand and a zero right operand |
| Operators.IntArithmetic | src/interpreter/mod.rs:399-418 | integer `+ - *` give the exact result when it fits in i64, and `/` truncates toward zero |
| Operators.MinByMinusOne | src/interpreter/mod.rs:402-410 | `i64::MIN / -1` is outside the model's defined results, while `-7 / 2` is -3 and `-7 % 2` is -1 |
| Operators.EqualityAgreesOnScalars | src/interpreter/mod.rs:399-461 | on two values of one scalar type, `==` and `!=` agree with value equality |
| Operators.EqualityFalseOnCompound | src/interpreter/mod.rs:463-472 | nils, arrays, maps and functions are unequal under `==`, even though value equality holds for them |
| Operators.MixedPromotes | src/interpreter/mod.rs:447-453 | a mixed integer and float pair behaves as two floats after promoting the integer |
| Operators.ApplyUnary | src/interpreter/mod.rs:476-487 | `!` gives the negated truthiness of any value; `-` succeeds exactly on floats and on integers whose negation fits |
| Operators.UnaryInvolutions | src/interpreter/mod.rs:476-487 | `!!v` is the truthiness of v, `--i` is i, and negating `i64::MIN` is outside the model's defined results |
| Interpreter.InitialEnv | src/interpreter/mod.rs:161-172 | the initial environment is one scope binding exactly the fourteen built-in names, none const |
| Interpreter.CallBuiltin | src/interpreter/mod.rs:308-310 | a built-in's value is passed through unchanged, and its failure is reported as a built-in error carrying the built-in's message |
| Interpreter.RunExternal | src/interpreter/mod.rs:489-534 | an external command succeeds with `nil` iff it exits with status 0; another status is reported with that code, a signal-killed command with -1, a missing program as "Command not found", and a spawn failure with its message |
| Interpreter.RenderAll | src/interpreter/mod.rs:489-534 | each argument is rendered with `to_string`, in order |
| Interpreter.Trim | src/interpreter/mod.rs:377-386 | the trimmed text is the input with its leading and trailing whitespace removed |
| Interpreter.BindParams | src/interpreter/mod.rs:330-336 | every parameter is bound in the call scope, earlier bindings of the scope stay bound, and the parent scope is untouched |
| Interpreter.BindParamsByPosition | src/interpreter/mod.rs:330-336 | each parameter name receives the argument at its position, the last one when a name repeats, as a non-const binding; names that are no parameter keep their value and const flag |
| Interpreter.EvalExpr | src/interpreter/mod.rs:267-390 | evaluating an expression that succeeds leaves the environment unchanged |
| Interpreter.EvalExprs | src/interpreter/mod.rs:303-306 | evaluated arguments come one per expression, in order, and leave the environment alone; what each value is, is `InterpreterProps.EvalExprsElementwise` |
| InterpreterProps.EvalExprsElementwise | src/interpreter/mod.rs:302-306 | a list of arguments or elements succeeds exactly when each expression does, and then value `i` is what expression `i` evaluates to |
| InterpreterProps.EvalExprsFirstFailure | src/interpreter/mod.rs:302-306 | when expression `k` is the first to fail, the list fails with its error and environment |
| Interpreter.MapKey | src/interpreter/mod.rs:359-375 | a string key is used as it is; any other key is stored under its `to_string` rendering |
| Interpreter.EvalPairs | src/interpreter/mod.rs:359-375 | a map literal that evaluates leaves the environment as it was and keeps every key accumulated before it |
| InterpreterProps.EvalPairsLastWins | src/interpreter/mod.rs:359-375 | every pair's key is in the map, a key maps to the value of the last pair with that key, and keys no pair names are exactly those kept from before |
| InterpreterProps.BinaryEvaluation | src/interpreter/mod.rs:287-296 | the left operand is evaluated first, then the right, then the operator is applied; the first failure is the result |
| InterpreterProps.UnaryEvaluation | src/interpreter/mod.rs:297-300 | the operand is evaluated and the operator applied to its value; a failing operand is the result |
| InterpreterProps.CallEvaluation | src/interpreter/mod.rs:302-306 | the arguments are evaluated first, and the call is then resolved with their values; a failing argument is the result |
| InterpreterProps.ArrayEvaluation | src/interpreter/mod.rs:351-357 | an array literal succeeds exactly when every element does, giving the element values in order; otherwise the first failing element's error |
| InterpreterProps.MapEvaluation | src/interpreter/mod.rs:359-375 | a map literal inserts its pairs into an empty map; a failing key or value is the result |
| InterpreterProps.CommandEvaluation | src/interpreter/mod.rs:377-386 | `$(cmd)` gives the shell's output with surrounding whitespace trimmed, or fails with "Failed to execute command" |
| InterpreterProps.UnimplementedExpressions | src/interpreter/mod.rs:388 | method calls, indexing, field access, interpolation, pipelines and ranges fail as not implemented |
| InterpreterProps.ExpressionStatementEvaluation | src/interpreter/mod.rs:185 | an expression statement is the evaluation of its expression |
| InterpreterProps.IfDispatch | src/interpreter/mod.rs:211-224 | a failing condition is the result; a truthy one runs the then-block as a block |
| InterpreterProps.IfFalsy | src/interpreter/mod.rs:211-224 | a falsy condition runs the else-block as a block, or yields nil when there is no else |
| InterpreterProps.ReturnEvaluation | src/interpreter/mod.rs:242-248 | `return e` evaluates `e`; `return` alone yields nil and changes nothing |
| InterpreterProps.UnimplementedStatements | src/interpreter/mod.rs:250 | `for`, `while`, `try`, `match`, `break` and `continue` fail as not implemented, before anything runs |
| Interpreter.CallNamed | src/interpreter/mod.rs:302-349 | a successful call leaves the caller's environment unchanged; a failing body leaves the callee's scope, see `InterpreterProps.FailedCallKeepsCalleeScope` |
| Interpreter.ExecStmt | src/interpreter/mod.rs:184-252 | a successful statement keeps the scope depth and the environment's shape |
| Interpreter.ExecStmts | src/interpreter/mod.rs:174-182 | a statement list keeps the scope depth; an empty list yields the previous value |
| Interpreter.ExecBlock | src/interpreter/mod.rs:254-265 | a successful block restores the environment it started with; an empty block yields `nil`; a failing block keeps its own scope, see `InterpreterProps.BlockFailureKeepsScope` |
| Interpreter.Interpret | src/interpreter/mod.rs:174-182 | an empty program yields `nil` and leaves the environment as it was |
| Fuel.EvalExprFuel | src/interpreter/mod.rs:267-390 | once evaluation finishes with some fuel, more fuel gives the same outcome |
| Fuel.ExecStmtFuel | src/interpreter/mod.rs:184-252 | once a statement finishes with some fuel, more fuel gives the same outcome |
| Fuel.InterpretFuel | src/interpreter/mod.rs:174-182 | once a program finishes with some fuel, more fuel gives the same outcome |
| InterpreterProps.ExecStmtsAppend | src/interpreter/mod.rs:174-182 | running `a + b` runs `a`, then `b` in the resulting environment, stopping at the first error |
| InterpreterProps.InterpretAppend | src/interpreter/mod.rs:174-182 | a program split in two runs as its halves in sequence, and an error in the first half is the whole result |
| InterpreterProps.ReturnDoesNotStop | src/interpreter/mod.rs:242-248 | `return e` followed by more statements behaves like the expression statement `e` |
| InterpreterProps.BlockDiscardsAssignment | src/interpreter/mod.rs:254-265 | an assignment to an outer variable inside a block is undone when the block ends |
| InterpreterProps.BlockFailureKeepsScope | src/interpreter/mod.rs:254-265 | when a statement of a block fails, the block's outcome is that failure together with the block's own scope as it stood at that statement, not the environment the block started with |
| InterpreterProps.DivisionByZeroStatement | src/interpreter/mod.rs:398-406 | the statement `1 / 0` fails with division by zero and leaves the environment as it was |
| InterpreterProps.FailedBlockKeepsScope | src/interpreter/mod.rs:254-265 | the block `let y is 1; 1 / 0` fails with division by zero, and the environment it leaves is a child of the starting one that binds `y` to 1 |
| InterpreterProps.FailedCallKeepsCalleeScope | src/interpreter/mod.rs:328-343 | when a function's body fails, the call's outcome is the body block's outcome, whose environment lies inside the callee's scope instead of being the caller's |
| InterpreterProps.FailedCallLeavesCallee | src/interpreter/mod.rs:328-343 | calling a function whose body is `1 / 0` fails with division by zero and leaves an environment two scopes deeper than the caller's, inside the function's closure |
| InterpreterProps.CompoundAssignIgnoresOperator | src/interpreter/mod.rs:200-209 | `+=` and `-=` behave exactly like `=` |
| InterpreterProps.AssignmentEffect | src/interpreter/mod.rs:200-209 | assigning succeeds iff the name is bound and not const; it then changes only that name |
| InterpreterProps.DeclarationEffect | src/interpreter/mod.rs:188-198 | `let` and `const` yield the value, bind it with the right const flag, and leave other names alone |
| InterpreterProps.DefineFunction | src/interpreter/mod.rs:226-240 | a function statement captures the environment as it was before its own name is bound |
| InterpreterProps.BuiltinsShadowFunctions | src/interpreter/mod.rs:308-310 | a built-in name always calls the built-in, whatever it is bound to |
| InterpreterProps.NonFunctionsRunExternally | src/interpreter/mod.rs:311-347 | a name that is neither a built-in nor bound to a function runs as an external command |
| InterpreterProps.IdentifierResolution | src/interpreter/mod.rs:275-285 | a bare name is a built-in called with no arguments if `is_builtin` knows it; otherwise the value it is bound to; otherwise an external command run with no arguments. The environment is left unchanged |
| InterpreterProps.ArityChecked | src/interpreter/mod.rs:320-327 | a call with the wrong number of arguments fails with the expected and actual counts |
| InterpreterProps.CallUserFunction | src/interpreter/mod.rs:329-343 | a user function runs its body with the parameters bound in a child of its closure, and the caller's environment is restored |
| InterpreterProps.SelfCallRunsExternally | src/interpreter/mod.rs:232-238 | a function that calls its own name runs an external command instead, since its closure predates its name |
| InterpreterProps.SimpleArithmetic | src/interpreter/mod.rs:544-554 | `2 + 3 * 4` evaluates to 14 |
| InterpreterProps.VariableAssignment | src/interpreter/mod.rs:557-567 | declaring `x` as 42 and then reading `x` gives 42 |
| InterpreterProps.ConstDeclaration | src/interpreter/mod.rs:588-598 | declaring the const `x` as 42 and then reading `x` gives 42 |
| InterpreterProps.ConstReassignmentFails | src/interpreter/mod.rs:601-615 | assigning to a const fails with "Cannot assign to const variable: x" and leaves it unchanged |
| InterpreterProps.LetReassignmentSucceeds | src/interpreter/mod.rs:618-628 | a `let` variable can be reassigned, and then reads 10 |
| InterpreterProps.MixedDeclarations | src/interpreter/mod.rs:631-648 | `let x is 10`, `const y is 20`, `x = 30`, `x + y` evaluates to 50 |
| InterpreterProps.FunctionDefinitionAndCall | src/interpreter/mod.rs:570-585 | defining `add(a, b)` returning `a + b` and calling `add(2, 3)` gives 5 |

## Left out

- I/O: `src/main.rs` (command line, REPL, file reading) is not part of this model.
- Built-in functions: `call_builtin` is the `Host.builtin` oracle; only the fourteen names `is_builtin` recognises are fixed.
- Processes: `execute_external_command` and `Expr::Command` (`sh -c`) come in as the `Host.external` and `Host.shell` oracles. Exit-code and trimming logic around them is modelled.
- Floating point: a float is an opaque decimal spelling, and the only thing observed about it is whether it is zero, which is read off the spelling (`Tokens.IsZeroFloat`). Float literals are not parsed to `f64`. Float arithmetic, comparison, epsilon equality (the `close` parameter), int-to-float promotion and formatting are supplied by the `Host`. NaN behaviour is not modelled.
- Tokens.IsZeroFloat: a literal whose digits are not all zero but which `parse::<f64>()` rounds to 0.0 (for instance `0.` followed by 330 zeros and a `1`) counts as non-zero here. Rust treats it as zero, so it is falsy there and dividing by it is "Division by zero"; in the model it is truthy and a valid divisor.
- `Value::to_string` for maps (its order follows `HashMap` iteration) and for floats is supplied by the `Host`.
- Lengths: Rust's `len()` counts UTF-8 bytes, while the model counts characters. They agree on ASCII input.
- `read_triple_quote_string` is never called by `next_token`, so it is not modelled.
- Type annotations are parsed but never read by the evaluator.
- The statement and expression kinds the evaluator rejects as "not yet implemented" are errors carrying the construct, with no further semantics.
- Parse errors and runtime errors are datatypes with one constructor per message. The `{:?}` rendering of token kinds inside parse-error text is not modelled.
- Operators.IntArithmetic: i64 overflow in `+ - *`, `i64::MIN / -1`, `i64::MIN % -1` and `%` by zero are the single failure `Unspecified`. In Rust, `i64::MIN / -1`, `i64::MIN % -1` and `%` by zero panic in every build profile, while overflow in `+ - *` panics in debug builds and wraps in release builds.
- Operators.UnaryInvolutions: negating `i64::MIN` is `Unspecified`. In Rust this overflow panics in debug builds and wraps in release builds.
- Interpreter.EvalExpr: its own contract is about the environment only. What each kind of expression evaluates to is stated by the `InterpreterProps` lemmas: literals by `LiteralEvaluates`, names by `IdentifierResolution`, binary and unary expressions by `BinaryEvaluation` and `UnaryEvaluation`, calls by `CallEvaluation` and the call lemmas, arrays by `ArrayEvaluation`, maps by `MapEvaluation` and `EvalPairsLastWins`, `$(…)` by `CommandEvaluation`, and the rejected kinds by `UnimplementedExpressions`. Recursion is bounded by `fuel`. A run that needs more calls than the fuel allows ends in `OutOfFuel`, which the source never reports. `Fuel.*` shows that more fuel never changes a finished result.
- Interpreter.ExecStmt: its own contract is only about scope depth and shape. The behaviour of each statement kind is stated by the `InterpreterProps` lemmas: expression statements by `ExpressionStatementEvaluation`, `let` and `const` by `DeclarationEffect`, assignment by `AssignmentEffect` and `CompoundAssignIgnoresOperator`, `if` by `IfDispatch` and `IfFalsy`, `fn` by `DefineFunction`, `return` by `ReturnEvaluation`, and the rejected kinds by `UnimplementedStatements`.
- Parser.ParseExpression and the other parsing functions: their own contracts state only progress. The shape of the trees they build is stated by the `ParserProps` lemmas. The compound statements are written as a chain of parts (`ParameterList`, `BracedBlock`, `ElseClause`, `BracedArms`), each covering a run of `expect_token` and `parse_*` calls of the Rust function. The statement lemmas assemble a statement from the results of those parts.
- ParserProps.FunctionStatement: states the function shape without a `->` return type only. With a return type the statement is assembled in the same way, with `OptionalType` reading the type.
- LexerProps.OperatorPair, LexerProps.OperatorSingle: these are stated against the operator table. The table is tied to the reference spellings separately, by `LexerProps.TableAgrees`, `OperatorRowFound` and `OperatorPairFound`.
- The unit tests are stated on the token kinds only, as the Rust tests check them. The interpreter tests start from the syntax tree the parser produces for the test text, not from the text itself.
- `is_is_assignment` and `is_assignment` move and restore the cursor. Here they are pure predicates over a position, so the restore holds by construction and has no lemma.

=== FILE: ast.dfy ===
/**
 * The syntax tree produced by the parser (src/parser/ast.rs).
 *
 * Several constructor names are shared between datatypes, as in the Rust
 * source (`Expr::Identifier`, `Pattern::Identifier`, ...); where a use is
 * ambiguous it is written qualified by its datatype.
 */
module Ast {
  import opened Wrappers
  import opened Tokens

  datatype BinaryOperator =
    // arithmetic
    | Add | Subtract | Multiply | Divide | Modulo | Power
    // comparison
    | Equal | NotEqual | Less | LessEqual | Greater | GreaterEqual
    // logical
    | And | Or
    // bitwise
    | BitwiseAnd | BitwiseOr | BitwiseXor | LeftShift | RightShift

  datatype UnaryOperator = Not | Minus | BitwiseNot

  datatype Expr =
    | Integer(intValue: int)
    | Float(floatValue: FloatLit)
    | String(strValue: string)
    | Boolean(boolValue: bool)
    | Nil
    | Identifier(name: string)
    | Binary(left: Expr, op: BinaryOperator, right: Expr)
    | Unary(unaryOp: UnaryOperator, operand: Expr)
    | Call(name: string, args: seq<Expr>)
    | MethodCall(obj: Expr, methodName: string, args: seq<Expr>)
    | Array(elements: seq<Expr>)
    | Map(pairs: seq<(Expr, Expr)>)
    | Index(obj: Expr, index: Expr)
    | FieldAccess(obj: Expr, field: string)
    | Interpolation(parts: seq<InterpolationPart>)
    | Command(command: string)
    | Pipeline(left: Expr, right: Expr)
    | Range(start: Expr, end: Expr)

  datatype InterpolationPart = Text(text: string) | Expression(expr: Expr)

  datatype Type =
    | Int
    | Float
    | String
    | Bool
    | Array(elementType: Type)
    | Map(keyType: Type, valueType: Type)
    | Function(parameterTypes: seq<Type>, returnType: Type)
    | Custom(name: string)
    | Any

  datatype Parameter = Parameter(name: string, typeAnnotation: Option<Type>)

  datatype AssignmentTarget =
    | Identifier(name: string)
    | Index(obj: Expr, index: Expr)
    | FieldAccess(obj: Expr, field: string)

  datatype AssignmentOperator = Assign | AddAssign | SubtractAssign

  datatype Pattern = Literal(expr: Expr) | Identifier(name: string) | Wildcard

  datatype Stmt =
    | Expression(expr: Expr)
    | Let(name: string, typeAnnotation: Option<Type>, value: Expr)
    | Const(name: string, typeAnnotation: Option<Type>, value: Expr)
    | Assignment(target: AssignmentTarget, assignOp: AssignmentOperator, value: Expr)
    | If(condition: Expr, thenBlock: seq<Stmt>, elseBlock: ElseBranch)
    | For(variable: string, iterable: Expr, body: seq<Stmt>)
    | While(condition: Expr, body: seq<Stmt>)
    | Function(name: string, parameters: seq<Parameter>, returnType: Option<Type>, body: seq<Stmt>)
    | Return(result: Option<Expr>)
    | Try(body: seq<Stmt>, catchClauses: seq<CatchClause>)
    | Match(expr: Expr, arms: seq<MatchArm>)
    | Break
    | Continue

  /**
   * The optional `else` block of an `if` (Rust's `Option<Vec<Stmt>>`); a
   * dedicated datatype keeps the nested statements visible to termination
   * arguments.
   */
  datatype ElseBranch = NoElse | ElseBlock(stmts: seq<Stmt>)

  datatype CatchClause = CatchClause(exceptionType: Option<string>, variable: Option<string>, body: seq<Stmt>)

  datatype MatchArm = MatchArm(pattern: Pattern, body: seq<Stmt>)

  datatype Program = Program(statements: seq<Stmt>)

  /** Program::new */
  function NewProgram(): (p: Program)
    ensures |p.statements| == 0
  {
    Program([])
  }

  /** Program::add_statement: append at the end, keeping earlier statements in order. */
  function AddStatement(p: Program, s: Stmt): (q: Program)
    ensures |q.statements| == |p.statements| + 1
    ensures q.statements[|p.statements|] == s
    ensures q.statements[..|p.statements|] == p.statements
  {
    Program(p.statements + [s])
  }

  /** The program built by `new` followed by one `add_statement` per element of `ss`. */
  function BuildProgram(ss: seq<Stmt>): Program
  {
    if ss == [] then NewProgram() else AddStatement(BuildProgram(ss[..|ss| - 1]), ss[|ss| - 1])
  }

  /** Successive additions from an empty program yield exactly the statements added. */
  lemma {:induction false} BuildProgramYields(ss: seq<Stmt>)
    ensures BuildProgram(ss).statements == ss
  {
    if ss != [] {
      BuildProgramYields(ss[..|ss| - 1]);
      assert ss == ss[..|ss| - 1] + [ss[|ss| - 1]];
    }
  }

  // ---------------------------------------------------------------- sizes

  /** Syntactic sizes, used as termination measures by the evaluator. */
  function ExprSize(e: Expr): (n: nat)
    ensures n >= 1
  {
    match e
    case Binary(l, _, r) => 1 + ExprSize(l) + ExprSize(r)
    case Unary(_, x) => 1 + ExprSize(x)
    case Call(_, args) => 1 + ExprsSize(args)
    case MethodCall(o, _, args) => 1 + ExprSize(o) + ExprsSize(args)
    case Array(xs) => 1 + ExprsSize(xs)
    case Map(ps) => 1 + PairsSize(ps)
    case Index(o, i) => 1 + ExprSize(o) + ExprSize(i)
    case FieldAccess(o, _) => 1 + ExprSize(o)
    case Pipeline(l, r) => 1 + ExprSize(l) + ExprSize(r)
    case Range(a, b) => 1 + ExprSize(a) + ExprSize(b)
    case _ => 1
  }

  function ExprsSize(es: seq<Expr>): nat
  {
    if es == [] then 0 else ExprSize(es[0]) + ExprsSize(es[1..])
  }

  function PairsSize(ps: seq<(Expr, Expr)>): nat
  {
    if ps == [] then 0 else PairSize(ps[0]) + PairsSize(ps[1..])
  }

  function PairSize(kv: (Expr, Expr)): nat
  {
    ExprSize(kv.0) + ExprSize(kv.1)
  }

  function StmtSize(s: Stmt): (n: nat)
    ensures n >= 1
  {
    match s
    case Expression(e) => 1 + ExprSize(e)
    case Let(_, _, e) => 1 + ExprSize(e)
    case Const(_, _, e) => 1 + ExprSize(e)
    case Assignment(_, _, e) => 1 + ExprSize(e)
    case If(c, t, el) => 1 + ExprSize(c) + StmtsSize(t) + ElseSize(el)
    case For(_, e, b) => 1 + ExprSize(e) + StmtsSize(b)
    case While(c, b) => 1 + ExprSize(c) + StmtsSize(b)
    case Function(_, _, _, b) => 1 + StmtsSize(b)
    case Return(e) => 1 + (if e.Some? then ExprSize(e.value) else 0)
    case _ => 1
  }

  function ElseSize(el: ElseBranch): nat
  {
    match el
    case ElseBlock(b) => StmtsSize(b)
    case NoElse => 0
  }

  function StmtsSize(ss: seq<Stmt>): nat
  {
    if ss == [] then 0 else StmtSize(ss[0]) + StmtsSize(ss[1..])
  }
}

=== FILE: fuel.dfy ===
/**
 * The fuel bound of the evaluator is only a bound: once an evaluation
 * finishes without running out of fuel, more fuel gives the very same
 * outcome, environment included. So every result the model produces is
 * the result of the unbounded evaluation of the source.
 */
module Fuel {
  import opened Wrappers
  import opened Ast
  import opened Values
  import opened Interpreter

  /** The evaluation finished: it did not stop for lack of fuel. */
  predicate Settled<T>(o: Outcome<T>) {
    !(o.result.Err? && o.result.error == OutOfFuel)
  }

  lemma {:induction false} EvalExprFuel(h: Host, fuel: nat, more: nat, env: Env, e: Expr)
    requires fuel <= more && Settled(EvalExpr(h, fuel, env, e))
    ensures EvalExpr(h, more, env, e) == EvalExpr(h, fuel, env, e)
    decreases fuel, ExprSize(e), 1
  {
    match e
    case Binary(l, op, r) =>
      var ol := EvalExpr(h, fuel, env, l);
      EvalExprFuel(h, fuel, more, env, l);
      if ol.result.Ok? {
        EvalExprFuel(h, fuel, more, ol.env, r);
      }
    case Unary(op, x) =>
      EvalExprFuel(h, fuel, more, env, x);
    case Call(name, args) =>
      var oa := EvalExprs(h, fuel, env, args);
      EvalExprsFuel(h, fuel, more, env, args);
      if oa.result.Ok? {
        CallNamedFuel(h, fuel, more, oa.env, name, oa.result.value);
      }
    case Array(xs) =>
      EvalExprsFuel(h, fuel, more, env, xs);
    case Map(ps) =>
      EvalPairsFuel(h, fuel, more, env, ps, map[]);
    case _ =>
  }

  lemma {:induction false} EvalExprsFuel(h: Host, fuel: nat, more: nat, env: Env, es: seq<Expr>)
    requires fuel <= more && Settled(EvalExprs(h, fuel, env, es))
    ensures EvalExprs(h, more, env, es) == EvalExprs(h, fuel, env, es)
    decreases fuel, ExprsSize(es), 2
  {
    if es != [] {
      var o0 := EvalExpr(h, fuel, env, es[0]);
      EvalExprFuel(h, fuel, more, env, es[0]);
      if o0.result.Ok? {
        EvalExprsFuel(h, fuel, more, o0.env, es[1..]);
      }
    }
  }

  lemma {:induction false} EvalPairsFuel(h: Host, fuel: nat, more: nat, env: Env, ps: seq<(Expr, Expr)>, acc: map<string, Value>)
    requires fuel <= more && Settled(EvalPairs(h, fuel, env, ps, acc))
    ensures EvalPairs(h, more, env, ps, acc) == EvalPairs(h, fuel, env, ps, acc)
    decreases fuel, PairsSize(ps), 2
  {
    if ps != [] {
      assert PairsSize(ps) == ExprSize(ps[0].0) + ExprSize(ps[0].1) + PairsSize(ps[1..]);
      var ok := EvalExpr(h, fuel, env, ps[0].0);
      EvalExprFuel(h, fuel, more, env, ps[0].0);
      if ok.result.Ok? {
        var ov := EvalExpr(h, fuel, ok.env, ps[0].1);
        EvalExprFuel(h, fuel, more, ok.env, ps[0].1);
        if ov.result.Ok? {
          EvalPairsFuel(h, fuel, more, ov.env, ps[1..], acc[MapKey(h, ok.result.value) := ov.result.value]);
        }
      }
    }
  }

  lemma {:induction false} CallNamedFuel(h: Host, fuel: nat, more: nat, env: Env, name: string, args: seq<Value>)
    requires fuel <= more && Settled(CallNamed(h, fuel, env, name, args))
    ensures CallNamed(h, more, env, name, args) == CallNamed(h, fuel, env, name, args)
    decreases fuel, 0, 0
  {
    if !IsBuiltin(name) {
      match Get(env, name)
      case Some(Function(_, params, body, closure)) =>
        if |params| == |args| {
          ExecBlockFuel(h, fuel - 1, more - 1, BindParams(Child(closure), params, args), body);
        }
      case _ =>
    }
  }

  lemma {:induction false} ExecStmtFuel(h: Host, fuel: nat, more: nat, env: Env, s: Stmt)
    requires fuel <= more && Settled(ExecStmt(h, fuel, env, s))
    ensures ExecStmt(h, more, env, s) == ExecStmt(h, fuel, env, s)
    decreases fuel, StmtSize(s), 1
  {
    match s
    case Expression(e) => EvalExprFuel(h, fuel, more, env, e);
    case Let(_, _, e) => EvalExprFuel(h, fuel, more, env, e);
    case Const(_, _, e) => EvalExprFuel(h, fuel, more, env, e);
    case Assignment(_, _, e) => EvalExprFuel(h, fuel, more, env, e);
    case If(c, thenBlock, elseBlock) =>
      var o := EvalExpr(h, fuel, env, c);
      EvalExprFuel(h, fuel, more, env, c);
      if o.result.Ok? {
        if IsTruthy(o.result.value) {
          ExecBlockFuel(h, fuel, more, o.env, thenBlock);
        } else if elseBlock.ElseBlock? {
          assert ElseSize(elseBlock) == StmtsSize(elseBlock.stmts);
          ExecBlockFuel(h, fuel, more, o.env, elseBlock.stmts);
        }
      }
    case Return(r) =>
      if r.Some? {
        EvalExprFuel(h, fuel, more, env, r.value);
      }
    case _ =>
  }

  lemma {:induction false} ExecStmtsFuel(h: Host, fuel: nat, more: nat, env: Env, ss: seq<Stmt>, last: Value)
    requires fuel <= more && Settled(ExecStmts(h, fuel, env, ss, last))
    ensures ExecStmts(h, more, env, ss, last) == ExecStmts(h, fuel, env, ss, last)
    decreases fuel, StmtsSize(ss), 2
  {
    if ss != [] {
      var o := ExecStmt(h, fuel, env, ss[0]);
      ExecStmtFuel(h, fuel, more, env, ss[0]);
      if o.result.Ok? {
        ExecStmtsFuel(h, fuel, more, o.env, ss[1..], o.result.value);
      }
    }
  }

  lemma {:induction false} ExecBlockFuel(h: Host, fuel: nat, more: nat, env: Env, ss: seq<Stmt>)
    requires fuel <= more && Settled(ExecBlock(h, fuel, env, ss))
    ensures ExecBlock(h, more, env, ss) == ExecBlock(h, fuel, env, ss)
    decreases fuel, StmtsSize(ss), 3
  {
    ExecStmtsFuel(h, fuel, more, Child(env), ss, Value.Nil);
  }

  /** A program that finishes within some fuel has the same outcome under any larger fuel. */
  lemma InterpretFuel(h: Host, fuel: nat, more: nat, env: Env, p: Program)
    requires fuel <= more && Settled(Interpret(h, fuel, env, p))
    ensures Interpret(h, more, env, p) == Interpret(h, fuel, env, p)
  {
    ExecStmtsFuel(h, fuel, more, env, p.statements, Value.Nil);
  }
}

=== FILE: interpreter.dfy ===
/**
 * The tree-walking evaluator (src/interpreter/mod.rs): statements and
 * expressions evaluated against a scoped environment.
 *
 * The Rust interpreter keeps its current environment in a mutable field;
 * here every evaluation takes the environment and returns it, together
 * with the result, as an `Outcome`. On success the returned environment
 * is the one the interpreter holds afterwards; on failure it is the one
 * left behind by the early `?` return, which a REPL session keeps using.
 *
 * Built-in functions, external processes, `sh -c` and floating-point
 * arithmetic are outside the model and are supplied by a `Host`.
 * Calls can recurse without bound (a function may be passed to itself),
 * so evaluation carries `fuel`, spent once per user-function call;
 * `OutOfFuel` is a model artefact, not a failure of the source.
 */
module Interpreter {
  import opened Wrappers
  import Tokens
  import opened Ast
  import opened Values
  import opened Operators
  import Lexer

  /** What running an external program reports: an exit status (None when killed by a signal), not found, or another spawn error. */
  datatype ExternalOutcome = Exited(code: Option<int>) | NotFound | SpawnFailed(reason: string)

  /** The world outside the evaluator. */
  datatype Host = Host(
    builtin: (string, seq<Value>) -> Result<Value, string>,
    external: (string, seq<string>) -> ExternalOutcome,
    shell: string -> Result<string, string>,
    floats: FloatOps,
    showFloat: Tokens.FloatLit -> string,
    showMap: map<string, Value> -> string)

  /** A result and the environment after producing it. */
  datatype Outcome<T> = Outcome(result: Result<T, Failure>, env: Env)

  // ---------------------------------------------------------------- built-ins and the initial state

  /** The names is_builtin recognises, the same fourteen register_builtins defines. */
  const Builtins: set<string> :=
    {"print", "println", "input", "read_file", "write_file", "len", "to_string",
     "to_int", "to_float", "exit", "echo", "cd", "pwd", "run"}

  predicate IsBuiltin(name: string) {
    name in Builtins
  }

  /** The placeholder value register_builtins binds to a built-in name. */
  function BuiltinPlaceholder(name: string): Value {
    Value.Function(name, [], [], NewEnv())
  }

  /**
   * Interpreter::new: a single global scope holding a placeholder function
   * for each built-in, none of them const.
   */
  function InitialEnv(): (env: Env)
    ensures env.parent.None? && env.vars.Keys == Builtins && WellFormed(env)
    ensures forall n | n in Builtins :: Get(env, n) == Some(BuiltinPlaceholder(n)) && !BoundConst(env, n)
  {
    Env(map n | n in Builtins :: BuiltinPlaceholder(n), map n | n in Builtins :: false, None)
  }

  /** call_builtin, whose effects are the host's; its error text is kept verbatim. */
  function CallBuiltin(h: Host, name: string, args: seq<Value>): (r: Result<Value, Failure>)
    ensures r.Err? ==> r.error.BuiltinError?
    ensures h.builtin(name, args).Ok? ==> r == Ok(h.builtin(name, args).value)
    ensures h.builtin(name, args).Err? ==> r == Err(BuiltinError(h.builtin(name, args).error))
  {
    match h.builtin(name, args)
    case Ok(v) => Ok(v)
    case Err(m) => Err(BuiltinError(m))
  }

  /**
   * Interpreter::execute_external_command: the arguments are passed as
   * their to_string renderings; success is exit status 0 and yields nil.
   */
  function RunExternal(h: Host, command: string, args: seq<Value>): (r: Result<Value, Failure>)
    ensures r.Ok? <==> h.external(command, RenderAll(h, args)) == Exited(Some(0))
    ensures r.Ok? ==> r.value == Value.Nil
    ensures h.external(command, RenderAll(h, args)) == Exited(None) ==> r == Err(CommandFailed(command, -1))
    ensures h.external(command, RenderAll(h, args)) == NotFound ==> r == Err(CommandNotFound(command))
    ensures forall c | h.external(command, RenderAll(h, args)) == Exited(Some(c)) && c != 0 ::
              r == Err(CommandFailed(command, c))
    ensures forall m | h.external(command, RenderAll(h, args)) == SpawnFailed(m) :: r == Err(CommandError(command, m))
  {
    match h.external(command, RenderAll(h, args))
    case Exited(Some(0)) => Ok(Value.Nil)
    case Exited(Some(code)) => Err(CommandFailed(command, code))
    case Exited(None) => Err(CommandFailed(command, -1))
    case NotFound => Err(CommandNotFound(command))
    case SpawnFailed(reason) => Err(CommandError(command, reason))
  }

  function Render(h: Host, v: Value): string {
    ToString(h.showFloat, h.showMap, v)
  }

  function RenderAll(h: Host, vs: seq<Value>): (ss: seq<string>)
    ensures |ss| == |vs|
    ensures forall i | 0 <= i < |vs| :: ss[i] == Render(h, vs[i])
  {
    if vs == [] then [] else [Render(h, vs[0])] + RenderAll(h, vs[1..])
  }

  // ---------------------------------------------------------------- trimming command output

  /** The number of leading whitespace characters. */
  function LeadingSpace(s: string): (n: nat)
    ensures n <= |s|
    ensures forall i | 0 <= i < n :: Lexer.IsWhitespace(s[i])
    ensures n == |s| || !Lexer.IsWhitespace(s[n])
  {
    if s != [] && Lexer.IsWhitespace(s[0]) then 1 + LeadingSpace(s[1..]) else 0
  }

  /** The number of trailing whitespace characters. */
  function TrailingSpace(s: string): (n: nat)
    ensures n <= |s|
    ensures forall i | |s| - n <= i < |s| :: Lexer.IsWhitespace(s[i])
    ensures n == |s| || !Lexer.IsWhitespace(s[|s| - n - 1])
  {
    if s != [] && Lexer.IsWhitespace(s[|s| - 1]) then 1 + TrailingSpace(s[..|s| - 1]) else 0
  }

  /**
   * str::trim: the input without its leading and trailing Unicode
   * whitespace. Both runs are measured on the whole input; they meet
   * only when the input is all whitespace.
   */
  function Trim(s: string): (t: string)
    ensures |t| <= |s|
    ensures t == [] || (!Lexer.IsWhitespace(t[0]) && !Lexer.IsWhitespace(t[|t| - 1]))
    ensures LeadingSpace(s) + |t| <= |s| && s[LeadingSpace(s) .. LeadingSpace(s) + |t|] == t
    ensures forall k | 0 <= k < LeadingSpace(s) :: Lexer.IsWhitespace(s[k])
    ensures forall k | LeadingSpace(s) + |t| <= k < |s| :: Lexer.IsWhitespace(s[k])
  {
    var a := LeadingSpace(s);
    if a == |s| then []
    else
      var b := TrailingSpace(s);
      assert !Lexer.IsWhitespace(s[a]);
      s[a .. |s| - b]
  }

  // ---------------------------------------------------------------- evaluation

  /** `params[i]` is the last parameter with its name. */
  predicate LastWithName(params: seq<Parameter>, i: nat)
    requires i < |params|
  {
    forall j | i < j < |params| :: params[j].name != params[i].name
  }

  /** No parameter has the name `n`. */
  predicate NotAParam(params: seq<Parameter>, n: string) {
    forall j | 0 <= j < |params| :: params[j].name != n
  }

  /** How the two predicates above carry over from `params` to `params[1..]`. */
  lemma LastWithNameTail(params: seq<Parameter>)
    requires |params| >= 1
    ensures forall i | 1 <= i < |params| && LastWithName(params, i) :: LastWithName(params[1..], i - 1)
    ensures LastWithName(params, 0) ==> NotAParam(params[1..], params[0].name)
    ensures forall n | NotAParam(params, n) :: NotAParam(params[1..], n) && n != params[0].name
  {
    forall i | 1 <= i < |params| && LastWithName(params, i)
      ensures LastWithName(params[1..], i - 1)
    {
      forall j | i - 1 < j < |params[1..]|
        ensures params[1..][j].name != params[1..][i - 1].name
      {
        assert params[1..][j] == params[j + 1];
      }
    }
    if LastWithName(params, 0) {
      forall j | 0 <= j < |params[1..]|
        ensures params[1..][j].name != params[0].name
      {
        assert params[1..][j] == params[j + 1];
      }
    }
    forall n | NotAParam(params, n)
      ensures NotAParam(params[1..], n) && n != params[0].name
    {
      forall j | 0 <= j < |params[1..]|
        ensures params[1..][j].name != n
      {
        assert params[1..][j] == params[j + 1];
      }
    }
  }

  /**
   * Parameters bound in order with `define`, in the current scope; which
   * value each name receives is stated by `BindParamsByPosition`.
   */
  function BindParams(env: Env, params: seq<Parameter>, args: seq<Value>): (e: Env)
    requires |params| == |args|
    ensures e.parent == env.parent
    ensures env.vars.Keys <= e.vars.Keys
    ensures forall i | 0 <= i < |params| :: params[i].name in e.vars
    ensures WellFormed(env) ==> WellFormed(e)
    decreases |params|
  {
    if params == [] then env
    else BindParams(Define(env, params[0].name, args[0]), params[1..], args[1..])
  }

  /**
   * Parameters are bound by position: each name receives the argument at its
   * position (the last one when a name repeats) as a non-const binding, and
   * every other binding of the scope is unchanged.
   */
  lemma {:induction false} BindParamsByPosition(env: Env, params: seq<Parameter>, args: seq<Value>)
    requires |params| == |args|
    ensures var e := BindParams(env, params, args);
            forall i | 0 <= i < |params| && LastWithName(params, i) ::
              && e.vars[params[i].name] == args[i]
              && params[i].name in e.consts && !e.consts[params[i].name]
    ensures var e := BindParams(env, params, args);
            forall n | n in env.vars && NotAParam(params, n) :: e.vars[n] == env.vars[n]
    ensures var e := BindParams(env, params, args);
            forall n | n in env.consts && NotAParam(params, n) :: n in e.consts && e.consts[n] == env.consts[n]
    decreases |params|
  {
    if params != [] {
      var env1 := Define(env, params[0].name, args[0]);
      var e := BindParams(env, params, args);
      assert e == BindParams(env1, params[1..], args[1..]);
      BindParamsByPosition(env1, params[1..], args[1..]);
      LastWithNameTail(params);
      forall i | 0 <= i < |params| && LastWithName(params, i)
        ensures e.vars[params[i].name] == args[i]
        ensures params[i].name in e.consts && !e.consts[params[i].name]
      {
        if i > 0 {
          assert params[1..][i - 1] == params[i] && args[1..][i - 1] == args[i];
        }
      }
    }
  }

  /**
   * Interpreter::evaluate_expression. A successful evaluation leaves the
   * environment as it found it.
   */
  function EvalExpr(h: Host, fuel: nat, env: Env, e: Expr): (o: Outcome<Value>)
    ensures o.result.Ok? ==> o.env == env
    decreases fuel, ExprSize(e), 1
  {
    match e
    case Integer(i) => Outcome(Ok(Value.Integer(i)), env)
    case Float(f) => Outcome(Ok(Value.Float(f)), env)
    case String(s) => Outcome(Ok(Value.String(s)), env)
    case Boolean(b) => Outcome(Ok(Value.Boolean(b)), env)
    case Nil => Outcome(Ok(Value.Nil), env)
    case Identifier(name) =>
      if IsBuiltin(name) then Outcome(CallBuiltin(h, name, []), env)
      else
        (match Get(env, name)
         case Some(v) => Outcome(Ok(v), env)
         case None => Outcome(RunExternal(h, name, []), env))
    case Binary(l, op, r) =>
      var ol := EvalExpr(h, fuel, env, l);
      if ol.result.Err? then ol
      else
        var or := EvalExpr(h, fuel, ol.env, r);
        if or.result.Err? then or
        else Outcome(ApplyBinary(h.floats, op, ol.result.value, or.result.value), or.env)
    case Unary(op, x) =>
      var ox := EvalExpr(h, fuel, env, x);
      if ox.result.Err? then ox
      else Outcome(ApplyUnary(h.floats, op, ox.result.value), ox.env)
    case Call(name, args) =>
      var oa := EvalExprs(h, fuel, env, args);
      if oa.result.Err? then Outcome(Err(oa.result.error), oa.env)
      else CallNamed(h, fuel, oa.env, name, oa.result.value)
    case Array(xs) =>
      var oa := EvalExprs(h, fuel, env, xs);
      if oa.result.Err? then Outcome(Err(oa.result.error), oa.env)
      else Outcome(Ok(Value.Array(oa.result.value)), oa.env)
    case Map(ps) =>
      var om := EvalPairs(h, fuel, env, ps, map[]);
      if om.result.Err? then Outcome(Err(om.result.error), om.env)
      else Outcome(Ok(Value.Map(om.result.value)), om.env)
    case Command(cmd) =>
      (match h.shell(cmd)
       case Ok(out) => Outcome(Ok(Value.String(Trim(out))), env)
       case Err(reason) => Outcome(Err(ShellError(reason)), env))
    case _ => Outcome(Err(ExpressionNotImplemented(e)), env)
  }

  /** The arguments of a call or the elements of an array literal, left to right, stopping at the first failure. */
  function EvalExprs(h: Host, fuel: nat, env: Env, es: seq<Expr>): (o: Outcome<seq<Value>>)
    ensures o.result.Ok? ==> o.env == env && |o.result.value| == |es|
    decreases fuel, ExprsSize(es), 2
  {
    if es == [] then Outcome(Ok([]), env)
    else
      var o0 := EvalExpr(h, fuel, env, es[0]);
      if o0.result.Err? then Outcome(Err(o0.result.error), o0.env)
      else
        var os := EvalExprs(h, fuel, o0.env, es[1..]);
        if os.result.Err? then os
        else Outcome(Ok([o0.result.value] + os.result.value), os.env)
  }

  /** The key a map literal stores a value under: a string key as is, any other key rendered by to_string. */
  function MapKey(h: Host, key: Value): (k: string)
    ensures key.String? ==> k == key.strValue
    ensures !key.String? ==> k == ToString(h.showFloat, h.showMap, key)
  {
    if key.String? then key.strValue else Render(h, key)
  }

  /**
   * The pairs of a map literal, key before value, inserted into `acc` in
   * order; a later pair with the same key replaces an earlier one.
   */
  function EvalPairs(h: Host, fuel: nat, env: Env, ps: seq<(Expr, Expr)>, acc: map<string, Value>)
    : (o: Outcome<map<string, Value>>)
    ensures o.result.Ok? ==> o.env == env && acc.Keys <= o.result.value.Keys
    decreases fuel, PairsSize(ps), 2
  {
    if ps == [] then Outcome(Ok(acc), env)
    else
      assert PairsSize(ps) == ExprSize(ps[0].0) + ExprSize(ps[0].1) + PairsSize(ps[1..]);
      var ok := EvalExpr(h, fuel, env, ps[0].0);
      if ok.result.Err? then Outcome(Err(ok.result.error), ok.env)
      else
        var ov := EvalExpr(h, fuel, ok.env, ps[0].1);
        if ov.result.Err? then Outcome(Err(ov.result.error), ov.env)
        else EvalPairs(h, fuel, ov.env, ps[1..], acc[MapKey(h, ok.result.value) := ov.result.value])
  }

  /**
   * The call arm of evaluate_expression once the arguments are values:
   * a built-in name first, then a function bound in the environment, and
   * otherwise an external command. A user function runs its body as a
   * block in a scope under its closure; on success the caller's
   * environment is restored, on failure the callee's is left behind.
   */
  function CallNamed(h: Host, fuel: nat, env: Env, name: string, args: seq<Value>): (o: Outcome<Value>)
    ensures o.result.Ok? ==> o.env == env
    decreases fuel, 0, 0
  {
    if IsBuiltin(name) then Outcome(CallBuiltin(h, name, args), env)
    else
      match Get(env, name)
      case Some(Function(_, params, body, closure)) =>
        if |params| != |args| then Outcome(Err(ArityMismatch(name, |params|, |args|)), env)
        else if fuel == 0 then Outcome(Err(OutOfFuel), env)
        else
          var ob := ExecBlock(h, fuel - 1, BindParams(Child(closure), params, args), body);
          if ob.result.Ok? then Outcome(ob.result, env) else ob
      case _ => Outcome(RunExternal(h, name, args), env)
  }

  /**
   * Interpreter::execute_statement. A successful statement keeps the
   * number of scopes and their well-formedness.
   */
  function ExecStmt(h: Host, fuel: nat, env: Env, s: Stmt): (o: Outcome<Value>)
    ensures o.result.Ok? ==> Depth(o.env) == Depth(env)
    ensures o.result.Ok? && WellFormed(env) ==> WellFormed(o.env)
    decreases fuel, StmtSize(s), 1
  {
    match s
    case Expression(e) => EvalExpr(h, fuel, env, e)
    case Let(name, _, e) =>
      var o := EvalExpr(h, fuel, env, e);
      if o.result.Err? then o
      else Outcome(o.result, Define(o.env, name, o.result.value))
    case Const(name, _, e) =>
      var o := EvalExpr(h, fuel, env, e);
      if o.result.Err? then o
      else Outcome(o.result, DefineConst(o.env, name, o.result.value))
    case Assignment(target, _, e) =>
      var o := EvalExpr(h, fuel, env, e);
      if o.result.Err? then o
      else
        (match target
         case Identifier(name) =>
           (match Set(o.env, name, o.result.value)
            case Ok(updated) =>
              SetEffect(o.env, name, o.result.value, name);
              Outcome(o.result, updated)
            case Err(f) => Outcome(Err(f), o.env))
         case _ => Outcome(Err(ComplexAssignmentTarget), o.env))
    case If(c, thenBlock, elseBlock) =>
      var o := EvalExpr(h, fuel, env, c);
      if o.result.Err? then o
      else if IsTruthy(o.result.value) then ExecBlock(h, fuel, o.env, thenBlock)
      else
        (match elseBlock
         case ElseBlock(b) =>
           assert ElseSize(elseBlock) == StmtsSize(b);
           ExecBlock(h, fuel, o.env, b)
         case NoElse => Outcome(Ok(Value.Nil), o.env))
    case Function(name, params, _, body) =>
      var f := Value.Function(name, params, body, env);
      Outcome(Ok(f), Define(env, name, f))
    case Return(r) =>
      (match r
       case Some(e) => EvalExpr(h, fuel, env, e)
       case None => Outcome(Ok(Value.Nil), env))
    case _ => Outcome(Err(StatementNotImplemented(s)), env)
  }

  /** The statement loop shared by execute_block and interpret: the value of the last statement, or `last` when there is none. */
  function ExecStmts(h: Host, fuel: nat, env: Env, ss: seq<Stmt>, last: Value): (o: Outcome<Value>)
    ensures o.result.Ok? ==> Depth(o.env) == Depth(env)
    ensures o.result.Ok? && WellFormed(env) ==> WellFormed(o.env)
    ensures o.result.Ok? && ss == [] ==> o.result.value == last
    decreases fuel, StmtsSize(ss), 2
  {
    if ss == [] then Outcome(Ok(last), env)
    else
      var o := ExecStmt(h, fuel, env, ss[0]);
      if o.result.Err? then o
      else ExecStmts(h, fuel, o.env, ss[1..], o.result.value)
  }

  /**
   * Interpreter::execute_block: the statements run in a fresh child scope;
   * on success the environment from before the block is restored, which
   * also discards assignments made inside it to outer variables.
   */
  function ExecBlock(h: Host, fuel: nat, env: Env, ss: seq<Stmt>): (o: Outcome<Value>)
    ensures o.result.Ok? ==> o.env == env
    ensures o.result.Ok? && ss == [] ==> o.result.value == Value.Nil
    decreases fuel, StmtsSize(ss), 3
  {
    var o := ExecStmts(h, fuel, Child(env), ss, Value.Nil);
    if o.result.Ok? then Outcome(o.result, env) else o
  }

  /** Interpreter::interpret: the program's statements in the current scope; nil for an empty program. */
  function Interpret(h: Host, fuel: nat, env: Env, p: Program): (o: Outcome<Value>)
    ensures o.result.Ok? ==> Depth(o.env) == Depth(env)
    ensures o.result.Ok? && WellFormed(env) ==> WellFormed(o.env)
    ensures p.statements == [] ==> o == Outcome(Ok(Value.Nil), env)
  {
    ExecStmts(h, fuel, env, p.statements, Value.Nil)
  }

  // ---------------------------------------------------------------- error messages

  /** The Debug names of the operators, as they appear in error messages. */
  function OperatorName(op: BinaryOperator): string {
    match op
    case Add => "Add"
    case Subtract => "Subtract"
    case Multiply => "Multiply"
    case Divide => "Divide"
    case Modulo => "Modulo"
    case Power => "Power"
    case Equal => "Equal"
    case NotEqual => "NotEqual"
    case Less => "Less"
    case LessEqual => "LessEqual"
    case Greater => "Greater"
    case GreaterEqual => "GreaterEqual"
    case And => "And"
    case Or => "Or"
    case BitwiseAnd => "BitwiseAnd"
    case BitwiseOr => "BitwiseOr"
    case BitwiseXor => "BitwiseXor"
    case LeftShift => "LeftShift"
    case RightShift => "RightShift"
  }

  function UnaryName(op: UnaryOperator): string {
    match op
    case Not => "Not"
    case Minus => "Minus"
    case BitwiseNot => "BitwiseNot"
  }

  /**
   * The text of each failure the source reports. `Unspecified` (a panic
   * or wrap-around of the source) and `OutOfFuel` have none.
   */
  function Message(f: Failure): (m: Option<string>)
    ensures m.None? <==> f.Unspecified? || f.OutOfFuel?
  {
    match f
    case ConstAssignment(name) => Some("Cannot assign to const variable: " + name)
    case UndefinedVariable(name) => Some("Undefined variable: " + name)
    case DivisionByZero => Some("Division by zero")
    case UnsupportedIntOp(op) => Some("Unsupported operator for integers: " + OperatorName(op))
    case UnsupportedFloatOp(op) => Some("Unsupported operator for floats: " + OperatorName(op))
    case UnsupportedStringOp(op) => Some("Unsupported operator for strings: " + OperatorName(op))
    case UnsupportedBoolOp(op) => Some("Unsupported operator for booleans: " + OperatorName(op))
    case UnsupportedOperation(l, op, r) => Some("Unsupported operation: " + l + " " + OperatorName(op) + " " + r)
    case UnsupportedUnary(op, t) => Some("Unsupported unary operation: " + UnaryName(op) + " " + t)
    case ArityMismatch(callee, expected, got) =>
      Some("Function " + callee + " expects " + NatToString(expected) + " arguments, got " + NatToString(got))
    case ComplexAssignmentTarget => Some("Complex assignment targets not yet supported")
    case StatementNotImplemented(_) => Some("Statement type not yet implemented")
    case ExpressionNotImplemented(_) => Some("Expression type not yet implemented")
    case CommandFailed(command, code) => Some("Command '" + command + "' failed with exit code " + IntToString(code))
    case CommandNotFound(command) => Some("Command not found: " + command)
    case CommandError(command, reason) => Some("Failed to execute command '" + command + "': " + reason)
    case ShellError(reason) => Some("Failed to execute command: " + reason)
    case BuiltinError(m) => Some(m)
    case Unspecified => None
    case OutOfFuel => None
  }
}

=== FILE: interpreter_props.dfy ===
/**
 * Properties of the evaluator: scoping of blocks and calls, sequencing of
 * statements, how a call is resolved, the behaviour the source's own
 * tests describe, and that the fuel bound of the model never changes a
 * result it lets through.
 */
module InterpreterProps {
  import opened Wrappers
  import opened Ast
  import opened Values
  import opened Operators
  import opened Interpreter

  // ---------------------------------------------------------------- sequencing

  /**
   * Running `a + b` is running `a` and then `b` from the environment and
   * value `a` left: a REPL session is one long program.
   */
  lemma {:induction false} ExecStmtsAppend(h: Host, fuel: nat, env: Env, a: seq<Stmt>, b: seq<Stmt>, last: Value)
    ensures ExecStmts(h, fuel, env, a + b, last) ==
              var o := ExecStmts(h, fuel, env, a, last);
              if o.result.Err? then o else ExecStmts(h, fuel, o.env, b, o.result.value)
    decreases |a|
  {
    if a != [] {
      assert (a + b)[0] == a[0];
      assert (a + b)[1..] == a[1..] + b;
      var o := ExecStmt(h, fuel, env, a[0]);
      if o.result.Ok? {
        ExecStmtsAppend(h, fuel, o.env, a[1..], b, o.result.value);
      }
    } else {
      assert a + b == b;
    }
  }

  /** Interpreting two programs in turn is interpreting their concatenation. */
  lemma InterpretAppend(h: Host, fuel: nat, env: Env, p: Program, q: Program)
    ensures var o := Interpret(h, fuel, env, p);
            o.result.Ok? && q.statements != [] ==>
              Interpret(h, fuel, env, Program(p.statements + q.statements)) == Interpret(h, fuel, o.env, q)
    ensures Interpret(h, fuel, env, p).result.Err? ==>
              Interpret(h, fuel, env, Program(p.statements + q.statements)) == Interpret(h, fuel, env, p)
  {
    ExecStmtsAppend(h, fuel, env, p.statements, q.statements, Value.Nil);
    var o := Interpret(h, fuel, env, p);
    if o.result.Ok? && q.statements != [] {
      ExecStmtsStartValue(h, fuel, o.env, q.statements, o.result.value, Value.Nil);
    }
  }

  /** The starting value only matters for an empty statement list. */
  lemma ExecStmtsStartValue(h: Host, fuel: nat, env: Env, ss: seq<Stmt>, v: Value, w: Value)
    requires ss != []
    ensures ExecStmts(h, fuel, env, ss, v) == ExecStmts(h, fuel, env, ss, w)
  {
  }

  /** `return` does not end a block: the statements after it still run, and the block's value is the last one's. */
  lemma ReturnDoesNotStop(h: Host, fuel: nat, env: Env, e: Expr, rest: seq<Stmt>)
    requires rest != []
    requires EvalExpr(h, fuel, Child(env), e).result.Ok?
    ensures ExecBlock(h, fuel, env, [Stmt.Return(Some(e))] + rest) ==
              ExecBlock(h, fuel, env, [Stmt.Expression(e)] + rest)
    ensures ExecStmts(h, fuel, Child(env), [Stmt.Return(Some(e))] + rest, Value.Nil) ==
              ExecStmts(h, fuel, Child(env), rest, Value.Nil)
  {
    var ss := [Stmt.Return(Some(e))] + rest;
    assert ss[0] == Stmt.Return(Some(e)) && ss[1..] == rest;
    var tt := [Stmt.Expression(e)] + rest;
    assert tt[0] == Stmt.Expression(e) && tt[1..] == rest;
    var o := EvalExpr(h, fuel, Child(env), e);
    assert ExecStmt(h, fuel, Child(env), ss[0]) == o;
    assert ExecStmt(h, fuel, Child(env), tt[0]) == o;
    StmtsCons(h, fuel, Child(env), ss, Value.Nil);
    StmtsCons(h, fuel, Child(env), tt, Value.Nil);
    ExecStmtsStartValue(h, fuel, Child(env), rest, o.result.value, Value.Nil);
  }

  /** One step of the statement loop. */
  lemma StmtsCons(h: Host, fuel: nat, env: Env, ss: seq<Stmt>, last: Value)
    requires ss != []
    ensures ExecStmts(h, fuel, env, ss, last) ==
              var o := ExecStmt(h, fuel, env, ss[0]);
              if o.result.Err? then o else ExecStmts(h, fuel, o.env, ss[1..], o.result.value)
  {
  }

  /** A statement that succeeds hands its environment and value on to the rest. */
  lemma StmtsStep(h: Host, fuel: nat, env: Env, s: Stmt, rest: seq<Stmt>, last: Value, v: Value, env': Env)
    requires ExecStmt(h, fuel, env, s) == Outcome(Ok(v), env')
    ensures ExecStmts(h, fuel, env, [s] + rest, last) == ExecStmts(h, fuel, env', rest, v)
  {
    assert ([s] + rest)[0] == s && ([s] + rest)[1..] == rest;
    StmtsCons(h, fuel, env, [s] + rest, last);
  }

  /** Four statements that succeed one after the other: the program's value is the last one's. */
  lemma RunFour(h: Host, fuel: nat, env0: Env, s1: Stmt, s2: Stmt, s3: Stmt, s4: Stmt,
                v1: Value, v2: Value, v3: Value, v4: Value, env1: Env, env2: Env, env3: Env, env4: Env)
    requires ExecStmt(h, fuel, env0, s1) == Outcome(Ok(v1), env1)
    requires ExecStmt(h, fuel, env1, s2) == Outcome(Ok(v2), env2)
    requires ExecStmt(h, fuel, env2, s3) == Outcome(Ok(v3), env3)
    requires ExecStmt(h, fuel, env3, s4) == Outcome(Ok(v4), env4)
    ensures Interpret(h, fuel, env0, Program([s1, s2, s3, s4])) == Outcome(Ok(v4), env4)
  {
    assert [s1] + [s2, s3, s4] == [s1, s2, s3, s4];
    assert [s2] + [s3, s4] == [s2, s3, s4];
    assert [s3] + [s4] == [s3, s4];
    StmtsStep(h, fuel, env0, s1, [s2, s3, s4], Value.Nil, v1, env1);
    StmtsStep(h, fuel, env1, s2, [s3, s4], v1, v2, env2);
    StmtsStep(h, fuel, env2, s3, [s4], v2, v3, env3);
    StmtsSingle(h, fuel, env3, s4, v3);
  }

  /** A list of exactly one statement. */
  lemma StmtsSingle(h: Host, fuel: nat, env: Env, s: Stmt, last: Value)
    ensures ExecStmts(h, fuel, env, [s], last) == ExecStmt(h, fuel, env, s)
  {
    assert [s][0] == s && [s][1..] == [];
    StmtsCons(h, fuel, env, [s], last);
  }

  // ---------------------------------------------------------------- scoping

  /**
   * A block restores the environment it started with, so an assignment
   * inside it to an outer variable is lost once the block succeeds.
   */
  lemma BlockDiscardsAssignment(h: Host, fuel: nat, env: Env, name: string, v: Value, w: Value)
    requires Get(env, name) == Some(v) && !BoundConst(env, name)
    ensures ExecBlock(h, fuel, env, [Stmt.Assignment(AssignmentTarget.Identifier(name), AssignmentOperator.Assign, ValueExpr(w))])
            == Outcome(Ok(ValueToLiteral(w)), env)
    ensures Get(ExecBlock(h, fuel, env, [Stmt.Assignment(AssignmentTarget.Identifier(name), AssignmentOperator.Assign, ValueExpr(w))]).env, name)
            == Some(v)
  {
    var s := Stmt.Assignment(AssignmentTarget.Identifier(name), AssignmentOperator.Assign, ValueExpr(w));
    ChildSeesParent(env, name);
    LiteralEvaluates(h, fuel, Child(env), w);
    assert Set(Child(env), name, ValueToLiteral(w)).Ok?;
    assert ExecStmt(h, fuel, Child(env), s).result == Ok(ValueToLiteral(w));
    StmtsSingle(h, fuel, Child(env), s, Value.Nil);
  }

  /**
   * A failing block does not restore the environment it started with: its
   * outcome is that of the statement that failed, in the environment the
   * statements before it left inside the block's own scope.
   */
  lemma BlockFailureKeepsScope(h: Host, fuel: nat, env: Env, pre: seq<Stmt>, s: Stmt, rest: seq<Stmt>, v: Value, inner: Env)
    requires ExecStmts(h, fuel, Child(env), pre, Value.Nil) == Outcome(Ok(v), inner)
    requires ExecStmt(h, fuel, inner, s).result.Err?
    ensures ExecBlock(h, fuel, env, pre + [s] + rest) == ExecStmt(h, fuel, inner, s)
  {
    assert pre + [s] + rest == pre + ([s] + rest);
    ExecStmtsAppend(h, fuel, Child(env), pre, [s] + rest, Value.Nil);
    StmtsCons(h, fuel, inner, [s] + rest, v);
    assert ([s] + rest)[0] == s;
  }

  /** `{ let y is 1; 1 / 0 }` fails, and the environment left behind is the block's scope, still holding `y`. */
  lemma FailedBlockKeepsScope(h: Host, fuel: nat, env: Env)
    ensures var ss := [Stmt.Let("y", None, Expr.Integer(1)), Stmt.Expression(Expr.Binary(Expr.Integer(1), Divide, Expr.Integer(0)))];
            var o := ExecBlock(h, fuel, env, ss);
            && o.result == Err(DivisionByZero)
            && o.env.parent == Some(env)
            && Get(o.env, "y") == Some(Value.Integer(1))
  {
    var s1 := Stmt.Let("y", None, Expr.Integer(1));
    var s2 := Stmt.Expression(Expr.Binary(Expr.Integer(1), Divide, Expr.Integer(0)));
    var inner := Define(Child(env), "y", Value.Integer(1));
    assert ExecStmt(h, fuel, Child(env), s1) == Outcome(Ok(Value.Integer(1)), inner);
    StmtsSingle(h, fuel, Child(env), s1, Value.Nil);
    DivisionByZeroStatement(h, fuel, inner);
    BlockFailureKeepsScope(h, fuel, env, [s1], s2, [], Value.Integer(1), inner);
    assert [s1] + [s2] + [] == [s1, s2];
    assert inner.vars["y"] == Value.Integer(1);
  }

  /** The statement `1 / 0` fails with division by zero and leaves the environment as it was. */
  lemma DivisionByZeroStatement(h: Host, fuel: nat, env: Env)
    ensures ExecStmt(h, fuel, env, Stmt.Expression(Expr.Binary(Expr.Integer(1), Divide, Expr.Integer(0))))
            == Outcome(Err(DivisionByZero), env)
  {
    assert ApplyBinary(h.floats, Divide, Value.Integer(1), Value.Integer(0)) == IntOp(Divide, 1, 0);
    assert EvalExpr(h, fuel, env, Expr.Integer(1)) == Outcome(Ok(Value.Integer(1)), env);
    assert EvalExpr(h, fuel, env, Expr.Integer(0)) == Outcome(Ok(Value.Integer(0)), env);
  }

  lemma LiteralEvaluates(h: Host, fuel: nat, env: Env, w: Value)
    ensures EvalExpr(h, fuel, env, ValueExpr(w)) == Outcome(Ok(ValueToLiteral(w)), env)
  {
  }

  /** A literal expression for a scalar value (anything else becomes nil). */
  function ValueExpr(v: Value): (e: Expr)
    ensures e.Integer? || e.String? || e.Boolean? || e.Nil?
  {
    match v
    case Integer(i) => Expr.Integer(i)
    case String(s) => Expr.String(s)
    case Boolean(b) => Expr.Boolean(b)
    case _ => Expr.Nil
  }

  /** The value a literal from `ValueExpr` evaluates to. */
  function ValueToLiteral(v: Value): (r: Value)
    ensures v.Integer? || v.String? || v.Boolean? ==> r == v
    ensures !(v.Integer? || v.String? || v.Boolean?) ==> r == Value.Nil
  {
    match v
    case Integer(_) => v
    case String(_) => v
    case Boolean(_) => v
    case _ => Value.Nil
  }

  /** `+=` and `-=` store the right-hand side, exactly as `=` does. */
  lemma CompoundAssignIgnoresOperator(h: Host, fuel: nat, env: Env, t: AssignmentTarget, e: Expr)
    ensures ExecStmt(h, fuel, env, Stmt.Assignment(t, AddAssign, e)) == ExecStmt(h, fuel, env, Stmt.Assignment(t, AssignmentOperator.Assign, e))
    ensures ExecStmt(h, fuel, env, Stmt.Assignment(t, SubtractAssign, e)) == ExecStmt(h, fuel, env, Stmt.Assignment(t, AssignmentOperator.Assign, e))
  {
  }

  /**
   * Assigning to a name: success exactly when a non-const binding exists,
   * the innermost binding then holds the value and no other name changes.
   */
  lemma AssignmentEffect(h: Host, fuel: nat, env: Env, name: string, e: Expr, other: string)
    requires EvalExpr(h, fuel, env, e).result.Ok?
    ensures var o := ExecStmt(h, fuel, env, Stmt.Assignment(AssignmentTarget.Identifier(name), AssignmentOperator.Assign, e));
            && (o.result.Ok? <==> Get(env, name).Some? && !BoundConst(env, name))
            && (o.result.Ok? ==> Get(o.env, name) == Some(EvalExpr(h, fuel, env, e).result.value))
            && (o.result.Ok? && other != name ==> Get(o.env, other) == Get(env, other))
            && (o.result.Err? ==> o.env == env)
  {
    var v := EvalExpr(h, fuel, env, e).result.value;
    if Set(env, name, v).Ok? {
      SetEffect(env, name, v, other);
    }
  }

  /** `let` and `const` bind in the current scope; every other name reads as before. */
  lemma DeclarationEffect(h: Host, fuel: nat, env: Env, name: string, e: Expr, isConst: bool, other: string)
    requires EvalExpr(h, fuel, env, e).result.Ok?
    ensures var s := if isConst then Stmt.Const(name, None, e) else Stmt.Let(name, None, e);
            var o := ExecStmt(h, fuel, env, s);
            && o.result == EvalExpr(h, fuel, env, e).result
            && Get(o.env, name) == Some(o.result.value)
            && BoundConst(o.env, name) == isConst
            && (other != name ==> Get(o.env, other) == Get(env, other))
  {
    var v := EvalExpr(h, fuel, env, e).result.value;
    GetAfterDefine(env, name, v, isConst, other);
  }

  // ---------------------------------------------------------------- expressions and statements by kind

  /**
   * An argument or element list succeeds exactly when each expression in
   * it does, and then value `i` is what expression `i` evaluates to.
   * Successful evaluations leave the environment alone, so each element
   * is evaluated in the same environment.
   */
  lemma {:induction false} EvalExprsElementwise(h: Host, fuel: nat, env: Env, es: seq<Expr>)
    ensures EvalExprs(h, fuel, env, es).result.Ok? <==>
              forall i | 0 <= i < |es| :: EvalExpr(h, fuel, env, es[i]).result.Ok?
    ensures EvalExprs(h, fuel, env, es).result.Ok? ==>
              forall i | 0 <= i < |es| ::
                EvalExpr(h, fuel, env, es[i]) == Outcome(Ok(EvalExprs(h, fuel, env, es).result.value[i]), env)
  {
    if es != [] {
      EvalExprsElementwise(h, fuel, env, es[1..]);
      assert forall i | 1 <= i < |es| :: es[i] == es[1..][i - 1];
    }
  }

  /**
   * When expression `k` of a list is the first to fail, the list fails
   * with its error and the environment it left.
   */
  lemma {:induction false} EvalExprsFirstFailure(h: Host, fuel: nat, env: Env, es: seq<Expr>, k: nat)
    requires k < |es|
    requires forall i | 0 <= i < k :: EvalExpr(h, fuel, env, es[i]).result.Ok?
    requires EvalExpr(h, fuel, env, es[k]).result.Err?
    ensures EvalExprs(h, fuel, env, es)
              == Outcome(Err(EvalExpr(h, fuel, env, es[k]).result.error), EvalExpr(h, fuel, env, es[k]).env)
  {
    if k > 0 {
      assert forall i | 0 <= i < k - 1 :: es[1..][i] == es[i + 1];
      EvalExprsFirstFailure(h, fuel, env, es[1..], k - 1);
    }
  }

  /** A binary expression evaluates its left operand, then its right one, then applies the operator; the first failure is the result. */
  lemma BinaryEvaluation(h: Host, fuel: nat, env: Env, l: Expr, op: BinaryOperator, r: Expr)
    ensures var ol := EvalExpr(h, fuel, env, l);
            ol.result.Err? ==> EvalExpr(h, fuel, env, Expr.Binary(l, op, r)) == ol
    ensures var ol := EvalExpr(h, fuel, env, l);
            var or := EvalExpr(h, fuel, env, r);
            ol.result.Ok? && or.result.Err? ==> EvalExpr(h, fuel, env, Expr.Binary(l, op, r)) == or
    ensures var ol := EvalExpr(h, fuel, env, l);
            var or := EvalExpr(h, fuel, env, r);
            ol.result.Ok? && or.result.Ok? ==>
              EvalExpr(h, fuel, env, Expr.Binary(l, op, r))
                == Outcome(ApplyBinary(h.floats, op, ol.result.value, or.result.value), env)
  {
  }

  /** A unary expression evaluates its operand and applies the operator to the value; a failing operand is the result. */
  lemma UnaryEvaluation(h: Host, fuel: nat, env: Env, op: UnaryOperator, x: Expr)
    ensures var ox := EvalExpr(h, fuel, env, x);
            ox.result.Err? ==> EvalExpr(h, fuel, env, Expr.Unary(op, x)) == ox
    ensures var ox := EvalExpr(h, fuel, env, x);
            ox.result.Ok? ==> EvalExpr(h, fuel, env, Expr.Unary(op, x)) == Outcome(ApplyUnary(h.floats, op, ox.result.value), env)
  {
  }

  /**
   * An array literal succeeds exactly when every element does, giving the
   * array of the element values in order; otherwise the first failing
   * element's error is the result.
   */
  lemma ArrayEvaluation(h: Host, fuel: nat, env: Env, xs: seq<Expr>)
    ensures EvalExpr(h, fuel, env, Expr.Array(xs)).result.Ok? <==>
              forall i | 0 <= i < |xs| :: EvalExpr(h, fuel, env, xs[i]).result.Ok?
    ensures var o := EvalExpr(h, fuel, env, Expr.Array(xs));
            o.result.Ok? ==>
              && o.env == env
              && o.result.value.Array? && |o.result.value.elements| == |xs|
              && forall i | 0 <= i < |xs| :: EvalExpr(h, fuel, env, xs[i]) == Outcome(Ok(o.result.value.elements[i]), env)
    ensures forall k | 0 <= k < |xs| ::
              (forall i | 0 <= i < k :: EvalExpr(h, fuel, env, xs[i]).result.Ok?) &&
              EvalExpr(h, fuel, env, xs[k]).result.Err? ==>
                EvalExpr(h, fuel, env, Expr.Array(xs))
                  == Outcome(Err(EvalExpr(h, fuel, env, xs[k]).result.error), EvalExpr(h, fuel, env, xs[k]).env)
  {
    EvalExprsElementwise(h, fuel, env, xs);
    forall k | 0 <= k < |xs| && (forall i | 0 <= i < k :: EvalExpr(h, fuel, env, xs[i]).result.Ok?) &&
               EvalExpr(h, fuel, env, xs[k]).result.Err?
      ensures EvalExprs(h, fuel, env, xs)
                == Outcome(Err(EvalExpr(h, fuel, env, xs[k]).result.error), EvalExpr(h, fuel, env, xs[k]).env)
    {
      EvalExprsFirstFailure(h, fuel, env, xs, k);
    }
  }

  /** A call evaluates its arguments left to right and then resolves the name with those values; a failing argument is the result. */
  lemma CallEvaluation(h: Host, fuel: nat, env: Env, name: string, args: seq<Expr>)
    ensures var oa := EvalExprs(h, fuel, env, args);
            oa.result.Err? ==> EvalExpr(h, fuel, env, Expr.Call(name, args)) == Outcome(Err(oa.result.error), oa.env)
    ensures var oa := EvalExprs(h, fuel, env, args);
            oa.result.Ok? ==> EvalExpr(h, fuel, env, Expr.Call(name, args)) == CallNamed(h, fuel, env, name, oa.result.value)
  {
  }

  /** A map literal inserts its pairs into an empty map; a failing key or value is the result. */
  lemma MapEvaluation(h: Host, fuel: nat, env: Env, ps: seq<(Expr, Expr)>)
    ensures var om := EvalPairs(h, fuel, env, ps, map[]);
            om.result.Err? ==> EvalExpr(h, fuel, env, Expr.Map(ps)) == Outcome(Err(om.result.error), om.env)
    ensures var om := EvalPairs(h, fuel, env, ps, map[]);
            om.result.Ok? ==> EvalExpr(h, fuel, env, Expr.Map(ps)) == Outcome(Ok(Value.Map(om.result.value)), env)
  {
  }

  /** `$(cmd)` runs the text through the shell: its output with surrounding whitespace trimmed, or the shell's error. */
  lemma CommandEvaluation(h: Host, fuel: nat, env: Env, cmd: string)
    ensures h.shell(cmd).Ok? ==>
              EvalExpr(h, fuel, env, Expr.Command(cmd)) == Outcome(Ok(Value.String(Trim(h.shell(cmd).value))), env)
    ensures h.shell(cmd).Err? ==>
              EvalExpr(h, fuel, env, Expr.Command(cmd)) == Outcome(Err(ShellError(h.shell(cmd).error)), env)
  {
  }

  /** Method calls, indexing, field access, interpolation, pipelines and ranges are rejected as not implemented. */
  lemma UnimplementedExpressions(h: Host, fuel: nat, env: Env, e: Expr)
    requires e.MethodCall? || e.Index? || e.FieldAccess? || e.Interpolation? || e.Pipeline? || e.Range?
    ensures EvalExpr(h, fuel, env, e) == Outcome(Err(ExpressionNotImplemented(e)), env)
  {
  }

  /**
   * `if` evaluates its condition and runs the then-block as a block when
   * the value is truthy; a failing condition is the result. The falsy
   * case is `IfFalsy`.
   */
  lemma IfDispatch(h: Host, fuel: nat, env: Env, c: Expr, t: seq<Stmt>, e: ElseBranch)
    ensures var oc := EvalExpr(h, fuel, env, c);
            oc.result.Err? ==> ExecStmt(h, fuel, env, Stmt.If(c, t, e)) == oc
    ensures var oc := EvalExpr(h, fuel, env, c);
            oc.result.Ok? && IsTruthy(oc.result.value) ==> ExecStmt(h, fuel, env, Stmt.If(c, t, e)) == ExecBlock(h, fuel, env, t)
  {
  }

  /** A falsy condition runs the else-block as a block, or yields nil when there is none. */
  lemma IfFalsy(h: Host, fuel: nat, env: Env, c: Expr, t: seq<Stmt>, e: ElseBranch)
    ensures var oc := EvalExpr(h, fuel, env, c);
            oc.result.Ok? && !IsTruthy(oc.result.value) && e.ElseBlock? ==>
              ExecStmt(h, fuel, env, Stmt.If(c, t, e)) == ExecBlock(h, fuel, env, e.stmts)
    ensures var oc := EvalExpr(h, fuel, env, c);
            oc.result.Ok? && !IsTruthy(oc.result.value) && e.NoElse? ==>
              ExecStmt(h, fuel, env, Stmt.If(c, t, e)) == Outcome(Ok(Value.Nil), env)
  {
  }

  /** An expression statement is the evaluation of its expression, environment included. */
  lemma ExpressionStatementEvaluation(h: Host, fuel: nat, env: Env, e: Expr)
    ensures ExecStmt(h, fuel, env, Stmt.Expression(e)) == EvalExpr(h, fuel, env, e)
  {
  }

  /** `return` with a value evaluates it; without one it yields nil and changes nothing. */
  lemma ReturnEvaluation(h: Host, fuel: nat, env: Env, r: Option<Expr>)
    ensures r.Some? ==> ExecStmt(h, fuel, env, Stmt.Return(r)) == EvalExpr(h, fuel, env, r.value)
    ensures r.None? ==> ExecStmt(h, fuel, env, Stmt.Return(r)) == Outcome(Ok(Value.Nil), env)
  {
  }

  /** `for`, `while`, `try`, `match`, `break` and `continue` are rejected as not implemented, before anything runs. */
  lemma UnimplementedStatements(h: Host, fuel: nat, env: Env, s: Stmt)
    requires s.For? || s.While? || s.Try? || s.Match? || s.Break? || s.Continue?
    ensures ExecStmt(h, fuel, env, s) == Outcome(Err(StatementNotImplemented(s)), env)
  {
  }

  // ---------------------------------------------------------------- map literals

  /** The key a map-literal pair evaluates to, when its key expression succeeds. */
  function PairKey(h: Host, fuel: nat, env: Env, p: (Expr, Expr)): Option<string> {
    var k := EvalExpr(h, fuel, env, p.0).result;
    if k.Ok? then Some(MapKey(h, k.value)) else None
  }

  /** The value a map-literal pair evaluates to, when its value expression succeeds. */
  function PairValue(h: Host, fuel: nat, env: Env, p: (Expr, Expr)): Option<Value> {
    var v := EvalExpr(h, fuel, env, p.1).result;
    if v.Ok? then Some(v.value) else None
  }

  /** No pair after `ps[i]` has the same key. */
  predicate LastKey(h: Host, fuel: nat, env: Env, ps: seq<(Expr, Expr)>, i: nat)
    requires i < |ps|
  {
    forall j | i < j < |ps| :: PairKey(h, fuel, env, ps[j]) != PairKey(h, fuel, env, ps[i])
  }

  /** No pair of `ps` has the key `k`. */
  predicate NoPairKey(h: Host, fuel: nat, env: Env, ps: seq<(Expr, Expr)>, k: string) {
    forall j | 0 <= j < |ps| :: PairKey(h, fuel, env, ps[j]) != Some(k)
  }

  /** How `LastKey` and `NoPairKey` carry over from `ps` to `ps[1..]`. */
  lemma PairsTail(h: Host, fuel: nat, env: Env, ps: seq<(Expr, Expr)>)
    requires |ps| >= 1
    ensures forall i | 1 <= i < |ps| :: ps[1..][i - 1] == ps[i]
    ensures forall i | 1 <= i < |ps| && LastKey(h, fuel, env, ps, i) :: LastKey(h, fuel, env, ps[1..], i - 1)
    ensures forall k | LastKey(h, fuel, env, ps, 0) && PairKey(h, fuel, env, ps[0]) == Some(k) ::
              NoPairKey(h, fuel, env, ps[1..], k)
    ensures forall k | NoPairKey(h, fuel, env, ps, k) ::
              NoPairKey(h, fuel, env, ps[1..], k) && PairKey(h, fuel, env, ps[0]) != Some(k)
    ensures forall k | !NoPairKey(h, fuel, env, ps[1..], k) :: !NoPairKey(h, fuel, env, ps, k)
  {
    var rest := ps[1..];
    assert forall j | 0 <= j < |rest| :: rest[j] == ps[j + 1];
    forall k | !NoPairKey(h, fuel, env, rest, k)
      ensures !NoPairKey(h, fuel, env, ps, k)
    {
      var j :| 0 <= j < |rest| && PairKey(h, fuel, env, rest[j]) == Some(k);
      assert ps[j + 1] == rest[j];
    }
  }

  /**
   * A map literal that evaluates holds every pair's key; a key maps to the
   * value of the last pair with that key, a later pair replacing an earlier
   * one; and a key no pair names keeps its value from `acc`.
   */
  lemma {:induction false} EvalPairsLastWins(h: Host, fuel: nat, env: Env, ps: seq<(Expr, Expr)>, acc: map<string, Value>)
    ensures var o := EvalPairs(h, fuel, env, ps, acc);
            o.result.Ok? ==>
              && (forall i | 0 <= i < |ps| ::
                    && PairKey(h, fuel, env, ps[i]).Some? && PairValue(h, fuel, env, ps[i]).Some?
                    && PairKey(h, fuel, env, ps[i]).value in o.result.value
                    && (LastKey(h, fuel, env, ps, i) ==>
                          o.result.value[PairKey(h, fuel, env, ps[i]).value] == PairValue(h, fuel, env, ps[i]).value))
              && (forall k | k in acc && NoPairKey(h, fuel, env, ps, k) :: k in o.result.value && o.result.value[k] == acc[k])
              && (forall k | k in o.result.value :: k in acc || !NoPairKey(h, fuel, env, ps, k))
    decreases |ps|
  {
    var o := EvalPairs(h, fuel, env, ps, acc);
    if ps != [] && o.result.Ok? {
      var ok := EvalExpr(h, fuel, env, ps[0].0);
      var ov := EvalExpr(h, fuel, env, ps[0].1);
      var acc' := acc[MapKey(h, ok.result.value) := ov.result.value];
      assert o == EvalPairs(h, fuel, env, ps[1..], acc');
      EvalPairsLastWins(h, fuel, env, ps[1..], acc');
      PairsTail(h, fuel, env, ps);
    }
  }

  // ---------------------------------------------------------------- calls

  /** A built-in name always reaches the built-in, whatever the environment binds to it. */
  lemma BuiltinsShadowFunctions(h: Host, fuel: nat, env: Env, name: string, args: seq<Value>)
    requires IsBuiltin(name)
    ensures CallNamed(h, fuel, env, name, args) == Outcome(CallBuiltin(h, name, args), env)
  {
  }

  /** A name bound to no function (unbound, or bound to another kind of value) runs as an external command. */
  lemma NonFunctionsRunExternally(h: Host, fuel: nat, env: Env, name: string, args: seq<Value>)
    requires !IsBuiltin(name)
    requires Get(env, name).None? || !Get(env, name).value.Function?
    ensures CallNamed(h, fuel, env, name, args) == Outcome(RunExternal(h, name, args), env)
  {
  }

  /**
   * A bare name is resolved in three steps: a built-in name calls the
   * built-in with no arguments, whatever the environment binds to it;
   * otherwise the innermost binding is the value (a function value is
   * not called); otherwise the name runs as an external command with no
   * arguments.
   */
  lemma IdentifierResolution(h: Host, fuel: nat, env: Env, name: string)
    ensures IsBuiltin(name) ==>
              EvalExpr(h, fuel, env, Expr.Identifier(name)) == Outcome(CallBuiltin(h, name, []), env)
    ensures !IsBuiltin(name) && Get(env, name).Some? ==>
              EvalExpr(h, fuel, env, Expr.Identifier(name)) == Outcome(Ok(Get(env, name).value), env)
    ensures !IsBuiltin(name) && Get(env, name).None? ==>
              EvalExpr(h, fuel, env, Expr.Identifier(name)) == Outcome(RunExternal(h, name, []), env)
  {
  }

  /** A user function called with the wrong number of arguments fails before running, whatever the fuel. */
  lemma ArityChecked(h: Host, fuel: nat, env: Env, name: string, args: seq<Value>)
    requires !IsBuiltin(name)
    requires Get(env, name).Some? && Get(env, name).value.Function?
    requires |Get(env, name).value.parameters| != |args|
    ensures CallNamed(h, fuel, env, name, args)
            == Outcome(Err(ArityMismatch(name, |Get(env, name).value.parameters|, |args|)), env)
  {
  }

  /**
   * A function value captures the environment from before its own
   * definition, so inside its body its own name is not bound: a
   * self-call falls through to an external command of that name.
   */
  lemma SelfCallRunsExternally(h: Host, fuel: nat, env: Env, f: string)
    requires fuel >= 1
    requires !IsBuiltin(f) && Get(env, f).None?
    ensures var body := [Stmt.Expression(Expr.Call(f, []))];
            var prog := Program([Stmt.Function(f, [], None, body), Stmt.Expression(Expr.Call(f, []))]);
            Interpret(h, fuel, env, prog).result == RunExternal(h, f, [])
  {
    var call := Stmt.Expression(Expr.Call(f, []));
    var body := [call];
    var fv := Value.Function(f, [], body, env);
    var def := Stmt.Function(f, [], None, body);
    var env1 := Define(env, f, fv);
    SelfCallTop(h, fuel, env, f);
    assert ExecStmt(h, fuel, env, def) == Outcome(Ok(fv), env1);
    assert [def] + [call] == [def, call];
    StmtsStep(h, fuel, env, def, [call], Value.Nil, fv, env1);
    StmtsSingle(h, fuel, env1, call, fv);
  }

  /** Inside the body, `f()` finds no binding of `f` in the closure or the scopes above it. */
  lemma SelfCallBody(h: Host, fuel: nat, env: Env, f: string)
    requires !IsBuiltin(f) && Get(env, f).None?
    ensures var call := Stmt.Expression(Expr.Call(f, []));
            ExecBlock(h, fuel, BindParams(Child(env), [], []), [call]).result == RunExternal(h, f, [])
  {
    var call := Stmt.Expression(Expr.Call(f, []));
    var scope := BindParams(Child(env), [], []);
    var inner := Child(scope);
    ChildSeesParent(env, f);
    ChildSeesParent(scope, f);
    assert EvalExprs(h, fuel, inner, []) == Outcome(Ok([]), inner);
    assert CallNamed(h, fuel, inner, f, []).result == RunExternal(h, f, []);
    assert ExecStmt(h, fuel, inner, call).result == RunExternal(h, f, []);
    StmtsSingle(h, fuel, inner, call, Value.Nil);
  }

  /** At top level, `f()` runs the function just defined, whose body runs the external command. */
  lemma SelfCallTop(h: Host, fuel: nat, env: Env, f: string)
    requires fuel >= 1
    requires !IsBuiltin(f) && Get(env, f).None?
    ensures var call := Stmt.Expression(Expr.Call(f, []));
            var fv := Value.Function(f, [], [call], env);
            ExecStmt(h, fuel, Define(env, f, fv), call).result == RunExternal(h, f, [])
  {
    var call := Stmt.Expression(Expr.Call(f, []));
    var fv := Value.Function(f, [], [call], env);
    var env1 := Define(env, f, fv);
    SelfCallBody(h, fuel - 1, env, f);
    assert Get(env1, f) == Some(fv);
    assert EvalExprs(h, fuel, env1, []) == Outcome(Ok([]), env1);
    assert CallNamed(h, fuel, env1, f, []).result == RunExternal(h, f, []);
  }

  // ---------------------------------------------------------------- the source's test programs

  /** Ast for `2 + 3 * 4`: multiplication nested on the right. */
  lemma SimpleArithmetic(h: Host, fuel: nat)
    ensures var e := Expr.Binary(Expr.Integer(2), Add, Expr.Binary(Expr.Integer(3), Multiply, Expr.Integer(4)));
            Interpret(h, fuel, InitialEnv(), Program([Stmt.Expression(e)])).result == Ok(Value.Integer(14))
  {
    var env := InitialEnv();
    var m := Expr.Binary(Expr.Integer(3), Multiply, Expr.Integer(4));
    var e := Expr.Binary(Expr.Integer(2), Add, m);
    assert EvalExpr(h, fuel, env, m) == Outcome(Ok(Value.Integer(12)), env);
    assert EvalExpr(h, fuel, env, e) == Outcome(Ok(Value.Integer(14)), env);
    StmtsSingle(h, fuel, env, Stmt.Expression(e), Value.Nil);
  }

  /** `const x is 42` then `x = 10` fails with "Cannot assign to const variable: x". */
  lemma ConstReassignmentFails(h: Host, fuel: nat)
    ensures var prog := Program([Stmt.Const("x", None, Expr.Integer(42)),
                                 Stmt.Assignment(AssignmentTarget.Identifier("x"), AssignmentOperator.Assign, Expr.Integer(10))]);
            var o := Interpret(h, fuel, InitialEnv(), prog);
            && o.result == Err(ConstAssignment("x"))
            && Message(o.result.error) == Some("Cannot assign to const variable: x")
            && Get(o.env, "x") == Some(Value.Integer(42))
  {
    var env0 := InitialEnv();
    var s1 := Stmt.Const("x", None, Expr.Integer(42));
    var s2 := Stmt.Assignment(AssignmentTarget.Identifier("x"), AssignmentOperator.Assign, Expr.Integer(10));
    var env1 := DefineConst(env0, "x", Value.Integer(42));
    DeclareInteger(h, fuel, env0, "x", 42, true);
    ConstAssignFails(h, fuel, env1);
    assert [s1] + [s2] == [s1, s2];
    StmtsStep(h, fuel, env0, s1, [s2], Value.Nil, Value.Integer(42), env1);
    StmtsSingle(h, fuel, env1, s2, Value.Integer(42));
    assert "Cannot assign to const variable: " + "x" == "Cannot assign to const variable: x";
  }

  /** `x = 10` where `x` is a constant of the innermost scope holding 42: refused, nothing changes. */
  lemma ConstAssignFails(h: Host, fuel: nat, env1: Env)
    requires env1 == DefineConst(InitialEnv(), "x", Value.Integer(42))
    ensures ExecStmt(h, fuel, env1, Stmt.Assignment(AssignmentTarget.Identifier("x"), AssignmentOperator.Assign, Expr.Integer(10)))
            == Outcome(Err(ConstAssignment("x")), env1)
    ensures Get(env1, "x") == Some(Value.Integer(42))
  {
    assert EvalExpr(h, fuel, env1, Expr.Integer(10)) == Outcome(Ok(Value.Integer(10)), env1);
    assert Set(env1, "x", Value.Integer(10)) == Err(ConstAssignment("x"));
  }

  /** `let x is 42`, `x = 10`, `x` evaluates to 10. */
  lemma LetReassignmentSucceeds(h: Host, fuel: nat)
    ensures var prog := Program([Stmt.Let("x", None, Expr.Integer(42)),
                                 Stmt.Assignment(AssignmentTarget.Identifier("x"), AssignmentOperator.Assign, Expr.Integer(10)),
                                 Stmt.Expression(Expr.Identifier("x"))]);
            Interpret(h, fuel, InitialEnv(), prog).result == Ok(Value.Integer(10))
  {
    var env0 := InitialEnv();
    var s1 := Stmt.Let("x", None, Expr.Integer(42));
    var s2 := Stmt.Assignment(AssignmentTarget.Identifier("x"), AssignmentOperator.Assign, Expr.Integer(10));
    var s3 := Stmt.Expression(Expr.Identifier("x"));
    var env1 := Define(env0, "x", Value.Integer(42));
    var env2 := env1.(vars := env1.vars["x" := Value.Integer(10)]);
    DeclareInteger(h, fuel, env0, "x", 42, false);
    assert "x" in env1.vars && env1.consts["x"] == false;
    AssignInteger(h, fuel, env1, "x", 10);
    ReadX(h, fuel, env2, 10);
    assert [s1] + [s2, s3] == [s1, s2, s3];
    assert [s2] + [s3] == [s2, s3];
    StmtsStep(h, fuel, env0, s1, [s2, s3], Value.Nil, Value.Integer(42), env1);
    StmtsStep(h, fuel, env1, s2, [s3], Value.Integer(42), Value.Integer(10), env2);
    StmtsSingle(h, fuel, env2, s3, Value.Integer(10));
  }

  /** `x is 42` and then `x`: the declared value is the program's value. */
  lemma VariableAssignment(h: Host, fuel: nat)
    ensures var prog := Program([Stmt.Let("x", None, Expr.Integer(42)), Stmt.Expression(Expr.Identifier("x"))]);
            Interpret(h, fuel, InitialEnv(), prog).result == Ok(Value.Integer(42))
  {
    var env0 := InitialEnv();
    var s1 := Stmt.Let("x", None, Expr.Integer(42));
    var s2 := Stmt.Expression(Expr.Identifier("x"));
    var env1 := Define(env0, "x", Value.Integer(42));
    DeclareInteger(h, fuel, env0, "x", 42, false);
    ReadX(h, fuel, env1, 42);
    assert [s1] + [s2] == [s1, s2];
    StmtsStep(h, fuel, env0, s1, [s2], Value.Nil, Value.Integer(42), env1);
    StmtsSingle(h, fuel, env1, s2, Value.Integer(42));
  }

  /** `const x is 42` and then `x`: a constant reads back like a variable. */
  lemma ConstDeclaration(h: Host, fuel: nat)
    ensures var prog := Program([Stmt.Const("x", None, Expr.Integer(42)), Stmt.Expression(Expr.Identifier("x"))]);
            Interpret(h, fuel, InitialEnv(), prog).result == Ok(Value.Integer(42))
  {
    var env0 := InitialEnv();
    var s1 := Stmt.Const("x", None, Expr.Integer(42));
    var s2 := Stmt.Expression(Expr.Identifier("x"));
    var env1 := DefineConst(env0, "x", Value.Integer(42));
    DeclareInteger(h, fuel, env0, "x", 42, true);
    ReadX(h, fuel, env1, 42);
    assert [s1] + [s2] == [s1, s2];
    StmtsStep(h, fuel, env0, s1, [s2], Value.Nil, Value.Integer(42), env1);
    StmtsSingle(h, fuel, env1, s2, Value.Integer(42));
  }

  /** Reading `x` where it holds `n`. */
  lemma ReadX(h: Host, fuel: nat, env: Env, n: int)
    requires Get(env, "x") == Some(Value.Integer(n))
    ensures ExecStmt(h, fuel, env, Stmt.Expression(Expr.Identifier("x"))) == Outcome(Ok(Value.Integer(n)), env)
  {
    assert !IsBuiltin("x");
  }

  /** `let x is 10`, `const y is 20`, `x = 30`, `x + y` evaluates to 50. */
  lemma MixedDeclarations(h: Host, fuel: nat)
    ensures var prog := Program([Stmt.Let("x", None, Expr.Integer(10)),
                                 Stmt.Const("y", None, Expr.Integer(20)),
                                 Stmt.Assignment(AssignmentTarget.Identifier("x"), AssignmentOperator.Assign, Expr.Integer(30)),
                                 Stmt.Expression(Expr.Binary(Expr.Identifier("x"), Add, Expr.Identifier("y")))]);
            Interpret(h, fuel, InitialEnv(), prog).result == Ok(Value.Integer(50))
  {
    var env0 := InitialEnv();
    var s1 := Stmt.Let("x", None, Expr.Integer(10));
    var s2 := Stmt.Const("y", None, Expr.Integer(20));
    var s3 := Stmt.Assignment(AssignmentTarget.Identifier("x"), AssignmentOperator.Assign, Expr.Integer(30));
    var s4 := Stmt.Expression(Expr.Binary(Expr.Identifier("x"), Add, Expr.Identifier("y")));
    var env1 := Define(env0, "x", Value.Integer(10));
    var env2 := DefineConst(env1, "y", Value.Integer(20));
    var env3 := env2.(vars := env2.vars["x" := Value.Integer(30)]);
    MixedStores(h, fuel);
    MixedSum(h, fuel, env3);
    RunFour(h, fuel, env0, s1, s2, s3, s4, Value.Integer(10), Value.Integer(20), Value.Integer(30), Value.Integer(50),
            env1, env2, env3, env3);
  }

  /** The three declarations and assignments of the program above, one by one. */
  lemma MixedStores(h: Host, fuel: nat)
    ensures var env1 := Define(InitialEnv(), "x", Value.Integer(10));
            var env2 := DefineConst(env1, "y", Value.Integer(20));
            && ExecStmt(h, fuel, InitialEnv(), Stmt.Let("x", None, Expr.Integer(10))) == Outcome(Ok(Value.Integer(10)), env1)
            && ExecStmt(h, fuel, env1, Stmt.Const("y", None, Expr.Integer(20))) == Outcome(Ok(Value.Integer(20)), env2)
            && ExecStmt(h, fuel, env2, Stmt.Assignment(AssignmentTarget.Identifier("x"), AssignmentOperator.Assign, Expr.Integer(30)))
               == Outcome(Ok(Value.Integer(30)), env2.(vars := env2.vars["x" := Value.Integer(30)]))
  {
    var env1 := Define(InitialEnv(), "x", Value.Integer(10));
    var env2 := DefineConst(env1, "y", Value.Integer(20));
    DeclareInteger(h, fuel, InitialEnv(), "x", 10, false);
    DeclareInteger(h, fuel, env1, "y", 20, true);
    assert "x" in env2.vars && env2.consts["x"] == false;
    AssignInteger(h, fuel, env2, "x", 30);
  }

  /** `let name is n` and `const name is n` bind `name` in the innermost scope. */
  lemma DeclareInteger(h: Host, fuel: nat, env: Env, name: string, n: int, isConst: bool)
    ensures var s := if isConst then Stmt.Const(name, None, Expr.Integer(n)) else Stmt.Let(name, None, Expr.Integer(n));
            ExecStmt(h, fuel, env, s) == Outcome(Ok(Value.Integer(n)), DefineVariable(env, name, Value.Integer(n), isConst))
  {
    assert EvalExpr(h, fuel, env, Expr.Integer(n)) == Outcome(Ok(Value.Integer(n)), env);
  }

  /** `name = n` on a variable of the innermost scope that is not constant. */
  lemma AssignInteger(h: Host, fuel: nat, env: Env, name: string, n: int)
    requires name in env.vars && !(name in env.consts && env.consts[name])
    ensures ExecStmt(h, fuel, env, Stmt.Assignment(AssignmentTarget.Identifier(name), AssignmentOperator.Assign, Expr.Integer(n)))
            == Outcome(Ok(Value.Integer(n)), env.(vars := env.vars[name := Value.Integer(n)]))
  {
    assert EvalExpr(h, fuel, env, Expr.Integer(n)) == Outcome(Ok(Value.Integer(n)), env);
    assert Set(env, name, Value.Integer(n)) == Ok(env.(vars := env.vars[name := Value.Integer(n)]));
  }

  /** `x + y` where `x` holds 30 and `y` holds 20. */
  lemma MixedSum(h: Host, fuel: nat, env3: Env)
    requires Get(env3, "x") == Some(Value.Integer(30)) && Get(env3, "y") == Some(Value.Integer(20))
    ensures ExecStmt(h, fuel, env3, Stmt.Expression(Expr.Binary(Expr.Identifier("x"), Add, Expr.Identifier("y"))))
            == Outcome(Ok(Value.Integer(50)), env3)
  {
    assert EvalExpr(h, fuel, env3, Expr.Identifier("x")) == Outcome(Ok(Value.Integer(30)), env3);
    assert EvalExpr(h, fuel, env3, Expr.Identifier("y")) == Outcome(Ok(Value.Integer(20)), env3);
  }

  /** `fn add(a: int, b: int) -> int { return a + b }` then `add(2, 3)` evaluates to 5. */
  lemma FunctionDefinitionAndCall(h: Host, fuel: nat)
    requires fuel >= 1
    ensures var body := [Stmt.Return(Some(Expr.Binary(Expr.Identifier("a"), Add, Expr.Identifier("b"))))];
            var params := [Parameter("a", Some(Type.Int)), Parameter("b", Some(Type.Int))];
            var prog := Program([Stmt.Function("add", params, Some(Type.Int), body),
                                 Stmt.Expression(Expr.Call("add", [Expr.Integer(2), Expr.Integer(3)]))]);
            Interpret(h, fuel, InitialEnv(), prog).result == Ok(Value.Integer(5))
  {
    var env0 := InitialEnv();
    var body := [Stmt.Return(Some(Expr.Binary(Expr.Identifier("a"), Add, Expr.Identifier("b"))))];
    var params := [Parameter("a", Some(Type.Int)), Parameter("b", Some(Type.Int))];
    var def := Stmt.Function("add", params, Some(Type.Int), body);
    var call := Stmt.Expression(Expr.Call("add", [Expr.Integer(2), Expr.Integer(3)]));
    var fv := Value.Function("add", params, body, env0);
    var env1 := Define(env0, "add", fv);
    DefineFunction(h, fuel, env0, "add", params, Some(Type.Int), body);
    AddCall(h, fuel, env0);
    assert [def] + [call] == [def, call];
    StmtsStep(h, fuel, env0, def, [call], Value.Nil, fv, env1);
    StmtsSingle(h, fuel, env1, call, fv);
  }

  /** A function declaration binds its name to a closure over the current environment. */
  lemma DefineFunction(h: Host, fuel: nat, env: Env, name: string, params: seq<Parameter>, ret: Option<Type>, body: seq<Stmt>)
    ensures var fv := Value.Function(name, params, body, env);
            ExecStmt(h, fuel, env, Stmt.Function(name, params, ret, body)) == Outcome(Ok(fv), Define(env, name, fv))
  {
  }

  /** The call `add(2, 3)` once `add` is defined over `env0`. */
  lemma AddCall(h: Host, fuel: nat, env0: Env)
    requires fuel >= 1
    ensures var body := [Stmt.Return(Some(Expr.Binary(Expr.Identifier("a"), Add, Expr.Identifier("b"))))];
            var params := [Parameter("a", Some(Type.Int)), Parameter("b", Some(Type.Int))];
            var env1 := Define(env0, "add", Value.Function("add", params, body, env0));
            ExecStmt(h, fuel, env1, Stmt.Expression(Expr.Call("add", [Expr.Integer(2), Expr.Integer(3)])))
              == Outcome(Ok(Value.Integer(5)), env1)
  {
    var body := [Stmt.Return(Some(Expr.Binary(Expr.Identifier("a"), Add, Expr.Identifier("b"))))];
    var params := [Parameter("a", Some(Type.Int)), Parameter("b", Some(Type.Int))];
    var env1 := Define(env0, "add", Value.Function("add", params, body, env0));
    AddArgs(h, fuel, env1);
    AddInvoke(h, fuel, env0);
    var e := Expr.Call("add", [Expr.Integer(2), Expr.Integer(3)]);
    assert EvalExpr(h, fuel, env1, e) == Outcome(Ok(Value.Integer(5)), env1);
  }

  /** Invoking `add` on the values 2 and 3. */
  lemma AddInvoke(h: Host, fuel: nat, env0: Env)
    requires fuel >= 1
    ensures var body := [Stmt.Return(Some(Expr.Binary(Expr.Identifier("a"), Add, Expr.Identifier("b"))))];
            var params := [Parameter("a", Some(Type.Int)), Parameter("b", Some(Type.Int))];
            var env1 := Define(env0, "add", Value.Function("add", params, body, env0));
            CallNamed(h, fuel, env1, "add", [Value.Integer(2), Value.Integer(3)]) == Outcome(Ok(Value.Integer(5)), env1)
  {
    var body := [Stmt.Return(Some(Expr.Binary(Expr.Identifier("a"), Add, Expr.Identifier("b"))))];
    var params := [Parameter("a", Some(Type.Int)), Parameter("b", Some(Type.Int))];
    var fv := Value.Function("add", params, body, env0);
    var env1 := Define(env0, "add", fv);
    AddBody(h, fuel - 1, env0);
    AddBound(env0, fv);
    CallUserFunction(h, fuel, env1, "add", fv, [Value.Integer(2), Value.Integer(3)], Value.Integer(5));
  }

  /**
   * A call of a name bound to a function value of the right arity runs the
   * body in a child of the closure holding the arguments; its value is the
   * call's, and the caller's environment is kept.
   */
  lemma CallUserFunction(h: Host, fuel: nat, env: Env, name: string, fv: Value, args: seq<Value>, v: Value)
    requires fuel >= 1 && !IsBuiltin(name) && Get(env, name) == Some(fv)
    requires fv.Function? && |fv.parameters| == |args|
    requires ExecBlock(h, fuel - 1, BindParams(Child(fv.closure), fv.parameters, args), fv.body).result == Ok(v)
    ensures CallNamed(h, fuel, env, name, args) == Outcome(Ok(v), env)
  {
  }

  /**
   * A user function whose body fails does not restore the caller's
   * environment: the call's outcome is the body's, environment included.
   */
  lemma FailedCallKeepsCalleeScope(h: Host, fuel: nat, env: Env, name: string, fv: Value, args: seq<Value>)
    requires fuel >= 1 && !IsBuiltin(name) && Get(env, name) == Some(fv)
    requires fv.Function? && |fv.parameters| == |args|
    requires ExecBlock(h, fuel - 1, BindParams(Child(fv.closure), fv.parameters, args), fv.body).result.Err?
    ensures CallNamed(h, fuel, env, name, args)
            == ExecBlock(h, fuel - 1, BindParams(Child(fv.closure), fv.parameters, args), fv.body)
  {
  }

  /**
   * Calling `f` whose body is `1 / 0` fails, and the environment left
   * behind is the body's block scope, two scopes below the closure, not
   * the caller's.
   */
  lemma FailedCallLeavesCallee(h: Host, fuel: nat, env0: Env)
    requires fuel >= 1
    ensures var body := [Stmt.Expression(Expr.Binary(Expr.Integer(1), Divide, Expr.Integer(0)))];
            var env1 := Define(env0, "f", Value.Function("f", [], body, env0));
            var o := CallNamed(h, fuel, env1, "f", []);
            && o.result == Err(DivisionByZero)
            && o.env == Child(Child(env0))
            && Depth(o.env) == Depth(env1) + 2
  {
    var s := Stmt.Expression(Expr.Binary(Expr.Integer(1), Divide, Expr.Integer(0)));
    var fv := Value.Function("f", [], [s], env0);
    var env1 := Define(env0, "f", fv);
    var scope := Child(env0);
    assert BindParams(scope, [], []) == scope;
    DivisionByZeroStatement(h, fuel - 1, Child(scope));
    StmtsSingle(h, fuel - 1, Child(scope), s, Value.Nil);
    assert Get(env1, "f") == Some(fv);
    FailedCallKeepsCalleeScope(h, fuel, env1, "f", fv, []);
    assert env1.parent == env0.parent && Depth(env1) == Depth(env0);
    assert Depth(Child(scope)) == Depth(env0) + 2;
  }

  /** `add` is no built-in, so a call finds the function just defined. */
  lemma AddBound(env0: Env, fv: Value)
    ensures !IsBuiltin("add") && Get(Define(env0, "add", fv), "add") == Some(fv)
  {
  }

  /** The arguments `(2, 3)`. */
  lemma AddArgs(h: Host, fuel: nat, env: Env)
    ensures EvalExprs(h, fuel, env, [Expr.Integer(2), Expr.Integer(3)]) == Outcome(Ok([Value.Integer(2), Value.Integer(3)]), env)
  {
    var args := [Expr.Integer(2), Expr.Integer(3)];
    assert args[0] == Expr.Integer(2) && args[1..] == [Expr.Integer(3)];
    assert [Expr.Integer(3)][0] == Expr.Integer(3) && [Expr.Integer(3)][1..] == [];
    assert EvalExpr(h, fuel, env, Expr.Integer(3)) == Outcome(Ok(Value.Integer(3)), env);
    assert EvalExpr(h, fuel, env, Expr.Integer(2)) == Outcome(Ok(Value.Integer(2)), env);
    assert EvalExprs(h, fuel, env, []) == Outcome(Ok([]), env);
    assert [Value.Integer(3)] + [] == [Value.Integer(3)];
    assert EvalExprs(h, fuel, env, [Expr.Integer(3)]) == Outcome(Ok([Value.Integer(3)]), env);
    assert [Value.Integer(2)] + [Value.Integer(3)] == [Value.Integer(2), Value.Integer(3)];
  }

  /** The body of `add` run with `a` = 2 and `b` = 3 under the closure `env0`. */
  lemma AddBody(h: Host, fuel: nat, env0: Env)
    ensures var body := [Stmt.Return(Some(Expr.Binary(Expr.Identifier("a"), Add, Expr.Identifier("b"))))];
            var params := [Parameter("a", Some(Type.Int)), Parameter("b", Some(Type.Int))];
            var scope := BindParams(Child(env0), params, [Value.Integer(2), Value.Integer(3)]);
            ExecBlock(h, fuel, scope, body) == Outcome(Ok(Value.Integer(5)), scope)
  {
    var sum := Expr.Binary(Expr.Identifier("a"), Add, Expr.Identifier("b"));
    var ret := Stmt.Return(Some(sum));
    var params := [Parameter("a", Some(Type.Int)), Parameter("b", Some(Type.Int))];
    var vals := [Value.Integer(2), Value.Integer(3)];
    var scope := BindParams(Child(env0), params, vals);
    var inner := Child(scope);
    AddScope(env0);
    assert EvalExpr(h, fuel, inner, Expr.Identifier("a")) == Outcome(Ok(Value.Integer(2)), inner);
    assert EvalExpr(h, fuel, inner, Expr.Identifier("b")) == Outcome(Ok(Value.Integer(3)), inner);
    assert EvalExpr(h, fuel, inner, sum) == Outcome(Ok(Value.Integer(5)), inner);
    assert ExecStmt(h, fuel, inner, ret) == Outcome(Ok(Value.Integer(5)), inner);
    StmtsSingle(h, fuel, inner, ret, Value.Nil);
  }

  /** Inside the body of `add(2, 3)`, `a` and `b` read 2 and 3 whatever the closure binds. */
  lemma AddScope(env0: Env)
    ensures var params := [Parameter("a", Some(Type.Int)), Parameter("b", Some(Type.Int))];
            var inner := Child(BindParams(Child(env0), params, [Value.Integer(2), Value.Integer(3)]));
            && !IsBuiltin("a") && !IsBuiltin("b")
            && Get(inner, "a") == Some(Value.Integer(2)) && Get(inner, "b") == Some(Value.Integer(3))
  {
    var pa, pb := Parameter("a", Some(Type.Int)), Parameter("b", Some(Type.Int));
    BindTwo(Child(env0), pa, pb, Value.Integer(2), Value.Integer(3));
    var x := Define(Define(Child(env0), "a", Value.Integer(2)), "b", Value.Integer(3));
    assert "a" != "b";
    assert x.vars["a"] == Value.Integer(2);
    ChildSeesParent(x, "a");
    ChildSeesParent(x, "b");
  }

  /** Binding two parameters is two definitions in order. */
  lemma BindTwo(env: Env, p: Parameter, q: Parameter, v: Value, w: Value)
    ensures BindParams(env, [p, q], [v, w]) == Define(Define(env, p.name, v), q.name, w)
  {
    assert [p, q][1..] == [q] && [v, w][1..] == [w];
    assert [q][1..] == [] && [w][1..] == [];
    var e1 := Define(env, p.name, v);
    assert BindParams(env, [p, q], [v, w]) == BindParams(e1, [q], [w]);
    assert BindParams(e1, [q], [w]) == BindParams(Define(e1, q.name, w), [], []);
  }
}

=== FILE: lexer.dfy ===
/**
 * The tokenizer (src/lexer/mod.rs): a total, character-driven state machine
 * that turns source text into tokens, always ending with an EOF token.
 *
 * The Rust lexer mutates a cursor; here a `Cursor` value is threaded through
 * pure functions, each returning what it read and where it stopped.
 */
module Lexer {
  import opened Wrappers
  import opened Tokens

  // ---------------------------------------------------------------- characters

  predicate IsDigit(c: char) {
    '0' <= c <= '9'
  }

  predicate IsAlpha(c: char) {
    ('a' <= c <= 'z') || ('A' <= c <= 'Z')
  }

  predicate IsIdentStart(c: char) {
    IsAlpha(c) || c == '_'
  }

  predicate IsIdentChar(c: char) {
    IsAlpha(c) || IsDigit(c) || c == '_'
  }

  /** Rust's `char::is_whitespace`: the Unicode White_Space property. */
  predicate IsWhitespace(c: char) {
    var n := c as int;
    || (0x09 <= n <= 0x0D) || n == 0x20 || n == 0x85 || n == 0xA0 || n == 0x1680
    || (0x2000 <= n <= 0x200A) || n == 0x2028 || n == 0x2029 || n == 0x202F
    || n == 0x205F || n == 0x3000
  }

  // ---------------------------------------------------------------- positions

  /** Where the lexer stands: index of the current character, its line and column. */
  datatype Cursor = Cursor(pos: nat, line: nat, column: nat)

  /** Lexer::new: the first character is at line 1, column 1. */
  const Start: Cursor := Cursor(0, 1, 1)

  /** Reference definition of the line of index `i`: one more than the newlines before it. */
  function LineAt(s: string, i: nat): nat
    requires i <= |s|
  {
    if i == 0 then 1 else LineAt(s, i - 1) + (if s[i - 1] == '\n' then 1 else 0)
  }

  /** Reference definition of the column of index `i`: one more than the characters since the last newline. */
  function ColumnAt(s: string, i: nat): nat
    requires i <= |s|
  {
    if i == 0 then 1 else if s[i - 1] == '\n' then 1 else ColumnAt(s, i - 1) + 1
  }

  /** The cursor's line and column agree with the reference definitions. */
  predicate Tracks(s: string, c: Cursor) {
    c.pos <= |s| && c.line == LineAt(s, c.pos) && c.column == ColumnAt(s, c.pos)
  }

  /** The character after the current one (Lexer::peek). */
  predicate NextIs(s: string, c: Cursor, ch: char) {
    c.pos + 1 < |s| && s[c.pos + 1] == ch
  }

  /** Lexer::advance: step over the current character. */
  function Advance(s: string, c: Cursor): (d: Cursor)
    requires c.pos < |s|
    ensures d.pos == c.pos + 1
    ensures s[c.pos] == '\n' ==> d.line == c.line + 1 && d.column == 1
    ensures s[c.pos] != '\n' ==> d.line == c.line && d.column == c.column + 1
    ensures Tracks(s, c) ==> Tracks(s, d)
  {
    if s[c.pos] == '\n' then Cursor(c.pos + 1, c.line + 1, 1)
    else Cursor(c.pos + 1, c.line, c.column + 1)
  }

  /** Lexer::skip_whitespace: every whitespace character except the newline is skipped. */
  function SkipWhitespace(s: string, c: Cursor): (d: Cursor)
    requires c.pos <= |s|
    ensures c.pos <= d.pos <= |s|
    ensures forall i | c.pos <= i < d.pos :: IsWhitespace(s[i]) && s[i] != '\n'
    ensures d.pos == |s| || !IsWhitespace(s[d.pos]) || s[d.pos] == '\n'
    ensures Tracks(s, c) ==> Tracks(s, d)
    decreases |s| - c.pos
  {
    if c.pos < |s| && IsWhitespace(s[c.pos]) && s[c.pos] != '\n' then
      SkipWhitespace(s, Advance(s, c))
    else
      c
  }

  // ---------------------------------------------------------------- comments

  /**
   * Advance up to, not over, the next `stop` character or the end of input:
   * the loop of read_line_comment (stopping at a newline) and of
   * read_single_quote_string (stopping at a single quote).
   */
  function ScanTo(s: string, c: Cursor, stop: char): (d: Cursor)
    requires c.pos <= |s|
    ensures c.pos <= d.pos <= |s|
    ensures forall i | c.pos <= i < d.pos :: s[i] != stop
    ensures d.pos == |s| || s[d.pos] == stop
    ensures Tracks(s, c) ==> Tracks(s, d)
    decreases |s| - c.pos
  {
    if c.pos < |s| && s[c.pos] != stop then ScanTo(s, Advance(s, c), stop) else c
  }

  /** Lexer::read_line_comment: the text after `#`, up to but excluding the newline. */
  function ReadLineComment(s: string, c: Cursor): (r: (string, Cursor))
    requires c.pos < |s| && s[c.pos] == '#'
    ensures c.pos < r.1.pos <= |s|
    ensures r.0 == s[c.pos + 1 .. r.1.pos]
    ensures '\n' !in r.0
    ensures r.1.pos == |s| || s[r.1.pos] == '\n'
    ensures Tracks(s, c) ==> Tracks(s, r.1)
  {
    var d := ScanTo(s, Advance(s, c), '\n');
    (s[c.pos + 1 .. d.pos], d)
  }

  /** `*` followed by `/` starts at index `i`. */
  predicate CloserAt(s: string, i: nat) {
    i + 1 < |s| && s[i] == '*' && s[i + 1] == '/'
  }

  /**
   * Scan a block comment body; returns where the body ends and the cursor
   * after the closing star-slash, or the end of input when there is none.
   */
  function ScanBlockComment(s: string, c: Cursor): (r: (nat, Cursor))
    requires c.pos <= |s|
    ensures c.pos <= r.0 <= r.1.pos <= |s|
    ensures forall i | c.pos <= i < r.0 :: !CloserAt(s, i)
    ensures (CloserAt(s, r.0) && r.1.pos == r.0 + 2) || (r.0 == r.1.pos == |s|)
    ensures Tracks(s, c) ==> Tracks(s, r.1)
    decreases |s| - c.pos
  {
    if c.pos < |s| then
      if s[c.pos] == '*' && NextIs(s, c, '/') then
        (c.pos, Advance(s, Advance(s, c)))
      else
        ScanBlockComment(s, Advance(s, c))
    else
      (c.pos, c)
  }

  /**
   * Lexer::read_block_comment: the text between the opening slash-star and the FIRST
   * closing star-slash
   * (no nesting); an unclosed comment runs to the end of input.
   */
  function ReadBlockComment(s: string, c: Cursor): (r: (string, Cursor))
    requires c.pos + 1 < |s| && s[c.pos] == '/' && s[c.pos + 1] == '*'
    ensures var e := c.pos + 2 + |r.0|;
            && e <= r.1.pos <= |s|
            && r.0 == s[c.pos + 2 .. e]
            && (forall i | c.pos + 2 <= i < e :: !CloserAt(s, i))
            && ((CloserAt(s, e) && r.1.pos == e + 2) || (e == r.1.pos == |s|))
    ensures Tracks(s, c) ==> Tracks(s, r.1)
  {
    var (e, d) := ScanBlockComment(s, Advance(s, Advance(s, c)));
    (s[c.pos + 2 .. e], d)
  }

  // ---------------------------------------------------------------- numbers

  function DigitValue(c: char): nat
    requires IsDigit(c)
  {
    c as int - '0' as int
  }

  /** The value of a decimal digit string (what `str::parse::<i64>` computes when it fits). */
  function DecimalValue(t: string): nat
    requires forall i | 0 <= i < |t| :: IsDigit(t[i])
  {
    if t == [] then 0 else 10 * DecimalValue(t[..|t| - 1]) + DigitValue(t[|t| - 1])
  }

  /** Digits, with at most one `.` that sits between two digits. */
  predicate IsNumeral(t: string) {
    && |t| >= 1
    && IsDigit(t[0])
    && (forall i | 0 <= i < |t| :: IsDigit(t[i]) || t[i] == '.')
    && (forall i | 0 <= i < |t| && t[i] == '.' :: i + 1 < |t| && IsDigit(t[i + 1]))
    && (forall i, j | 0 <= i < j < |t| && t[i] == '.' :: t[j] != '.')
  }

  /** Every character of `s` from `lo` up to `hi` is a digit. */
  predicate DigitsIn(s: string, lo: nat, hi: nat)
    requires lo <= hi <= |s|
  {
    forall i | lo <= i < hi :: IsDigit(s[i])
  }

  /**
   * What the number loop has read from `start` to `end`: digits only, or,
   * once `.` was taken at index `dot`, digits, that `.`, and digits.
   */
  predicate NumeralShape(s: string, start: nat, end: nat, dot: Option<nat>)
    requires start < end <= |s|
  {
    match dot
    case None => DigitsIn(s, start, end)
    case Some(k) =>
      && start < k && k + 1 < end && s[k] == '.'
      && DigitsIn(s, start, k) && DigitsIn(s, k + 1, end)
  }

  /**
   * The digit/dot loop of read_number. The source keeps an `is_float` flag;
   * here the flag is `dot.Some?` and also remembers where the `.` was. The
   * `.` is taken with the digit after it, which the loop peeked at.
   */
  function ScanNumber(s: string, c: Cursor, start: nat, dot: Option<nat>): (r: (Cursor, Option<nat>))
    requires start < c.pos <= |s| && NumeralShape(s, start, c.pos, dot)
    ensures c.pos <= r.0.pos <= |s|
    ensures NumeralShape(s, start, r.0.pos, r.1)
    ensures dot.Some? ==> r.1 == dot
    ensures r.0.pos == |s| || !IsDigit(s[r.0.pos])
    ensures r.1.None? ==> !(r.0.pos + 1 < |s| && s[r.0.pos] == '.' && IsDigit(s[r.0.pos + 1]))
    ensures Tracks(s, c) ==> Tracks(s, r.0)
    decreases |s| - c.pos
  {
    if c.pos < |s| && IsDigit(s[c.pos]) then
      ScanNumber(s, Advance(s, c), start, dot)
    else if c.pos + 1 < |s| && s[c.pos] == '.' && dot.None? && IsDigit(s[c.pos + 1]) then
      ScanNumber(s, Advance(s, Advance(s, c)), start, Some(c.pos))
    else
      (c, dot)
  }

  /** The text read by the number loop is a numeral, and it contains `.` exactly when one was taken. */
  lemma ShapeIsNumeral(s: string, start: nat, end: nat, dot: Option<nat>)
    requires start < end <= |s| && NumeralShape(s, start, end, dot)
    ensures IsNumeral(s[start .. end])
    ensures '.' in s[start .. end] <==> dot.Some?
    ensures dot.None? ==> forall i | 0 <= i < end - start :: IsDigit(s[start .. end][i])
  {
    var t := s[start .. end];
    assert forall i | 0 <= i < |t| :: t[i] == s[start + i];
    if dot.Some? {
      assert t[dot.value - start] == '.';
    }
  }

  /**
   * Lexer::read_number. A numeral containing `.` is a Float; a pure digit
   * run is an Integer when it fits in i64 and an "Invalid integer" error
   * token otherwise.
   */
  function ReadNumber(s: string, c: Cursor): (r: (Token, Cursor))
    requires c.pos < |s| && IsDigit(s[c.pos])
    ensures c.pos < r.1.pos <= |s|
    ensures IsNumeral(s[c.pos .. r.1.pos])
    ensures r.1.pos == |s| || !IsDigit(s[r.1.pos])
    ensures var text := s[c.pos .. r.1.pos];
            && ('.' in text ==> r.0 == Token(Float(FloatLit(text)), c.line, c.column, |text|))
            && ('.' !in text && DecimalValue(text) <= I64_MAX ==>
                  r.0 == Token(Integer(DecimalValue(text)), c.line, c.column, |text|))
            && ('.' !in text && DecimalValue(text) > I64_MAX ==>
                  r.0 == Token(Error("Invalid integer: " + text), c.line, c.column, 1))
    ensures Tracks(s, c) ==> Tracks(s, r.1)
  {
    var (d, dot) := ScanNumber(s, Advance(s, c), c.pos, None);
    ShapeIsNumeral(s, c.pos, d.pos, dot);
    var text := s[c.pos .. d.pos];
    if dot.Some? then
      (NewToken(Float(FloatLit(text)), c.line, c.column, |text|), d)
    else
      var n := DecimalValue(text);
      if n <= I64_MAX then
        (NewToken(Integer(n), c.line, c.column, |text|), d)
      else
        (ErrorToken("Invalid integer: " + text, c.line, c.column), d)
  }

  // ---------------------------------------------------------------- identifiers

  /** Advance over a run of identifier characters. */
  function ScanIdent(s: string, c: Cursor): (d: Cursor)
    requires c.pos <= |s|
    ensures c.pos <= d.pos <= |s|
    ensures forall i | c.pos <= i < d.pos :: IsIdentChar(s[i])
    ensures d.pos == |s| || !IsIdentChar(s[d.pos])
    ensures Tracks(s, c) ==> Tracks(s, d)
    decreases |s| - c.pos
  {
    if c.pos < |s| && IsIdentChar(s[c.pos]) then ScanIdent(s, Advance(s, c)) else c
  }

  /** Lexer::read_identifier: the longest identifier run, classified by keyword_or_identifier. */
  function ReadIdentifier(s: string, c: Cursor): (r: (Token, Cursor))
    requires c.pos < |s| && IsIdentStart(s[c.pos])
    ensures c.pos < r.1.pos <= |s|
    ensures forall i | c.pos <= i < r.1.pos :: IsIdentChar(s[i])
    ensures r.1.pos == |s| || !IsIdentChar(s[r.1.pos])
    ensures var word := s[c.pos .. r.1.pos];
            r.0 == Token(KeywordOrIdentifier(word), c.line, c.column, |word|)
    ensures Tracks(s, c) ==> Tracks(s, r.1)
  {
    var d := ScanIdent(s, c);
    var word := s[c.pos .. d.pos];
    (NewToken(KeywordOrIdentifier(word), c.line, c.column, |word|), d)
  }

  // ---------------------------------------------------------------- strings

  /**
   * What a backslash followed by `e` decodes to inside a double-quoted
   * string: the six known escapes decode to one character, and any other
   * character keeps its backslash.
   */
  function Unescape(e: char): (r: string)
    ensures e == 'n' ==> r == ['\n']
    ensures e == 't' ==> r == ['\t']
    ensures e == 'r' ==> r == ['\r']
    ensures e == '\\' ==> r == ['\\']
    ensures e == '"' ==> r == ['"']
    ensures e == '\'' ==> r == ['\'']
    ensures e !in "ntr\\\"'" ==> r == ['\\', e]
  {
    match e
    case 'n' => "\n"
    case 't' => "\t"
    case 'r' => "\r"
    case '\\' => "\\"
    case '"' => "\""
    case '\'' => "'"
    case _ => ['\\', e]
  }

  /**
   * The decoding loop of read_string from the cursor, with `acc` decoded so
   * far: the decoded text and the cursor after the closing quote, or None
   * at the end of input.
   */
  function ScanString(s: string, c: Cursor, acc: string): (r: (Option<string>, Cursor))
    requires c.pos <= |s|
    ensures c.pos <= r.1.pos <= |s|
    ensures r.0.None? ==> r.1.pos == |s|
    ensures r.0.Some? ==> c.pos < r.1.pos && s[r.1.pos - 1] == '"'
    ensures Tracks(s, c) ==> Tracks(s, r.1)
    decreases |s| - c.pos
  {
    if c.pos == |s| then
      (None, c)
    else if s[c.pos] == '"' then
      (Some(acc), Advance(s, c))
    else if s[c.pos] == '\\' then
      var c1 := Advance(s, c);
      if c1.pos < |s| then ScanString(s, Advance(s, c1), acc + Unescape(s[c1.pos]))
      else (None, c1)
    else
      ScanString(s, Advance(s, c), acc + [s[c.pos]])
  }

  /**
   * Lexer::read_string. The token length is the DECODED length plus the two
   * quotes, not the number of source characters consumed.
   */
  function ReadString(s: string, c: Cursor): (r: (Token, Cursor))
    requires c.pos < |s| && s[c.pos] == '"'
    ensures c.pos < r.1.pos <= |s|
    ensures r.0.kind.String? || r.0 == Token(Error("Unterminated string"), c.line, c.column, 1)
    ensures r.0.kind.String? ==> r.0 == Token(r.0.kind, c.line, c.column, |r.0.kind.strValue| + 2)
    ensures r.0.kind.Error? ==> r.1.pos == |s|
    ensures Tracks(s, c) ==> Tracks(s, r.1)
  {
    var (v, d) := ScanString(s, Advance(s, c), "");
    match v
    case Some(text) => (NewToken(String(text), c.line, c.column, |text| + 2), d)
    case None => (ErrorToken("Unterminated string", c.line, c.column), d)
  }

  /** Lexer::read_single_quote_string: content taken verbatim, no escapes. */
  function ReadSingleQuoteString(s: string, c: Cursor): (r: (Token, Cursor))
    requires c.pos < |s| && s[c.pos] == '\''
    ensures c.pos < r.1.pos <= |s|
    ensures r.1.pos < |s| || s[r.1.pos - 1] == '\'' || r.0.kind == Error("Unterminated string")
    ensures r.0.kind.String? ==>
              && c.pos + 2 <= r.1.pos
              && s[r.1.pos - 1] == '\''
              && r.0 == Token(String(s[c.pos + 1 .. r.1.pos - 1]), c.line, c.column, r.1.pos - c.pos)
              && '\'' !in s[c.pos + 1 .. r.1.pos - 1]
    ensures !r.0.kind.String? ==>
              && r.0 == Token(Error("Unterminated string"), c.line, c.column, 1)
              && r.1.pos == |s|
              && '\'' !in s[c.pos + 1 ..]
    ensures Tracks(s, c) ==> Tracks(s, r.1)
  {
    var d := ScanTo(s, Advance(s, c), '\'');
    if d.pos < |s| then
      var text := s[c.pos + 1 .. d.pos];
      (NewToken(String(text), c.line, c.column, |text| + 2), Advance(s, d))
    else
      (ErrorToken("Unterminated string", c.line, c.column), d)
  }

  // ---------------------------------------------------------------- commands

  /**
   * The counting loop of read_command, `depth` parentheses being open:
   * Some(e) when index `e` holds the parenthesis that closes the first one.
   */
  function ScanCommand(s: string, c: Cursor, depth: nat): (r: (Option<nat>, Cursor))
    requires c.pos <= |s| && depth >= 1
    ensures c.pos <= r.1.pos <= |s|
    ensures r.0.None? ==> r.1.pos == |s|
    ensures r.0.Some? ==> c.pos <= r.0.value && r.1.pos == r.0.value + 1 && s[r.0.value] == ')'
    ensures Tracks(s, c) ==> Tracks(s, r.1)
    decreases |s| - c.pos
  {
    if c.pos == |s| then
      (None, c)
    else if s[c.pos] == '(' then
      ScanCommand(s, Advance(s, c), depth + 1)
    else if s[c.pos] == ')' then
      if depth == 1 then (Some(c.pos), Advance(s, c))
      else ScanCommand(s, Advance(s, c), depth - 1)
    else
      ScanCommand(s, Advance(s, c), depth)
  }

  /**
   * Lexer::read_command: `$(` ... `)` with balanced parentheses inside; the
   * length counts the text plus the three delimiter characters.
   */
  function ReadCommand(s: string, c: Cursor): (r: (Token, Cursor))
    requires c.pos + 1 < |s| && s[c.pos] == '$' && s[c.pos + 1] == '('
    ensures c.pos + 2 <= r.1.pos <= |s|
    ensures r.0.kind.Command? ==>
              && s[r.1.pos - 1] == ')'
              && r.0 == Token(Command(s[c.pos + 2 .. r.1.pos - 1]), c.line, c.column, r.1.pos - c.pos)
    ensures !r.0.kind.Command? ==>
              r.0 == Token(Error("Unterminated command"), c.line, c.column, 1) && r.1.pos == |s|
    ensures Tracks(s, c) ==> Tracks(s, r.1)
  {
    var (close, d) := ScanCommand(s, Advance(s, Advance(s, c)), 1);
    match close
    case Some(e) =>
      var text := s[c.pos + 2 .. e];
      (NewToken(Command(text), c.line, c.column, |text| + 3), d)
    case None => (ErrorToken("Unterminated command", c.line, c.column), d)
  }

  // ---------------------------------------------------------------- operators

  /**
   * One row of the operator arms of next_token: the first character, the
   * kind it has alone, and the two-character kinds it forms with each
   * second character, in the order the arms test them.
   */
  datatype OperatorRow = OperatorRow(first: char, one: OperatorKind, pairs: seq<(char, OperatorKind)>)

  /** Operators are never the end of input. */
  type OperatorKind = k: TokenKind | k != EOF witness Plus

  /** The arithmetic and assignment arms of next_token, in source order. */
  const ArithmeticRows: seq<OperatorRow> := [
    OperatorRow('+', Plus, [('=', PlusAssign)]),
    OperatorRow('-', Minus, [('=', MinusAssign), ('>', Arrow)]),
    OperatorRow('*', Multiply, [('*', Power)]),
    OperatorRow('/', Divide, []),
    OperatorRow('%', Modulo, []),
    OperatorRow('=', Assign, [('=', Equal)])
  ]

  /** The comparison, logical and bitwise arms of next_token, in source order. */
  const LogicRows: seq<OperatorRow> := [
    OperatorRow('!', Not, [('=', NotEqual)]),
    OperatorRow('<', Less, [('=', LessEqual), ('<', LeftShift)]),
    OperatorRow('>', Greater, [('=', GreaterEqual), ('>', RightShift)]),
    OperatorRow('&', BitwiseAnd, [('&', And)]),
    OperatorRow('|', BitwiseOr, [('|', Or), ('>', Pipeline)]),
    OperatorRow('^', BitwiseXor, []),
    OperatorRow('~', BitwiseNot, [])
  ]

  /** The punctuation arms of next_token, in source order. */
  const PunctuationRows: seq<OperatorRow> := [
    OperatorRow(':', Colon, [('=', ColonAssign)]),
    OperatorRow('(', LeftParen, []),
    OperatorRow(')', RightParen, []),
    OperatorRow('{', LeftBrace, []),
    OperatorRow('}', RightBrace, []),
    OperatorRow('[', LeftBracket, []),
    OperatorRow(']', RightBracket, []),
    OperatorRow(',', Comma, []),
    OperatorRow(';', Semicolon, []),
    OperatorRow('.', Dot, [])
  ]

  /** The operator and punctuation arms of next_token, in source order. */
  const OperatorTable: seq<OperatorRow> := ArithmeticRows + LogicRows + PunctuationRows

  /** The first row for character `ch`, if there is one. */
  function FindRow(ch: char, rows: seq<OperatorRow>): (r: Option<OperatorRow>)
    ensures r.Some? ==> r.value.first == ch
    decreases |rows|
  {
    if rows == [] then None
    else if rows[0].first == ch then Some(rows[0])
    else FindRow(ch, rows[1..])
  }

  /** The first two-character kind for second character `ch`, if there is one. */
  function FindPair(ch: char, pairs: seq<(char, OperatorKind)>): (r: Option<OperatorKind>)
    decreases |pairs|
  {
    if pairs == [] then None
    else if pairs[0].0 == ch then Some(pairs[0].1)
    else FindPair(ch, pairs[1..])
  }

  /**
   * The operator and punctuation arms of next_token, and the
   * unexpected-character arm: a two-character operator wins over its
   * one-character prefix.
   */
  function Operator(s: string, c: Cursor): (r: (Token, Cursor))
    requires c.pos < |s|
    ensures r.0.line == c.line && r.0.column == c.column && r.0.kind != EOF
    ensures r.1.pos == c.pos + 1 || r.1.pos == c.pos + 2
    ensures Tracks(s, c) ==> Tracks(s, r.1)
  {
    var d := Advance(s, c);
    match FindRow(s[c.pos], OperatorTable)
    case None => (ErrorToken("Unexpected character: '" + [s[c.pos]] + "'", c.line, c.column), d)
    case Some(row) =>
      var two := if d.pos < |s| then FindPair(s[d.pos], row.pairs) else None;
      match two
      case Some(k) => (NewToken(k, c.line, c.column, 2), Advance(s, d))
      case None => (NewToken(row.one, c.line, c.column, 1), d)
  }

  // ---------------------------------------------------------------- driver

  /**
   * The arms of next_token for a current character: every token starts at
   * the cursor, is not EOF, and consumes at least one character.
   */
  function TokenAt(s: string, c: Cursor): (r: (Token, Cursor))
    requires c.pos < |s|
    ensures c.pos < r.1.pos <= |s|
    ensures r.0.kind != EOF && r.0.line == c.line && r.0.column == c.column
    ensures Tracks(s, c) ==> Tracks(s, r.1)
  {
    var ch := s[c.pos];
    if ch == '\n' then
      (NewToken(Newline, c.line, c.column, 1), Advance(s, c))
    else if ch == '#' then
      var (text, d) := ReadLineComment(s, c);
      (NewToken(Comment(text), c.line, c.column, |text|), d)
    else if ch == '/' && NextIs(s, c, '*') then
      var (text, d) := ReadBlockComment(s, c);
      (NewToken(Comment(text), c.line, c.column, |text|), d)
    else if IsDigit(ch) then
      ReadNumber(s, c)
    else if IsIdentStart(ch) then
      ReadIdentifier(s, c)
    else if ch == '"' then
      ReadString(s, c)
    else if ch == '\'' then
      ReadSingleQuoteString(s, c)
    else if ch == '$' && NextIs(s, c, '(') then
      ReadCommand(s, c)
    else if ch == '$' && NextIs(s, c, '{') then
      (NewToken(InterpolationStart, c.line, c.column, 2), Advance(s, Advance(s, c)))
    else
      Operator(s, c)
  }

  /**
   * Lexer::next_token. After skipping whitespace, EOF is produced exactly at
   * the end of input; every other token consumes at least one character.
   */
  function NextToken(s: string, c0: Cursor): (r: (Token, Cursor))
    requires c0.pos <= |s|
    ensures var c := SkipWhitespace(s, c0);
            && c.pos <= r.1.pos <= |s|
            && (r.0.kind == EOF <==> c.pos == |s|)
            && (r.0.kind != EOF ==> c.pos < r.1.pos)
            && (r.0.kind == EOF ==> r.1 == c && r.0.length == 0)
            && r.0.line == c.line && r.0.column == c.column
    ensures Tracks(s, c0) ==> Tracks(s, r.1)
  {
    var c := SkipWhitespace(s, c0);
    if c.pos == |s| then (EofToken(c.line, c.column), c) else TokenAt(s, c)
  }

  /** A token stream that ends with its only EOF token. */
  predicate EndsWithEof(ts: seq<Token>) {
    && |ts| >= 1 && ts[|ts| - 1].kind == EOF
    && forall i | 0 <= i < |ts| - 1 :: ts[i].kind != EOF
  }

  lemma EofCons(t: Token, rest: seq<Token>)
    requires t.kind != EOF && EndsWithEof(rest)
    ensures EndsWithEof([t] + rest)
  {
    var ts := [t] + rest;
    forall i | 0 <= i < |ts| - 1
      ensures ts[i].kind != EOF
    {
      if i > 0 {
        assert ts[i] == rest[i - 1];
      }
    }
  }

  /** The tokenize loop from cursor `c`. */
  function TokenizeFrom(s: string, c: Cursor): (ts: seq<Token>)
    requires c.pos <= |s|
    ensures EndsWithEof(ts)
    decreases |s| - c.pos
  {
    var (t, d) := NextToken(s, c);
    if t.kind == EOF then
      [t]
    else
      var rest := TokenizeFrom(s, d);
      EofCons(t, rest);
      [t] + rest
  }

  /**
   * The index at which each token of `TokenizeFrom(s, c)` starts: the first
   * character left after next_token skips whitespace.
   */
  function TokenStarts(s: string, c: Cursor): (ps: seq<nat>)
    requires c.pos <= |s|
    decreases |s| - c.pos
  {
    var r := NextToken(s, c);
    var w := SkipWhitespace(s, c).pos;
    if r.0.kind == EOF then [w] else [w] + TokenStarts(s, r.1)
  }

  /**
   * Token `ts[i]` starts at index `ps[i]`: the indices lie between `lo` and
   * the end of input and strictly increase along the stream, each token has
   * the line and column of its index, a token before the end starts at a
   * character that is not skipped whitespace, and the last token starts at
   * the end of input.
   */
  predicate PlacedAt(s: string, ts: seq<Token>, ps: seq<nat>, lo: nat) {
    && |ps| == |ts| && |ps| >= 1 && ps[|ps| - 1] == |s|
    && (forall i | 0 <= i < |ps| :: lo <= ps[i] && StartsAt(s, ts[i], ps[i]))
    && Increasing(ps)
  }

  /** Token `t` starts at index `p` of the input: it has that index's line and column, and does not start at skipped whitespace. */
  predicate StartsAt(s: string, t: Token, p: nat) {
    && p <= |s|
    && t.line == LineAt(s, p) && t.column == ColumnAt(s, p)
    && (p < |s| ==> !IsWhitespace(s[p]) || s[p] == '\n')
  }

  predicate Increasing(ps: seq<nat>) {
    forall i, j | 0 <= i < j < |ps| :: ps[i] < ps[j]
  }

  lemma PlacedAtCons(s: string, t: Token, p: nat, ts: seq<Token>, ps: seq<nat>, lo: nat, hi: nat)
    requires lo <= p < hi && PlacedAt(s, ts, ps, hi) && StartsAt(s, t, p)
    ensures PlacedAt(s, [t] + ts, [p] + ps, lo)
  {
    var ts', ps' := [t] + ts, [p] + ps;
    forall i | 0 <= i < |ps'|
      ensures lo <= ps'[i] && StartsAt(s, ts'[i], ps'[i])
    {
      if i > 0 {
        assert ts'[i] == ts[i - 1] && ps'[i] == ps[i - 1];
      }
    }
    IncreasingCons(p, ps);
  }

  lemma IncreasingCons(p: nat, ps: seq<nat>)
    requires Increasing(ps) && (|ps| > 0 ==> p < ps[0])
    ensures Increasing([p] + ps)
  {
    var ps' := [p] + ps;
    forall i, j | 0 <= i < j < |ps'|
      ensures ps'[i] < ps'[j]
    {
      assert ps'[j] == ps[j - 1];
      if i > 0 {
        assert ps'[i] == ps[i - 1];
      }
    }
  }

  /**
   * The next token starts at the first index after the skipped whitespace:
   * it has that index's line and column.
   */
  lemma NextTokenPlaced(s: string, c: Cursor)
    requires Tracks(s, c)
    ensures var w := SkipWhitespace(s, c).pos;
            && NextToken(s, c).0.line == LineAt(s, w)
            && NextToken(s, c).0.column == ColumnAt(s, w)
    ensures Tracks(s, NextToken(s, c).1) && c.pos <= NextToken(s, c).1.pos
  {
  }

  /** One turn of the tokenize loop. */
  lemma TokenizeStep(s: string, c: Cursor)
    requires c.pos <= |s|
    ensures NextToken(s, c).0.kind == EOF ==> TokenizeFrom(s, c) == [NextToken(s, c).0]
    ensures NextToken(s, c).0.kind != EOF ==>
              TokenizeFrom(s, c) == [NextToken(s, c).0] + TokenizeFrom(s, NextToken(s, c).1)
  {
  }

  /** Every token starts at its index in `TokenStarts`, and those indices strictly increase. */
  lemma {:induction false} TokenizePositions(s: string, c: Cursor)
    requires Tracks(s, c)
    ensures PlacedAt(s, TokenizeFrom(s, c), TokenStarts(s, c), c.pos)
    decreases |s| - c.pos
  {
    var r := NextToken(s, c);
    var w := SkipWhitespace(s, c).pos;
    NextTokenPlaced(s, c);
    TokenizeStep(s, c);
    if r.0.kind != EOF {
      TokenizePositions(s, r.1);
      PlacedAtCons(s, r.0, w, TokenizeFrom(s, r.1), TokenStarts(s, r.1), c.pos, r.1.pos);
    } else {
      assert TokenStarts(s, c) == [w];
    }
  }

  /**
   * Lexer::tokenize: never fails; the output is non-empty and ends with the
   * only EOF token.
   */
  function Tokenize(s: string): (ts: seq<Token>)
    ensures EndsWithEof(ts)
  {
    TokenizeFrom(s, Start)
  }

  /**
   * Lexer::tokenize: each token carries the line and column of the index at
   * which it starts, and the start indices strictly increase.
   */
  lemma TokenizePlaced(s: string)
    ensures PlacedAt(s, Tokenize(s), TokenStarts(s, Start), 0)
  {
    TokenizePositions(s, Start);
    assert Tokenize(s) == TokenizeFrom(s, Start);
  }
}

=== FILE: lexer_props.dfy ===
/**
 * Properties of the tokenizer (src/lexer/mod.rs) stated against reference
 * definitions that do not share its code: an operator table, a string
 * escaper, a parenthesis-nesting count and the decimal printer of values.
 */
module LexerProps {
  import opened Wrappers
  import opened Tokens
  import opened Lexer
  import Values

  // ---------------------------------------------------------------- operators

  /** The reference table of two-character operators: the kind of `a` followed by `b`, if any. */
  function TwoCharKind(a: char, b: char): Option<TokenKind> {
    match a
    case '+' => if b == '=' then Some(PlusAssign) else None
    case '-' => if b == '=' then Some(MinusAssign) else if b == '>' then Some(Arrow) else None
    case '*' => if b == '*' then Some(Power) else None
    case '=' => if b == '=' then Some(Equal) else None
    case '!' => if b == '=' then Some(NotEqual) else None
    case '<' => if b == '=' then Some(LessEqual) else if b == '<' then Some(LeftShift) else None
    case '>' => if b == '=' then Some(GreaterEqual) else if b == '>' then Some(RightShift) else None
    case '&' => if b == '&' then Some(And) else None
    case '|' => if b == '|' then Some(Or) else if b == '>' then Some(Pipeline) else None
    case ':' => if b == '=' then Some(ColonAssign) else None
    case _ => None
  }

  /** The reference table of one-character operators and punctuation. */
  function OneCharKind(a: char): Option<TokenKind> {
    match a
    case '+' => Some(Plus)
    case '-' => Some(Minus)
    case '*' => Some(Multiply)
    case '/' => Some(Divide)
    case '%' => Some(Modulo)
    case '=' => Some(Assign)
    case '!' => Some(Not)
    case '<' => Some(Less)
    case '>' => Some(Greater)
    case '&' => Some(BitwiseAnd)
    case '|' => Some(BitwiseOr)
    case '^' => Some(BitwiseXor)
    case '~' => Some(BitwiseNot)
    case ':' => Some(Colon)
    case '(' => Some(LeftParen)
    case ')' => Some(RightParen)
    case '{' => Some(LeftBrace)
    case '}' => Some(RightBrace)
    case '[' => Some(LeftBracket)
    case ']' => Some(RightBracket)
    case ',' => Some(Comma)
    case ';' => Some(Semicolon)
    case '.' => Some(Dot)
    case _ => None
  }

  /** A row of the operator table whose one-character kind is the reference one. */
  predicate OneAgrees(row: OperatorRow) {
    OneCharKind(row.first) == Some(row.one)
  }

  /** A row of the operator table whose two-character kinds are the reference ones. */
  predicate PairsAgree(row: OperatorRow) {
    forall b :: FindPair(b, row.pairs) == TwoCharKind(row.first, b)
  }

  /** A row of the operator table that gives the kinds of the reference tables. */
  predicate AgreesWithReference(row: OperatorRow) {
    OneAgrees(row) && PairsAgree(row)
  }

  /** FindPair on a list of at most two pairs, spelled out. */
  function SpelledPair(b: char, pairs: seq<(char, OperatorKind)>): Option<OperatorKind>
    requires |pairs| <= 2
  {
    if |pairs| >= 1 && pairs[0].0 == b then Some(pairs[0].1)
    else if |pairs| == 2 && pairs[1].0 == b then Some(pairs[1].1)
    else None
  }

  lemma FindPairSpelled(b: char, pairs: seq<(char, OperatorKind)>)
    requires |pairs| <= 2
    ensures FindPair(b, pairs) == SpelledPair(b, pairs)
  {
    if |pairs| >= 1 && pairs[0].0 != b {
      assert FindPair(b, pairs) == FindPair(b, pairs[1..]);
      if |pairs| == 2 && pairs[1].0 != b {
        assert FindPair(b, pairs[1..]) == FindPair(b, pairs[2..]);
      }
    }
  }

  /** A row with at most two pairs agrees when its spelled-out pairs do. */
  lemma RowAgrees(row: OperatorRow)
    requires OneCharKind(row.first) == Some(row.one) && |row.pairs| <= 2
    requires forall b :: SpelledPair(b, row.pairs) == TwoCharKind(row.first, b)
    ensures AgreesWithReference(row)
  {
    forall b ensures FindPair(b, row.pairs) == TwoCharKind(row.first, b) {
      FindPairSpelled(b, row.pairs);
    }
  }

  /** A row without two-character kinds agrees when its first character begins no pair. */
  lemma LoneAgrees(row: OperatorRow)
    requires OneCharKind(row.first) == Some(row.one) && row.pairs == []
    requires forall b :: TwoCharKind(row.first, b) == None
    ensures AgreesWithReference(row)
  {
    forall b ensures FindPair(b, row.pairs) == TwoCharKind(row.first, b) {
      FindPairSpelled(b, row.pairs);
    }
  }

  /** The row of `+` agrees with the reference tables. */
  lemma PlusRowAgrees()
    ensures AgreesWithReference(ArithmeticRows[0])
  {
    RowAgrees(ArithmeticRows[0]);
  }

  /** The row of `-` agrees with the reference tables. */
  lemma MinusRowAgrees()
    ensures AgreesWithReference(ArithmeticRows[1])
  {
    RowAgrees(ArithmeticRows[1]);
  }

  /** The row of `*` agrees with the reference tables. */
  lemma StarRowAgrees()
    ensures AgreesWithReference(ArithmeticRows[2])
  {
    RowAgrees(ArithmeticRows[2]);
  }

  /** The row of `=` agrees with the reference tables. */
  lemma EqualsRowAgrees()
    ensures AgreesWithReference(ArithmeticRows[5])
  {
    RowAgrees(ArithmeticRows[5]);
  }

  /** The row of `!` agrees with the reference tables. */
  lemma BangRowAgrees()
    ensures AgreesWithReference(LogicRows[0])
  {
    RowAgrees(LogicRows[0]);
  }

  /** The row of `<` agrees with the reference tables. */
  lemma LessRowAgrees()
    ensures AgreesWithReference(LogicRows[1])
  {
    RowAgrees(LogicRows[1]);
  }

  /** The row of `>` agrees with the reference tables. */
  lemma GreaterRowAgrees()
    ensures AgreesWithReference(LogicRows[2])
  {
    RowAgrees(LogicRows[2]);
  }

  /** The row of `&` agrees with the reference tables. */
  lemma AmpersandRowAgrees()
    ensures AgreesWithReference(LogicRows[3])
  {
    RowAgrees(LogicRows[3]);
  }

  /** The row of `|` agrees with the reference tables. */
  lemma BarRowAgrees()
    ensures AgreesWithReference(LogicRows[4])
  {
    RowAgrees(LogicRows[4]);
  }

  /** The row of `:` agrees with the reference tables. */
  lemma ColonRowAgrees()
    ensures AgreesWithReference(PunctuationRows[0])
  {
    RowAgrees(PunctuationRows[0]);
  }

  /** The rows of the arithmetic and assignment operators agree with the reference tables. */
  lemma ArithmeticAgrees()
    ensures forall i | 0 <= i < |ArithmeticRows| :: AgreesWithReference(ArithmeticRows[i])
  {
    PlusRowAgrees();
    MinusRowAgrees();
    StarRowAgrees();
    EqualsRowAgrees();
    ArithmeticLoneAgrees();
  }

  /** The rows of `/` and `%`, which begin no pair, agree with the reference tables. */
  lemma ArithmeticLoneAgrees()
    ensures forall i | 3 <= i < 5 :: AgreesWithReference(ArithmeticRows[i])
  {
    forall i | 3 <= i < 5 ensures AgreesWithReference(ArithmeticRows[i]) {
      LoneAgrees(ArithmeticRows[i]);
    }
  }

  /** The rows of the comparison and logic operators agree with the reference tables. */
  lemma LogicAgrees()
    ensures forall i | 0 <= i < |LogicRows| :: AgreesWithReference(LogicRows[i])
  {
    BangRowAgrees();
    LessRowAgrees();
    GreaterRowAgrees();
    AmpersandRowAgrees();
    BarRowAgrees();
    LogicLoneAgrees();
  }

  /** The rows of `^` and `~`, which begin no pair, agree with the reference tables. */
  lemma LogicLoneAgrees()
    ensures forall i | 5 <= i < 7 :: AgreesWithReference(LogicRows[i])
  {
    forall i | 5 <= i < 7 ensures AgreesWithReference(LogicRows[i]) {
      LoneAgrees(LogicRows[i]);
    }
  }

  /** The rows of the punctuation agree with the reference tables. */
  lemma PunctuationAgrees()
    ensures forall i | 0 <= i < |PunctuationRows| :: AgreesWithReference(PunctuationRows[i])
  {
    ColonRowAgrees();
    PunctuationLoneAgrees();
  }

  /** The rows of the brackets and separators, which begin no pair, agree with the reference tables. */
  lemma PunctuationLoneAgrees()
    ensures forall i | 1 <= i < |PunctuationRows| :: AgreesWithReference(PunctuationRows[i])
  {
    OpeningBracketsAgree();
    ClosingBracketsAgree();
    SeparatorsAgree();
  }

  /** The rows of `(`, `)` and `{` agree with the reference tables. */
  lemma OpeningBracketsAgree()
    ensures forall i | 1 <= i < 4 :: AgreesWithReference(PunctuationRows[i])
  {
    forall i | 1 <= i < 4 ensures AgreesWithReference(PunctuationRows[i]) {
      LoneAgrees(PunctuationRows[i]);
    }
  }

  /** The rows of `}`, `[` and `]` agree with the reference tables. */
  lemma ClosingBracketsAgree()
    ensures forall i | 4 <= i < 7 :: AgreesWithReference(PunctuationRows[i])
  {
    forall i | 4 <= i < 7 ensures AgreesWithReference(PunctuationRows[i]) {
      LoneAgrees(PunctuationRows[i]);
    }
  }

  /** The rows of `,`, `;` and `.` agree with the reference tables. */
  lemma SeparatorsAgree()
    ensures forall i | 7 <= i < 10 :: AgreesWithReference(PunctuationRows[i])
  {
    forall i | 7 <= i < 10 ensures AgreesWithReference(PunctuationRows[i]) {
      LoneAgrees(PunctuationRows[i]);
    }
  }

  /** Every row of the operator table agrees with the reference tables. */
  lemma TableAgrees()
    ensures forall i | 0 <= i < |OperatorTable| :: AgreesWithReference(OperatorTable[i])
  {
    ArithmeticAgrees();
    LogicAgrees();
    PunctuationAgrees();
    forall i | 0 <= i < |OperatorTable| ensures AgreesWithReference(OperatorTable[i]) {
      if i < 6 {
        assert OperatorTable[i] == ArithmeticRows[i];
      } else if i < 13 {
        assert OperatorTable[i] == LogicRows[i - 6];
      } else {
        assert OperatorTable[i] == PunctuationRows[i - 13];
      }
    }
  }

  /** A character some row carries has a row. */
  lemma {:induction false} FindRowHit(ch: char, rows: seq<OperatorRow>, i: nat)
    requires i < |rows| && rows[i].first == ch
    ensures FindRow(ch, rows).Some?
    decreases i
  {
    if i > 0 && rows[0].first != ch {
      FindRowHit(ch, rows[1..], i - 1);
    }
  }

  /** The row found is one of the rows: the index of the row found. */
  lemma {:induction false} FindRowIndex(ch: char, rows: seq<OperatorRow>) returns (i: nat)
    requires FindRow(ch, rows).Some?
    ensures i < |rows| && FindRow(ch, rows) == Some(rows[i])
    decreases |rows|
  {
    if rows[0].first == ch {
      i := 0;
    } else {
      var j := FindRowIndex(ch, rows[1..]);
      i := j + 1;
    }
  }

  /** A character that no row carries has no row. */
  lemma {:induction false} FindRowMiss(ch: char, rows: seq<OperatorRow>)
    requires forall i | 0 <= i < |rows| :: rows[i].first != ch
    ensures FindRow(ch, rows).None?
    decreases |rows|
  {
    if rows != [] {
      assert rows[0].first != ch;
      FindRowMiss(ch, rows[1..]);
    }
  }

  lemma FindRowFirst(a: char)
    requires a == '+' || a == '-' || a == '*' || a == '/' || a == '%' || a == '='
    ensures FindRow(a, OperatorTable).Some?
  {
    if a == '+' {
      FindRowHit(a, OperatorTable, 0);
    } else if a == '-' {
      FindRowHit(a, OperatorTable, 1);
    } else if a == '*' {
      FindRowHit(a, OperatorTable, 2);
    } else if a == '/' {
      FindRowHit(a, OperatorTable, 3);
    } else if a == '%' {
      FindRowHit(a, OperatorTable, 4);
    } else {
      FindRowHit(a, OperatorTable, 5);
    }
  }

  lemma FindRowSecond(a: char)
    requires a == '!' || a == '<' || a == '>' || a == '&' || a == '|' || a == '^'
    ensures FindRow(a, OperatorTable).Some?
  {
    if a == '!' {
      FindRowHit(a, OperatorTable, 6);
    } else if a == '<' {
      FindRowHit(a, OperatorTable, 7);
    } else if a == '>' {
      FindRowHit(a, OperatorTable, 8);
    } else if a == '&' {
      FindRowHit(a, OperatorTable, 9);
    } else if a == '|' {
      FindRowHit(a, OperatorTable, 10);
    } else {
      FindRowHit(a, OperatorTable, 11);
    }
  }

  lemma FindRowThird(a: char)
    requires a == '~' || a == ':' || a == '(' || a == ')' || a == '{' || a == '}'
    ensures FindRow(a, OperatorTable).Some?
  {
    if a == '~' {
      FindRowHit(a, OperatorTable, 12);
    } else if a == ':' {
      FindRowHit(a, OperatorTable, 13);
    } else if a == '(' {
      FindRowHit(a, OperatorTable, 14);
    } else if a == ')' {
      FindRowHit(a, OperatorTable, 15);
    } else if a == '{' {
      FindRowHit(a, OperatorTable, 16);
    } else {
      FindRowHit(a, OperatorTable, 17);
    }
  }

  lemma FindRowFourth(a: char)
    requires a == '[' || a == ']' || a == ',' || a == ';' || a == '.'
    ensures FindRow(a, OperatorTable).Some?
  {
    if a == '[' {
      FindRowHit(a, OperatorTable, 18);
    } else if a == ']' {
      FindRowHit(a, OperatorTable, 19);
    } else if a == ',' {
      FindRowHit(a, OperatorTable, 20);
    } else if a == ';' {
      FindRowHit(a, OperatorTable, 21);
    } else {
      FindRowHit(a, OperatorTable, 22);
    }
  }

  /** A character of the reference one-character table has its row in the operator table, with the same kinds. */
  lemma OperatorRowFound(a: char)
    requires OneCharKind(a).Some?
    ensures FindRow(a, OperatorTable).Some?
    ensures FindRow(a, OperatorTable).value.one == OneCharKind(a).value
  {
    if a == '+' || a == '-' || a == '*' || a == '/' || a == '%' || a == '=' {
      FindRowFirst(a);
    } else if a == '!' || a == '<' || a == '>' || a == '&' || a == '|' || a == '^' {
      FindRowSecond(a);
    } else if a == '~' || a == ':' || a == '(' || a == ')' || a == '{' || a == '}' {
      FindRowThird(a);
    } else {
      FindRowFourth(a);
    }
    var i := FindRowIndex(a, OperatorTable);
    TableAgrees();
    assert OneAgrees(OperatorTable[i]);
  }

  /** The row of a character pairs it with exactly the second characters of the reference table. */
  lemma OperatorPairFound(a: char, b: char)
    requires FindRow(a, OperatorTable).Some?
    ensures FindPair(b, FindRow(a, OperatorTable).value.pairs) == TwoCharKind(a, b)
  {
    var i := FindRowIndex(a, OperatorTable);
    TableAgrees();
    assert PairsAgree(OperatorTable[i]);
  }

  /** Only a character of the one-character table starts a two-character operator. */
  lemma PairNeedsOperator(a: char, b: char)
    requires TwoCharKind(a, b).Some?
    ensures OneCharKind(a).Some?
  {
  }

  /** Any other character has no row in the operator table. */
  lemma OperatorRowMissing(a: char)
    requires OneCharKind(a).None?
    ensures FindRow(a, OperatorTable).None?
  {
    forall i | 0 <= i < |OperatorTable|
      ensures OperatorTable[i].first != a
    {
      TableAgrees();
      assert OneAgrees(OperatorTable[i]);
    }
    FindRowMiss(a, OperatorTable);
  }

  /**
   * Greedy operators: when the character after an operator character
   * completes a two-character operator of its row, that operator is the
   * token, and both characters are consumed.
   */
  lemma OperatorPair(s: string, c: Cursor)
    requires c.pos + 1 < |s| && FindRow(s[c.pos], OperatorTable).Some?
    requires FindPair(s[c.pos + 1], FindRow(s[c.pos], OperatorTable).value.pairs).Some?
    ensures Operator(s, c).0 ==
              Token(FindPair(s[c.pos + 1], FindRow(s[c.pos], OperatorTable).value.pairs).value, c.line, c.column, 2)
    ensures Operator(s, c).1.pos == c.pos + 2
  {
    var d := Advance(s, c);
    assert d.pos == c.pos + 1 && s[d.pos] == s[c.pos + 1];
  }

  /** Otherwise an operator character is a one-character token of its row's kind. */
  lemma OperatorSingle(s: string, c: Cursor)
    requires c.pos < |s| && FindRow(s[c.pos], OperatorTable).Some?
    requires c.pos + 1 < |s| ==> FindPair(s[c.pos + 1], FindRow(s[c.pos], OperatorTable).value.pairs).None?
    ensures Operator(s, c) == (Token(FindRow(s[c.pos], OperatorTable).value.one, c.line, c.column, 1), Advance(s, c))
  {
    var d := Advance(s, c);
    assert d.pos == c.pos + 1;
  }

  /** Any other character gives an "Unexpected character" error token and is skipped. */
  lemma OperatorUnknown(s: string, c: Cursor)
    requires c.pos < |s| && FindRow(s[c.pos], OperatorTable).None?
    ensures Operator(s, c) == (ErrorToken("Unexpected character: '" + [s[c.pos]] + "'", c.line, c.column), Advance(s, c))
  {
  }

  /** No operator character starts another kind of token, so next_token reaches its operator arms. */
  predicate StartsOtherToken(s: string, c: Cursor)
    requires c.pos < |s|
  {
    var ch := s[c.pos];
    || ch == '\n' || ch == '#' || ch == '"' || ch == '\'' || IsDigit(ch) || IsIdentStart(ch)
    || (ch == '/' && NextIs(s, c, '*'))
    || (ch == '$' && (NextIs(s, c, '(') || NextIs(s, c, '{')))
  }

  /** A character that starts no other kind of token is read by the operator arms. */
  lemma TokenAtOperator(s: string, c: Cursor)
    requires c.pos < |s| && !StartsOtherToken(s, c)
    ensures TokenAt(s, c) == Operator(s, c)
  {
  }

  /**
   * A character of the reference one-character table, not followed by a
   * character that would extend it to a two-character operator, is a
   * one-character operator token.
   */
  lemma OneCharOperatorToken(s: string, c: Cursor)
    requires c.pos < |s| && !StartsOtherToken(s, c) && OneCharKind(s[c.pos]).Some?
    requires c.pos + 1 < |s| ==> TwoCharKind(s[c.pos], s[c.pos + 1]).None?
    ensures TokenAt(s, c) == (Token(OneCharKind(s[c.pos]).value, c.line, c.column, 1), Advance(s, c))
  {
    OperatorRowFound(s[c.pos]);
    if c.pos + 1 < |s| {
      OperatorPairFound(s[c.pos], s[c.pos + 1]);
    }
    OperatorSingle(s, c);
    TokenAtOperator(s, c);
  }

  /** A parenthesis is a token of its own, whatever follows it. */
  lemma ParenToken(s: string, c: Cursor)
    requires c.pos < |s| && (s[c.pos] == '(' || s[c.pos] == ')')
    ensures TokenAt(s, c).0.kind == (if s[c.pos] == '(' then LeftParen else RightParen)
    ensures TokenAt(s, c).1.pos == c.pos + 1
  {
    assert !StartsOtherToken(s, c);
    assert OneCharKind(s[c.pos]).Some?;
    OneCharOperatorToken(s, c);
  }

  /**
   * A character that starts no token is reported and skipped: the error
   * token sits at the cursor and lexing resumes one character later.
   */
  lemma UnexpectedCharacterSkipped(s: string, c: Cursor)
    requires c.pos < |s| && !StartsOtherToken(s, c) && FindRow(s[c.pos], OperatorTable).None?
    ensures TokenAt(s, c).0 == Token(Error("Unexpected character: '" + [s[c.pos]] + "'"), c.line, c.column, 1)
    ensures TokenAt(s, c).1 == Advance(s, c)
  {
    OperatorUnknown(s, c);
  }

  /** Each newline is a token of its own; it moves the cursor to column 1 of the next line. */
  lemma NewlineIsToken(s: string, c: Cursor)
    requires c.pos < |s| && s[c.pos] == '\n'
    ensures NextToken(s, c) == (Token(Newline, c.line, c.column, 1), Cursor(c.pos + 1, c.line + 1, 1))
  {
    assert SkipWhitespace(s, c) == c;
  }

  // ---------------------------------------------------------------- string escapes

  /** The escape sequence a double-quoted literal needs for `ch`. */
  function EscapeChar(ch: char): (e: string)
    ensures 1 <= |e| <= 2
    ensures |e| == 1 <==> e == [ch]
  {
    match ch
    case '\n' => "\\n"
    case '\t' => "\\t"
    case '\r' => "\\r"
    case '\\' => "\\\\"
    case '"' => "\\\""
    case _ => [ch]
  }

  /** The characters a double-quoted literal cannot spell as themselves. */
  predicate NeedsEscape(ch: char) {
    ch == '\n' || ch == '\t' || ch == '\r' || ch == '\\' || ch == '"'
  }

  /** The body of a double-quoted literal spelling `t`. */
  function Escape(t: string): (e: string)
  {
    if t == [] then [] else EscapeChar(t[0]) + Escape(t[1..])
  }

  /** A one-character escape is neither a quote nor a backslash; a two-character one decodes back. */
  lemma EscapeCharDecodes(ch: char)
    ensures |EscapeChar(ch)| == 1 ==> ch != '"' && ch != '\\'
    ensures |EscapeChar(ch)| == 2 ==> EscapeChar(ch)[0] == '\\' && Unescape(EscapeChar(ch)[1]) == [ch]
  {
  }

  /**
   * A single quote needs no backslash inside a double-quoted string, but
   * `\'` is one of the listed escapes: both spellings decode to `'`.
   */
  lemma SingleQuoteEitherWay(s: string, c: Cursor, acc: string)
    requires c.pos < |s|
    ensures s[c.pos] == '\'' ==> ScanString(s, c, acc) == ScanString(s, Advance(s, c), acc + "'")
    ensures c.pos + 1 < |s| && s[c.pos] == '\\' && s[c.pos + 1] == '\'' ==>
              ScanString(s, c, acc) == ScanString(s, Advance(s, Advance(s, c)), acc + "'")
  {
  }

  /** One turn of the decoding loop over a character that needs no escape. */
  lemma PlainTurn(s: string, c: Cursor, acc: string, t: string)
    requires t != [] && |EscapeChar(t[0])| == 1 && EscapedAt(s, c.pos, t)
    ensures Advance(s, c).pos == c.pos + 1 && EscapedAt(s, c.pos + 1, t[1..])
    ensures ScanString(s, c, acc) == ScanString(s, Advance(s, c), acc + [t[0]])
  {
    EscapeCharDecodes(t[0]);
  }

  /** One turn of the decoding loop over a backslash escape. */
  lemma EscapeTurn(s: string, c: Cursor, acc: string, t: string)
    requires t != [] && |EscapeChar(t[0])| == 2 && EscapedAt(s, c.pos, t)
    ensures Advance(s, Advance(s, c)).pos == c.pos + 2 && EscapedAt(s, c.pos + 2, t[1..])
    ensures ScanString(s, c, acc) == ScanString(s, Advance(s, Advance(s, c)), acc + [t[0]])
  {
    EscapeCharDecodes(t[0]);
  }

  /** A concatenation found in place splits into its two parts in place. */
  lemma SliceConcat(s: string, p: nat, x: string, y: string)
    requires p + |x| + |y| <= |s| && s[p .. p + |x| + |y|] == x + y
    ensures s[p .. p + |x|] == x && s[p + |x| .. p + |x| + |y|] == y
  {
    assert s[p .. p + |x|] == (x + y)[.. |x|];
    assert s[p + |x| .. p + |x| + |y|] == (x + y)[|x| ..];
  }

  lemma EscapeCons(t: string)
    requires t != []
    ensures Escape(t) == EscapeChar(t[0]) + Escape(t[1..])
  {
  }

  /** The escaped spelling of `t` stands in `s` from index `p`, read one escaped character at a time. */
  predicate EscapedAt(s: string, p: nat, t: string)
    decreases t
  {
    if t == [] then p <= |s|
    else
      var e0 := EscapeChar(t[0]);
      && p + |e0| <= |s|
      && (|e0| == 1 ==> s[p] == t[0])
      && (|e0| == 2 ==> s[p] == '\\' && s[p + 1] == e0[1])
      && EscapedAt(s, p + |e0|, t[1..])
  }

  /** The escaped spelling found as a slice is found character by character. */
  lemma {:induction false} EscapedSlice(s: string, p: nat, t: string)
    requires p + |Escape(t)| <= |s| && s[p .. p + |Escape(t)|] == Escape(t)
    ensures EscapedAt(s, p, t)
    decreases t
  {
    if t != [] {
      var e0, rest := EscapeChar(t[0]), Escape(t[1..]);
      EscapeCons(t);
      SliceConcat(s, p, e0, rest);
      assert s[p] == e0[0];
      if |e0| == 2 {
        assert s[p + 1] == e0[1];
      }
      EscapedSlice(s, p + |e0|, t[1..]);
    }
  }

  /**
   * The decoding loop of read_string inverts `Escape`: from an escaped body
   * followed by a quote, it yields the original text and stops after the quote.
   */
  lemma {:induction false} ScanEscaped(s: string, c: Cursor, acc: string, t: string)
    requires EscapedAt(s, c.pos, t)
    requires c.pos + |Escape(t)| < |s| && s[c.pos + |Escape(t)|] == '"'
    ensures ScanString(s, c, acc).0 == Some(acc + t)
    ensures ScanString(s, c, acc).1.pos == c.pos + |Escape(t)| + 1
    decreases |t|, 1
  {
    if t == [] {
      assert acc + t == acc;
    } else if |EscapeChar(t[0])| == 1 {
      ScanEscapedPlain(s, c, acc, t);
    } else {
      ScanEscapedPair(s, c, acc, t);
    }
  }

  /** Moving the first character of `t` onto the accumulator keeps the whole. */
  lemma AppendHead(acc: string, t: string)
    requires t != []
    ensures (acc + [t[0]]) + t[1..] == acc + t
  {
    assert t == [t[0]] + t[1..];
  }

  lemma {:induction false} ScanEscapedPlain(s: string, c: Cursor, acc: string, t: string)
    requires t != [] && |EscapeChar(t[0])| == 1 && EscapedAt(s, c.pos, t)
    requires c.pos + |Escape(t)| < |s| && s[c.pos + |Escape(t)|] == '"'
    ensures ScanString(s, c, acc).0 == Some(acc + t)
    ensures ScanString(s, c, acc).1.pos == c.pos + |Escape(t)| + 1
    decreases |t|, 0
  {
    EscapeCons(t);
    AppendHead(acc, t);
    PlainTurn(s, c, acc, t);
    var d := Advance(s, c);
    assert d.pos + |Escape(t[1..])| == c.pos + |Escape(t)|;
    ScanEscaped(s, d, acc + [t[0]], t[1..]);
  }

  lemma {:induction false} ScanEscapedPair(s: string, c: Cursor, acc: string, t: string)
    requires t != [] && |EscapeChar(t[0])| == 2 && EscapedAt(s, c.pos, t)
    requires c.pos + |Escape(t)| < |s| && s[c.pos + |Escape(t)|] == '"'
    ensures ScanString(s, c, acc).0 == Some(acc + t)
    ensures ScanString(s, c, acc).1.pos == c.pos + |Escape(t)| + 1
    decreases |t|, 0
  {
    EscapeCons(t);
    AppendHead(acc, t);
    EscapeTurn(s, c, acc, t);
    var d := Advance(s, Advance(s, c));
    assert d.pos + |Escape(t[1..])| == c.pos + |Escape(t)|;
    ScanEscaped(s, d, acc + [t[0]], t[1..]);
  }

  /**
   * A double-quoted literal spelling `t`, found in place at the cursor, is
   * read as the string `t`, and reading stops after its closing quote.
   */
  lemma StringInPlace(s: string, c: Cursor, t: string)
    requires c.pos + |Escape(t)| + 1 < |s| && s[c.pos] == '"'
    requires s[c.pos + 1 .. c.pos + 1 + |Escape(t)|] == Escape(t) && s[c.pos + 1 + |Escape(t)|] == '"'
    ensures ReadString(s, c).0 == Token(String(t), c.line, c.column, |t| + 2)
    ensures ReadString(s, c).1.pos == c.pos + |Escape(t)| + 2
  {
    var d := Advance(s, c);
    assert d.pos == c.pos + 1;
    EscapedSlice(s, d.pos, t);
    ScanEscaped(s, d, "", t);
    EmptyAppend(t);
  }

  /** Nothing before `t` leaves `t`. */
  lemma EmptyAppend(t: string)
    ensures "" + t == t
  {
  }

  /** Escape decoding round trip: the literal `"` + Escape(t) + `"` lexes to the string `t`. */
  lemma StringLiteralRoundTrip(t: string)
    ensures var q := "\"" + Escape(t) + "\"";
            && ReadString(q, Start).0 == Token(String(t), 1, 1, |t| + 2)
            && ReadString(q, Start).1.pos == |q|
  {
    var q := "\"" + Escape(t) + "\"";
    var c := Advance(q, Start);
    assert q[c.pos .. c.pos + |Escape(t)|] == Escape(t);
    EscapedSlice(q, c.pos, t);
    ScanEscaped(q, c, "", t);
    assert "" + t == t;
  }

  // ---------------------------------------------------------------- commands

  /** Parentheses opened minus parentheses closed in `t`. */
  function Nesting(t: string): int {
    if t == [] then 0
    else Nesting(t[..|t| - 1]) + (if t[|t| - 1] == '(' then 1 else if t[|t| - 1] == ')' then -1 else 0)
  }

  /** Balanced text: no prefix closes more parentheses than it opened, and all are closed. */
  predicate Balanced(t: string) {
    Nesting(t) == 0 && forall k | 0 <= k <= |t| :: Nesting(t[..k]) >= 0
  }

  /** No prefix of `s[a .. p]` closes more parentheses than it opened. */
  predicate OpenFrom(s: string, a: nat, p: nat)
    requires a <= p <= |s|
  {
    forall k | a <= k <= p :: Nesting(s[a .. k]) >= 0
  }

  /** No prefix of the text from `a` on closes more parentheses than it opened. */
  predicate NeverCloses(s: string, a: nat)
    requires a <= |s|
  {
    OpenFrom(s, a, |s|)
  }

  lemma NestingStep(s: string, a: nat, k: nat)
    requires a <= k < |s|
    ensures Nesting(s[a .. k + 1]) ==
            Nesting(s[a .. k]) + (if s[k] == '(' then 1 else if s[k] == ')' then -1 else 0)
  {
    assert s[a .. k + 1][.. k - a] == s[a .. k];
  }

  lemma OpenExtend(s: string, a: nat, p: nat)
    requires a <= p < |s| && OpenFrom(s, a, p) && Nesting(s[a .. p + 1]) >= 0
    ensures OpenFrom(s, a, p + 1)
  {
  }

  /**
   * What the counting loop of read_command finds for text read since `a`:
   * a closing index at which the nesting first returns to zero, or, when
   * there is none, that no prefix ever closes more than it opened.
   */
  predicate CloseFound(s: string, a: nat, close: Option<nat>)
    requires a <= |s|
  {
    match close
    case Some(e) => a <= e <= |s| && Nesting(s[a .. e]) == 0 && OpenFrom(s, a, e)
    case None => NeverCloses(s, a)
  }

  /**
   * The counting loop of read_command stops exactly at the first
   * parenthesis that brings the nesting of the text read since `a` below
   * zero, and runs to the end of input when there is none.
   */
  lemma {:induction false} ScanCommandNesting(s: string, c: Cursor, depth: nat, a: nat)
    requires a <= c.pos <= |s| && depth >= 1
    requires depth == 1 + Nesting(s[a .. c.pos]) && OpenFrom(s, a, c.pos)
    ensures CloseFound(s, a, ScanCommand(s, c, depth).0)
    decreases |s| - c.pos, 1
  {
    if c.pos < |s| {
      if s[c.pos] == ')' && depth == 1 {
        ScanCommandTurn(s, c, depth);
      } else {
        ScanCommandGoesOn(s, c, depth, a);
      }
    }
  }

  /** A turn that does not close the command: the nesting moves by the character read, and the loop goes on. */
  lemma {:induction false} ScanCommandGoesOn(s: string, c: Cursor, depth: nat, a: nat)
    requires a <= c.pos < |s| && depth >= 1 && !(s[c.pos] == ')' && depth == 1)
    requires depth == 1 + Nesting(s[a .. c.pos]) && OpenFrom(s, a, c.pos)
    ensures CloseFound(s, a, ScanCommand(s, c, depth).0)
    decreases |s| - c.pos, 0
  {
    NestingStep(s, a, c.pos);
    OpenExtend(s, a, c.pos);
    ScanCommandTurn(s, c, depth);
    ScanCommandNesting(s, Advance(s, c), NextDepth(s[c.pos], depth), a);
  }

  /** The nesting depth after reading `ch`. */
  function NextDepth(ch: char, depth: nat): (d: nat)
    requires depth >= 1 && !(ch == ')' && depth == 1)
    ensures d >= 1
    ensures d == depth + (if ch == '(' then 1 else if ch == ')' then -1 else 0)
  {
    if ch == '(' then depth + 1 else if ch == ')' then depth - 1 else depth
  }

  /** One turn of the counting loop of read_command. */
  lemma ScanCommandTurn(s: string, c: Cursor, depth: nat)
    requires c.pos < |s| && depth >= 1
    ensures s[c.pos] == ')' && depth == 1 ==> ScanCommand(s, c, depth).0 == Some(c.pos)
    ensures !(s[c.pos] == ')' && depth == 1) ==>
              ScanCommand(s, c, depth) == ScanCommand(s, Advance(s, c), NextDepth(s[c.pos], depth))
  {
  }

  lemma BalancedPrefixes(s: string, a: nat, e: nat)
    requires a <= e <= |s|
    requires Nesting(s[a .. e]) == 0 && OpenFrom(s, a, e)
    ensures Balanced(s[a .. e])
  {
    forall k | 0 <= k <= e - a
      ensures Nesting(s[a .. e][..k]) >= 0
    {
      assert s[a .. e][..k] == s[a .. a + k];
    }
  }

  /**
   * Balanced `$( ... )` capture: a Command token holds balanced text,
   * inner parentheses included, followed by the closing parenthesis that
   * balances the opening one; the Error token arises exactly when no
   * parenthesis ever balances it.
   */
  lemma ReadCommandBalanced(s: string, c: Cursor)
    requires c.pos + 1 < |s| && s[c.pos] == '$' && s[c.pos + 1] == '('
    ensures var r := ReadCommand(s, c);
            && (r.0.kind.Command? ==> Balanced(r.0.kind.command) && s[c.pos + 2 + |r.0.kind.command|] == ')')
            && (r.0.kind.Error? ==> NeverCloses(s, c.pos + 2))
  {
    var a := c.pos + 2;
    var c2 := Advance(s, Advance(s, c));
    assert s[a .. a] == [];
    ScanCommandNesting(s, c2, 1, a);
    var (close, d) := ScanCommand(s, c2, 1);
    if close.Some? {
      BalancedPrefixes(s, a, close.value);
    }
  }

  // ---------------------------------------------------------------- numbers

  /** Integer literal round trip: the decimal spelling of any i64-sized natural lexes back to it. */
  lemma IntegerLiteralRoundTrip(n: nat)
    requires n <= I64_MAX
    ensures var s := Values.NatToString(n);
            && NextToken(s, Start).0 == Token(Integer(n), 1, 1, |s|)
            && NextToken(s, Start).1.pos == |s|
  {
    var s := Values.NatToString(n);
    assert SkipWhitespace(s, Start) == Start;
    NextTokenAt(s, Start);
    TokenAtNumber(s, Start);
    DigitsReadWhole(s);
  }

  /** read_number on a text of digits reads all of it. */
  lemma DigitsReadWhole(s: string)
    requires |s| >= 1 && forall i | 0 <= i < |s| :: IsDigit(s[i])
    ensures ReadNumber(s, Start).1.pos == |s|
    ensures s[Start.pos .. ReadNumber(s, Start).1.pos] == s
  {
  }

  /**
   * Balanced text between `$(` and `)` is captured exactly: read_command
   * stops at the parenthesis after it, not earlier and not later.
   */
  lemma CommandRoundTrip(t: string, rest: string)
    requires Balanced(t)
    ensures var s := "$(" + t + ")" + rest;
            && ReadCommand(s, Start).0 == Token(Command(t), 1, 1, |t| + 3)
            && ReadCommand(s, Start).1.pos == |t| + 3
  {
    var s := "$(" + t + ")" + rest;
    CommandClosesAt(s, t, rest);
    assert s[2 .. |t| + 2] == t;
  }

  /** The scan after `$(` closes at the parenthesis that follows balanced text. */
  lemma CommandClosesAt(s: string, t: string, rest: string)
    requires Balanced(t) && s == "$(" + t + ")" + rest
    ensures ScanCommand(s, Advance(s, Advance(s, Start)), 1).0 == Some(|t| + 2)
  {
    var e := |t| + 2;
    assert s[2 .. e] == t && s[e] == ')';
    var c2 := Advance(s, Advance(s, Start));
    assert s[2 .. 2] == [];
    ScanCommandNesting(s, c2, 1, 2);
    NestingStep(s, 2, e);
    var (close, d) := ScanCommand(s, c2, 1);
    if close.None? {
      assert false;
    }
    var f := close.value;
    assert f >= e by {
      if f < e {
        assert s[2 .. f] == t[..f - 2];
        BalancedNoEarlyClose(t, f - 2);
      }
    }
    if f > e {
      assert false;
    }
  }

  /** In balanced text, a closing parenthesis never follows a balanced prefix. */
  lemma BalancedNoEarlyClose(t: string, i: nat)
    requires Balanced(t) && i < |t| && Nesting(t[..i]) == 0
    ensures t[i] != ')'
  {
    assert t[..i + 1][..i] == t[..i];
  }

  /** Text without parentheses is balanced. */
  lemma {:induction false} NoParensBalanced(t: string)
    requires forall i | 0 <= i < |t| :: t[i] != '(' && t[i] != ')'
    ensures Nesting(t) == 0
    ensures Balanced(t)
    decreases |t|
  {
    if t != [] {
      NoParensBalanced(t[..|t| - 1]);
    }
    forall k | 0 <= k <= |t|
      ensures Nesting(t[..k]) >= 0
    {
      if k < |t| {
        NoParensBalanced(t[..k]);
      } else {
        assert t[..k] == t;
      }
    }
  }

  // ---------------------------------------------------------------- dispatch

  /** After the blanks, next_token dispatches on the current character. */
  lemma NextTokenAt(s: string, c: Cursor)
    requires c.pos <= |s| && SkipWhitespace(s, c).pos < |s|
    ensures NextToken(s, c) == TokenAt(s, SkipWhitespace(s, c))
  {
  }

  lemma TokenAtIdentifier(s: string, w: Cursor)
    requires w.pos < |s| && IsIdentStart(s[w.pos])
    ensures TokenAt(s, w) == ReadIdentifier(s, w)
  {
  }

  lemma TokenAtNumber(s: string, w: Cursor)
    requires w.pos < |s| && IsDigit(s[w.pos])
    ensures TokenAt(s, w) == ReadNumber(s, w)
  {
  }

  lemma TokenAtString(s: string, w: Cursor)
    requires w.pos < |s| && s[w.pos] == '"'
    ensures TokenAt(s, w) == ReadString(s, w)
  {
    assert !IsDigit(s[w.pos]) && !IsIdentStart(s[w.pos]);
  }

  lemma TokenAtCommand(s: string, w: Cursor)
    requires w.pos + 1 < |s| && s[w.pos] == '$' && s[w.pos + 1] == '('
    ensures TokenAt(s, w) == ReadCommand(s, w)
  {
    assert !IsDigit(s[w.pos]) && !IsIdentStart(s[w.pos]) && NextIs(s, w, '(');
  }

  /** `s` holds a word of `n` identifier characters from index `p`, not followed by another. */
  predicate WordSpan(s: string, p: nat, n: nat) {
    && p + n <= |s| && n >= 1 && IsIdentStart(s[p])
    && (forall i | p <= i < p + n :: IsIdentChar(s[i]))
    && (p + n == |s| || !IsIdentChar(s[p + n]))
  }

  /** read_identifier stops exactly at the end of the run of identifier characters. */
  lemma WordEnd(s: string, w: Cursor, n: nat)
    requires WordSpan(s, w.pos, n)
    ensures ReadIdentifier(s, w).1.pos == w.pos + n
  {
    var d := ReadIdentifier(s, w).1;
    if d.pos < w.pos + n {
      assert false;
    }
  }

  /** read_identifier takes the whole run of identifier characters and classifies it. */
  lemma ReadWord(s: string, w: Cursor, n: nat)
    requires WordSpan(s, w.pos, n)
    ensures ReadIdentifier(s, w).1.pos == w.pos + n
    ensures ReadIdentifier(s, w).0.kind == KeywordOrIdentifier(s[w.pos .. w.pos + n])
    ensures ReadIdentifier(s, w).0.length == n
  {
    WordEnd(s, w, n);
    WordClassified(s, w, n);
    WordLength(s, w, n);
  }

  /** The word read_identifier ends at is the one it classifies. */
  lemma WordClassified(s: string, w: Cursor, n: nat)
    requires w.pos < |s| && IsIdentStart(s[w.pos]) && ReadIdentifier(s, w).1.pos == w.pos + n
    ensures ReadIdentifier(s, w).0.kind == KeywordOrIdentifier(s[w.pos .. w.pos + n])
  {
    var word := s[w.pos .. w.pos + n];
    assert word == s[w.pos .. ReadIdentifier(s, w).1.pos];
  }

  /** The token read_identifier returns is as long as the word it ends at. */
  lemma WordLength(s: string, w: Cursor, n: nat)
    requires w.pos < |s| && IsIdentStart(s[w.pos]) && ReadIdentifier(s, w).1.pos == w.pos + n
    ensures ReadIdentifier(s, w).0.length == n
  {
  }

  /** A word that spells a keyword is read as that keyword. */
  lemma KeywordWord(s: string, w: Cursor, n: nat, k: TokenKind)
    requires IsKeywordKind(k) && WordSpan(s, w.pos, n) && s[w.pos .. w.pos + n] == KeywordSpelling(k)
    ensures ReadIdentifier(s, w).0.kind == k && ReadIdentifier(s, w).1.pos == w.pos + n
  {
    ReadWord(s, w, n);
    KeywordRoundTrip(k);
  }

  /** A word that spells no keyword is read as a name. */
  lemma NameWord(s: string, w: Cursor, n: nat, name: string)
    requires WordSpan(s, w.pos, n) && s[w.pos .. w.pos + n] == name && KeywordOrIdentifier(name) == Identifier(name)
    ensures ReadIdentifier(s, w).0.kind == Identifier(name) && ReadIdentifier(s, w).1.pos == w.pos + n
  {
    ReadWord(s, w, n);
  }

  /** A word after the blanks at the cursor is read by read_identifier. */
  lemma WordAfterBlanks(s: string, c: Cursor)
    requires c.pos <= |s| && SkipWhitespace(s, c).pos < |s| && IsIdentStart(s[SkipWhitespace(s, c).pos])
    ensures NextToken(s, c) == ReadIdentifier(s, SkipWhitespace(s, c))
  {
    NextTokenAt(s, c);
    TokenAtIdentifier(s, SkipWhitespace(s, c));
  }

  /** The kinds of a token stream, positions and lengths left aside. */
  function Kinds(ts: seq<Token>): (ks: seq<TokenKind>)
    ensures |ks| == |ts|
  {
    if ts == [] then [] else [ts[0].kind] + Kinds(ts[1..])
  }

  /** One step of tokenize, seen through the token kinds. */
  lemma KindsStep(s: string, c: Cursor)
    requires c.pos <= |s|
    ensures NextToken(s, c).0.kind == EOF ==> Kinds(TokenizeFrom(s, c)) == [EOF]
    ensures NextToken(s, c).0.kind != EOF ==>
              Kinds(TokenizeFrom(s, c)) == [NextToken(s, c).0.kind] + Kinds(TokenizeFrom(s, NextToken(s, c).1))
  {
    TokenizeStep(s, c);
    var ts := TokenizeFrom(s, c);
    assert ts[1..] == TokenizeFrom(s, NextToken(s, c).1) || NextToken(s, c).0.kind == EOF;
  }

  /** A text that is a single token lexes to that token and EOF. */
  lemma LoneToken(s: string)
    requires NextToken(s, Start).0.kind != EOF && NextToken(s, Start).1.pos == |s|
    ensures Kinds(Tokenize(s)) == [NextToken(s, Start).0.kind, EOF]
  {
    var c1 := NextToken(s, Start).1;
    KindsStep(s, Start);
    KindsStep(s, c1);
  }

  /** A quoted text without characters that need escaping lexes to one String token. */
  lemma QuotedLiteral(t: string)
    requires forall i | 0 <= i < |t| :: !NeedsEscape(t[i])
    ensures Kinds(Tokenize("\"" + t + "\"")) == [String(t), EOF]
  {
    var q := "\"" + t + "\"";
    NoEscapesNeeded(t);
    StringLiteralRoundTrip(t);
    assert SkipWhitespace(q, Start) == Start;
    NextTokenAt(q, Start);
    TokenAtString(q, Start);
    LoneToken(q);
  }

  /** Text without quotes, backslashes or control characters is its own escaped form. */
  lemma {:induction false} NoEscapesNeeded(t: string)
    requires forall i | 0 <= i < |t| :: !NeedsEscape(t[i])
    ensures Escape(t) == t
    decreases t
  {
    if t != [] {
      NoEscapesNeeded(t[1..]);
      assert t == [t[0]] + t[1..];
    }
  }

  /** A balanced command on its own lexes to one Command token. */
  lemma CommandLiteral(t: string)
    requires Balanced(t)
    ensures Kinds(Tokenize("$(" + t + ")")) == [Command(t), EOF]
  {
    var q := "$(" + t + ")";
    assert q == "$(" + t + ")" + "";
    CommandRoundTrip(t, "");
    assert SkipWhitespace(q, Start) == Start;
    NextTokenAt(q, Start);
    TokenAtCommand(q, Start);
    LoneToken(q);
  }
}

=== FILE: lexer_tests.dfy ===
/**
 * The tokenizer's own tests (src/lexer/mod.rs), and the lexing of the
 * texts of the parser's tests (src/parser/mod.rs).
 *
 * Each test takes its input text as a parameter fixed by the
 * precondition, so that the verifier reasons about the lexer's contracts
 * instead of evaluating the lexer on a literal. Each token is read by a
 * lemma of its own, and the kinds are strung together from the last token
 * back.
 */
module LexerTests {
  import opened Wrappers
  import opened Tokens
  import opened Lexer
  import opened LexerProps

  // ---------------------------------------------------------------- test_basic_tokens

  lemma BasicLet(s: string, c: Cursor)
    requires s == "let x is 42" && c.pos == 0
    ensures NextToken(s, c).0.kind == Let && NextToken(s, c).1.pos == 3
  {
    assert !IsWhitespace(s[0]);
    WordAfterBlanks(s, c);
    ReadLet(s, SkipWhitespace(s, c));
  }

  lemma ReadLet(s: string, w: Cursor)
    requires s == "let x is 42" && w.pos == 0
    ensures ReadIdentifier(s, w).0.kind == Let && ReadIdentifier(s, w).1.pos == 3
  {
    BasicLetSpan(s, w);
    KeywordWord(s, w, 3, Let);
  }

  lemma BasicLetSpan(s: string, w: Cursor)
    requires s == "let x is 42" && w.pos == 0
    ensures WordSpan(s, w.pos, 3) && s[w.pos .. w.pos + 3] == KeywordSpelling(Let)
  {
  }

  lemma BasicX(s: string, c: Cursor)
    requires s == "let x is 42" && c.pos == 3
    ensures NextToken(s, c).0.kind == Identifier("x") && NextToken(s, c).1.pos == 5
  {
    assert IsWhitespace(s[3]) && !IsWhitespace(s[4]);
    assert SkipWhitespace(s, c).pos == 4;
    WordAfterBlanks(s, c);
    ReadX(s, SkipWhitespace(s, c));
  }

  lemma ReadX(s: string, w: Cursor)
    requires s == "let x is 42" && w.pos == 4
    ensures ReadIdentifier(s, w).0.kind == Identifier("x") && ReadIdentifier(s, w).1.pos == 5
  {
    BasicXSpan(s, w);
    NotAKeyword("x");
    NameWord(s, w, 1, "x");
  }

  lemma BasicXSpan(s: string, w: Cursor)
    requires s == "let x is 42" && w.pos == 4
    ensures WordSpan(s, w.pos, 1) && s[w.pos .. w.pos + 1] == "x"
  {
  }

  /** `x` is no keyword: no keyword starts with an `x`. */
  lemma NotAKeyword(word: string)
    requires word == "x"
    ensures KeywordOrIdentifier(word) == Identifier(word)
  {
    forall i | 0 <= i < |KeywordTable| ensures KeywordTable[i].0 != word {
      assert KeywordTable[i].0[0] != word[0];
    }
    LookupMiss(word, KeywordTable);
  }

  lemma BasicIs(s: string, c: Cursor)
    requires s == "let x is 42" && c.pos == 5
    ensures NextToken(s, c).0.kind == Is && NextToken(s, c).1.pos == 8
  {
    assert IsWhitespace(s[5]) && !IsWhitespace(s[6]);
    assert SkipWhitespace(s, c).pos == 6;
    WordAfterBlanks(s, c);
    ReadIs(s, SkipWhitespace(s, c));
  }

  lemma ReadIs(s: string, w: Cursor)
    requires s == "let x is 42" && w.pos == 6
    ensures ReadIdentifier(s, w).0.kind == Is && ReadIdentifier(s, w).1.pos == 8
  {
    BasicIsSpan(s, w);
    KeywordWord(s, w, 2, Is);
  }

  lemma BasicIsSpan(s: string, w: Cursor)
    requires s == "let x is 42" && w.pos == 6
    ensures WordSpan(s, w.pos, 2) && s[w.pos .. w.pos + 2] == KeywordSpelling(Is)
  {
  }

  lemma Basic42(s: string, c: Cursor)
    requires s == "let x is 42" && c.pos == 8
    ensures NextToken(s, c).0.kind == Integer(42) && NextToken(s, c).1.pos == 11
  {
    assert IsWhitespace(s[8]) && !IsWhitespace(s[9]);
    assert SkipWhitespace(s, c).pos == 9;
    NextTokenAt(s, c);
    TokenAtNumber(s, SkipWhitespace(s, c));
    Read42(s, SkipWhitespace(s, c));
  }

  lemma Read42(s: string, w: Cursor)
    requires s == "let x is 42" && w.pos == 9
    ensures ReadNumber(s, w).0.kind == Integer(42) && ReadNumber(s, w).1.pos == 11
  {
    assert ReadNumber(s, w).1.pos == 11;
    assert s[9 .. 11] == "42";
    FortyTwo();
  }

  lemma FortyTwo()
    ensures DecimalValue("42") == 42
  {
    assert "42"[..1] == "4";
  }

  lemma BasicEnd(s: string, c: Cursor)
    requires s == "let x is 42" && c.pos == 11
    ensures Kinds(TokenizeFrom(s, c)) == [EOF]
  {
    KindsStep(s, c);
  }

  lemma BasicFrom8(s: string, c: Cursor)
    requires s == "let x is 42" && c.pos == 8
    ensures Kinds(TokenizeFrom(s, c)) == [Integer(42), EOF]
  {
    assert [Integer(42)] + [EOF] == [Integer(42), EOF];
    Basic42(s, c);
    KindsStep(s, c);
    BasicEnd(s, NextToken(s, c).1);
  }

  lemma BasicFrom5(s: string, c: Cursor)
    requires s == "let x is 42" && c.pos == 5
    ensures Kinds(TokenizeFrom(s, c)) == [Is, Integer(42), EOF]
  {
    assert [Is] + [Integer(42), EOF] == [Is, Integer(42), EOF];
    BasicIs(s, c);
    KindsStep(s, c);
    BasicFrom8(s, NextToken(s, c).1);
  }

  lemma BasicFrom3(s: string, c: Cursor)
    requires s == "let x is 42" && c.pos == 3
    ensures Kinds(TokenizeFrom(s, c)) == [Identifier("x"), Is, Integer(42), EOF]
  {
    assert [Identifier("x")] + [Is, Integer(42), EOF] == [Identifier("x"), Is, Integer(42), EOF];
    BasicX(s, c);
    KindsStep(s, c);
    BasicFrom5(s, NextToken(s, c).1);
  }

  lemma BasicFrom0(s: string, c: Cursor)
    requires s == "let x is 42" && c.pos == 0
    ensures Kinds(TokenizeFrom(s, c)) == [Let, Identifier("x"), Is, Integer(42), EOF]
  {
    assert [Let] + [Identifier("x"), Is, Integer(42), EOF] == [Let, Identifier("x"), Is, Integer(42), EOF];
    BasicLet(s, c);
    KindsStep(s, c);
    BasicFrom3(s, NextToken(s, c).1);
  }

  /** test_basic_tokens: `let x is 42` lexes to Let, Identifier, Is, Integer(42), EOF. */
  lemma BasicTokens(s: string)
    requires s == "let x is 42"
    ensures Kinds(Tokenize(s)) == [Let, Identifier("x"), Is, Integer(42), EOF]
  {
    BasicFrom0(s, Start);
  }

  /** test_command_execution: `$(ls -la)` lexes to Command("ls -la") and EOF. */
  lemma CommandExecution(s: string, t: string)
    requires t == "ls -la" && s == "$(" + t + ")"
    ensures Kinds(Tokenize(s)) == [Command(t), EOF]
  {
    NoParensBalanced(t);
    CommandLiteral(t);
  }

  /** test_string_literal: a double-quoted literal lexes to a single String token and EOF. */
  lemma StringLiteral(s: string, t: string)
    requires t == "Hello, world!" && s == "\"" + t + "\""
    ensures Kinds(Tokenize(s)) == [String(t), EOF]
  {
    HelloNeedsNoEscape(t);
    QuotedLiteral(t);
  }

  lemma HelloNeedsNoEscape(t: string)
    requires t == "Hello, world!"
    ensures forall i | 0 <= i < |t| :: !NeedsEscape(t[i])
  {
  }

  // ---------------------------------------------------------------- the text of test_parse_simple_let

  /** Two names the tests use that are no keywords. */
  lemma PlainName(word: string)
    requires word == "name" || word == "print"
    ensures KeywordOrIdentifier(word) == TokenKind.Identifier(word)
  {
    forall i | 0 <= i < |KeywordTable| ensures KeywordTable[i].0 != word {
      assert |KeywordTable[i].0| != |word| || KeywordTable[i].0[0] != word[0];
    }
    LookupMiss(word, KeywordTable);
  }

  lemma WorldName(s: string, c: Cursor)
    requires s == "name is \"World\"" && c.pos == 0
    ensures NextToken(s, c).0.kind == TokenKind.Identifier("name") && NextToken(s, c).1.pos == 4
  {
    assert !IsWhitespace(s[0]);
    WordAfterBlanks(s, c);
    ReadName(s, SkipWhitespace(s, c));
  }

  lemma ReadName(s: string, w: Cursor)
    requires s == "name is \"World\"" && w.pos == 0
    ensures ReadIdentifier(s, w).0.kind == TokenKind.Identifier("name") && ReadIdentifier(s, w).1.pos == 4
  {
    NameSpan(s, w);
    PlainName("name");
    NameWord(s, w, 4, "name");
  }

  lemma NameSpan(s: string, w: Cursor)
    requires s == "name is \"World\"" && w.pos == 0
    ensures WordSpan(s, w.pos, 4) && s[w.pos .. w.pos + 4] == "name"
  {
  }

  lemma WorldIs(s: string, c: Cursor)
    requires s == "name is \"World\"" && c.pos == 4
    ensures NextToken(s, c).0.kind == Is && NextToken(s, c).1.pos == 7
  {
    assert IsWhitespace(s[4]) && !IsWhitespace(s[5]);
    assert SkipWhitespace(s, c).pos == 5;
    WordAfterBlanks(s, c);
    ReadIsWord(s, SkipWhitespace(s, c));
  }

  lemma ReadIsWord(s: string, w: Cursor)
    requires s == "name is \"World\"" && w.pos == 5
    ensures ReadIdentifier(s, w).0.kind == Is && ReadIdentifier(s, w).1.pos == 7
  {
    WorldIsSpan(s, w);
    KeywordWord(s, w, 2, Is);
  }

  lemma WorldIsSpan(s: string, w: Cursor)
    requires s == "name is \"World\"" && w.pos == 5
    ensures WordSpan(s, w.pos, 2) && s[w.pos .. w.pos + 2] == KeywordSpelling(Is)
  {
  }

  lemma WorldString(s: string, c: Cursor)
    requires s == "name is \"World\"" && c.pos == 7
    ensures NextToken(s, c).0.kind == TokenKind.String("World") && NextToken(s, c).1.pos == 15
  {
    assert IsWhitespace(s[7]) && !IsWhitespace(s[8]);
    assert SkipWhitespace(s, c).pos == 8;
    NextTokenAt(s, c);
    ReadWorld(s, SkipWhitespace(s, c));
  }

  lemma ReadWorld(s: string, w: Cursor)
    requires s == "name is \"World\"" && w.pos == 8
    ensures TokenAt(s, w).0.kind == TokenKind.String("World") && TokenAt(s, w).1.pos == 15
  {
    TokenAtString(s, w);
    var text := "World";
    assert forall i | 0 <= i < |text| :: !NeedsEscape(text[i]);
    NoEscapesNeeded(text);
    WorldQuoted(s, w, "World");
    StringInPlace(s, w, "World");
  }

  lemma WorldQuoted(s: string, w: Cursor, t: string)
    requires s == "name is \"World\"" && w.pos == 8 && t == "World" && Escape(t) == t
    ensures w.pos + |Escape(t)| + 1 < |s| && s[w.pos] == '"'
    ensures s[w.pos + 1 .. w.pos + 1 + |Escape(t)|] == Escape(t) && s[w.pos + 1 + |Escape(t)|] == '"'
  {
  }

  lemma WorldEnd(s: string, c: Cursor)
    requires s == "name is \"World\"" && c.pos == 15
    ensures Kinds(TokenizeFrom(s, c)) == [EOF]
  {
    KindsStep(s, c);
  }

  lemma WorldFrom7(s: string, c: Cursor)
    requires s == "name is \"World\"" && c.pos == 7
    ensures Kinds(TokenizeFrom(s, c)) == [TokenKind.String("World"), EOF]
  {
    assert [TokenKind.String("World")] + [EOF] == [TokenKind.String("World"), EOF];
    WorldString(s, c);
    KindsStep(s, c);
    WorldEnd(s, NextToken(s, c).1);
  }

  lemma WorldFrom4(s: string, c: Cursor)
    requires s == "name is \"World\"" && c.pos == 4
    ensures Kinds(TokenizeFrom(s, c)) == [Is, TokenKind.String("World"), EOF]
  {
    assert [Is] + [TokenKind.String("World"), EOF] == [Is, TokenKind.String("World"), EOF];
    WorldIs(s, c);
    KindsStep(s, c);
    WorldFrom7(s, NextToken(s, c).1);
  }

  lemma WorldFrom0(s: string, c: Cursor)
    requires s == "name is \"World\"" && c.pos == 0
    ensures Kinds(TokenizeFrom(s, c)) == [TokenKind.Identifier("name"), Is, TokenKind.String("World"), EOF]
  {
    assert [TokenKind.Identifier("name")] + [Is, TokenKind.String("World"), EOF] == [TokenKind.Identifier("name"), Is, TokenKind.String("World"), EOF];
    WorldName(s, c);
    KindsStep(s, c);
    WorldFrom4(s, NextToken(s, c).1);
  }

  /** `name is "World"` lexes to a name, `is`, a string and EOF. */
  lemma WorldTokens(s: string)
    requires s == "name is \"World\""
    ensures Kinds(Tokenize(s)) == [TokenKind.Identifier("name"), Is, TokenKind.String("World"), EOF]
  {
    WorldFrom0(s, Start);
  }

  // ---------------------------------------------------------------- the text of test_parse_function_call

  lemma HelloName(s: string, c: Cursor)
    requires s == "print(\"Hello\")" && c.pos == 0
    ensures NextToken(s, c).0.kind == TokenKind.Identifier("print") && NextToken(s, c).1.pos == 5
  {
    assert !IsWhitespace(s[0]);
    WordAfterBlanks(s, c);
    ReadPrint(s, SkipWhitespace(s, c));
  }

  lemma ReadPrint(s: string, w: Cursor)
    requires s == "print(\"Hello\")" && w.pos == 0
    ensures ReadIdentifier(s, w).0.kind == TokenKind.Identifier("print") && ReadIdentifier(s, w).1.pos == 5
  {
    PrintSpan(s, w);
    PlainName("print");
    NameWord(s, w, 5, "print");
  }

  lemma PrintSpan(s: string, w: Cursor)
    requires s == "print(\"Hello\")" && w.pos == 0
    ensures WordSpan(s, w.pos, 5) && s[w.pos .. w.pos + 5] == "print"
  {
  }

  lemma HelloOpen(s: string, c: Cursor)
    requires s == "print(\"Hello\")" && c.pos == 5
    ensures NextToken(s, c).0.kind == LeftParen && NextToken(s, c).1.pos == 6
  {
    assert !IsWhitespace(s[5]);
    assert SkipWhitespace(s, c) == c;
    NextTokenAt(s, c);
    ParenToken(s, c);
  }

  lemma HelloString(s: string, c: Cursor)
    requires s == "print(\"Hello\")" && c.pos == 6
    ensures NextToken(s, c).0.kind == TokenKind.String("Hello") && NextToken(s, c).1.pos == 13
  {
    assert !IsWhitespace(s[6]);
    assert SkipWhitespace(s, c) == c;
    NextTokenAt(s, c);
    ReadHello(s, c);
  }

  lemma ReadHello(s: string, w: Cursor)
    requires s == "print(\"Hello\")" && w.pos == 6
    ensures TokenAt(s, w).0.kind == TokenKind.String("Hello") && TokenAt(s, w).1.pos == 13
  {
    TokenAtString(s, w);
    var text := "Hello";
    assert forall i | 0 <= i < |text| :: !NeedsEscape(text[i]);
    NoEscapesNeeded(text);
    HelloQuoted(s, w, "Hello");
    StringInPlace(s, w, "Hello");
  }

  lemma HelloQuoted(s: string, w: Cursor, t: string)
    requires s == "print(\"Hello\")" && w.pos == 6 && t == "Hello" && Escape(t) == t
    ensures w.pos + |Escape(t)| + 1 < |s| && s[w.pos] == '"'
    ensures s[w.pos + 1 .. w.pos + 1 + |Escape(t)|] == Escape(t) && s[w.pos + 1 + |Escape(t)|] == '"'
  {
  }

  lemma HelloClose(s: string, c: Cursor)
    requires s == "print(\"Hello\")" && c.pos == 13
    ensures NextToken(s, c).0.kind == RightParen && NextToken(s, c).1.pos == 14
  {
    assert !IsWhitespace(s[13]);
    assert SkipWhitespace(s, c) == c;
    NextTokenAt(s, c);
    ParenToken(s, c);
  }

  lemma HelloEnd(s: string, c: Cursor)
    requires s == "print(\"Hello\")" && c.pos == 14
    ensures Kinds(TokenizeFrom(s, c)) == [EOF]
  {
    KindsStep(s, c);
  }

  lemma HelloFrom13(s: string, c: Cursor)
    requires s == "print(\"Hello\")" && c.pos == 13
    ensures Kinds(TokenizeFrom(s, c)) == [RightParen, EOF]
  {
    assert [RightParen] + [EOF] == [RightParen, EOF];
    HelloClose(s, c);
    KindsStep(s, c);
    HelloEnd(s, NextToken(s, c).1);
  }

  lemma HelloFrom6(s: string, c: Cursor)
    requires s == "print(\"Hello\")" && c.pos == 6
    ensures Kinds(TokenizeFrom(s, c)) == [TokenKind.String("Hello"), RightParen, EOF]
  {
    assert [TokenKind.String("Hello")] + [RightParen, EOF] == [TokenKind.String("Hello"), RightParen, EOF];
    HelloString(s, c);
    KindsStep(s, c);
    HelloFrom13(s, NextToken(s, c).1);
  }

  lemma HelloFrom5(s: string, c: Cursor)
    requires s == "print(\"Hello\")" && c.pos == 5
    ensures Kinds(TokenizeFrom(s, c)) == [LeftParen, TokenKind.String("Hello"), RightParen, EOF]
  {
    assert [LeftParen] + [TokenKind.String("Hello"), RightParen, EOF] == [LeftParen, TokenKind.String("Hello"), RightParen, EOF];
    HelloOpen(s, c);
    KindsStep(s, c);
    HelloFrom6(s, NextToken(s, c).1);
  }

  lemma HelloFrom0(s: string, c: Cursor)
    requires s == "print(\"Hello\")" && c.pos == 0
    ensures Kinds(TokenizeFrom(s, c)) == [TokenKind.Identifier("print"), LeftParen, TokenKind.String("Hello"), RightParen, EOF]
  {
    assert [TokenKind.Identifier("print")] + [LeftParen, TokenKind.String("Hello"), RightParen, EOF] == [TokenKind.Identifier("print"), LeftParen, TokenKind.String("Hello"), RightParen, EOF];
    HelloName(s, c);
    KindsStep(s, c);
    HelloFrom5(s, NextToken(s, c).1);
  }

  /** `print("Hello")` lexes to a name, the parentheses around a string, and EOF. */
  lemma HelloTokens(s: string)
    requires s == "print(\"Hello\")"
    ensures Kinds(Tokenize(s)) == [TokenKind.Identifier("print"), LeftParen, TokenKind.String("Hello"), RightParen, EOF]
  {
    HelloFrom0(s, Start);
  }
}

=== FILE: operators.dfy ===
/**
 * Binary and unary operators on runtime values
 * (Interpreter::apply_binary_operator and apply_unary_operator in
 * src/interpreter/mod.rs).
 *
 * Integers are Rust `i64`. A remainder by zero, `i64::MIN / -1` and
 * `i64::MIN % -1` panic in every build; any other result outside the range
 * panics in a debug build and wraps in a release build. The model reports
 * all of them as the `Unspecified` failure.
 * Division truncates toward zero, as Rust's `/` and `%` do, which is not
 * Dafny's Euclidean division, so both are written out.
 *
 * Floating-point arithmetic is not modelled: `FloatOps` supplies it.
 */
module Operators {
  import opened Wrappers
  import Tokens
  import opened Ast
  import opened Values

  function Abs(n: int): nat {
    if n < 0 then -n else n
  }

  /** Rust's `/` on integers: the quotient rounded toward zero. */
  function TruncDiv(a: int, b: int): int
    requires b != 0
  {
    var q := Abs(a) / Abs(b);
    if (a < 0) == (b < 0) then q else -q
  }

  /** Rust's `%` on integers: the remainder of `TruncDiv`. */
  function TruncMod(a: int, b: int): int
    requires b != 0
  {
    a - b * TruncDiv(a, b)
  }

  /**
   * Truncating division: the quotient's magnitude is the quotient of the
   * magnitudes, its sign the product of the signs, and the remainder is
   * smaller than the divisor and carries the dividend's sign.
   */
  lemma TruncDivision(a: int, b: int)
    requires b != 0
    ensures Abs(TruncDiv(a, b)) == Abs(a) / Abs(b)
    ensures TruncDiv(a, b) != 0 ==> (TruncDiv(a, b) > 0 <==> (a < 0) == (b < 0))
    ensures a >= 0 ==> 0 <= TruncMod(a, b) < Abs(b)
    ensures a < 0 ==> -(Abs(b) as int) < TruncMod(a, b) <= 0
  {
    TruncModSigned(a, b);
    var bb: int := Abs(b);
    assert 0 <= Abs(a) % bb < bb;
  }

  /** The truncated remainder is the remainder of the magnitudes, signed like the dividend. */
  lemma TruncModSigned(a: int, b: int)
    requires b != 0
    ensures TruncMod(a, b) == if a >= 0 then Abs(a) % Abs(b) else -(Abs(a) % Abs(b))
  {
    var aa: int, bb: int := Abs(a), Abs(b);
    var q0 := aa / bb;
    var r0 := aa % bb;
    var bq := bb * q0;
    assert aa == bq + r0;
    if b > 0 {
      if a >= 0 {
        assert b * TruncDiv(a, b) == bq;
      } else {
        assert b * TruncDiv(a, b) == b * (-q0) == -bq;
      }
    } else {
      if a >= 0 {
        assert b * TruncDiv(a, b) == (-bb) * (-q0) == bq;
      } else {
        assert b * TruncDiv(a, b) == (-bb) * q0 == -bq;
      }
    }
  }

  /** An integer result: kept when it fits in an `i64`. */
  function CheckedInt(n: int): (r: Result<Value, Failure>)
    ensures r.Ok? <==> Tokens.InI64(n)
    ensures r.Ok? ==> r.value == Value.Integer(n)
    ensures r.Err? ==> r.error == Unspecified
  {
    if Tokens.InI64(n) then Ok(Value.Integer(n)) else Err(Unspecified)
  }

  /** The comparison operators, whose result is always a boolean. */
  predicate IsComparison(op: BinaryOperator) {
    op.Equal? || op.NotEqual? || op.Less? || op.LessEqual? || op.Greater? || op.GreaterEqual?
  }

  /**
   * The integer-by-integer arm of apply_binary_operator: an operator the
   * table rejects is "Unsupported operation for integers"; an accepted one
   * fails only on division by zero or outside the i64 range.
   */
  function IntOp(op: BinaryOperator, l: int, r: int): (res: Result<Value, Failure>)
    ensures res == Err(UnsupportedIntOp(op)) <==> !Accepts(op, Value.Integer(l), Value.Integer(r))
    ensures res.Err? ==> res.error in {UnsupportedIntOp(op), DivisionByZero, Unspecified}
    ensures res == Err(DivisionByZero) <==> op.Divide? && r == 0
    ensures res.Ok? ==> (res.value.Boolean? <==> IsComparison(op))
    ensures res.Ok? && res.value.Integer? ==> Tokens.InI64(res.value.intValue)
  {
    match op
    case Add => CheckedInt(l + r)
    case Subtract => CheckedInt(l - r)
    case Multiply => CheckedInt(l * r)
    case Divide => if r == 0 then Err(DivisionByZero) else CheckedInt(TruncDiv(l, r))
    case Modulo =>
      if r == 0 || (l == Tokens.I64_MIN && r == -1) then Err(Unspecified) else CheckedInt(TruncMod(l, r))
    case Equal => Ok(Value.Boolean(l == r))
    case NotEqual => Ok(Value.Boolean(l != r))
    case Less => Ok(Value.Boolean(l < r))
    case LessEqual => Ok(Value.Boolean(l <= r))
    case Greater => Ok(Value.Boolean(l > r))
    case GreaterEqual => Ok(Value.Boolean(l >= r))
    case _ => Err(UnsupportedIntOp(op))
  }

  /**
   * The floating-point operations the model does not compute: arithmetic,
   * the four orderings, closeness within machine epsilon (the float
   * equality), the conversion from an integer and negation.
   */
  datatype FloatOps = FloatOps(
    arith: (BinaryOperator, Tokens.FloatLit, Tokens.FloatLit) -> Tokens.FloatLit,
    order: (BinaryOperator, Tokens.FloatLit, Tokens.FloatLit) -> bool,
    close: (Tokens.FloatLit, Tokens.FloatLit) -> bool,
    ofInt: int -> Tokens.FloatLit,
    negate: Tokens.FloatLit -> Tokens.FloatLit)

  /**
   * The float-by-float arm: there is no float remainder. An operator the
   * table rejects is "Unsupported operation for floats"; an accepted one
   * fails only on division by a zero float; `==` is closeness.
   */
  function FloatOp(fo: FloatOps, op: BinaryOperator, l: Tokens.FloatLit, r: Tokens.FloatLit): (res: Result<Value, Failure>)
    ensures res == Err(UnsupportedFloatOp(op)) <==> !Accepts(op, Value.Float(l), Value.Float(r))
    ensures res.Err? ==> res.error == UnsupportedFloatOp(op) || res.error == DivisionByZero
    ensures res == Err(DivisionByZero) <==> op.Divide? && Tokens.IsZeroFloat(r)
    ensures res.Ok? ==> (res.value.Boolean? <==> IsComparison(op)) && (res.value.Float? <==> !IsComparison(op))
    ensures op.Equal? ==> res == Ok(Value.Boolean(fo.close(l, r)))
    ensures op.NotEqual? ==> res == Ok(Value.Boolean(!fo.close(l, r)))
  {
    match op
    case Add => Ok(Value.Float(fo.arith(op, l, r)))
    case Subtract => Ok(Value.Float(fo.arith(op, l, r)))
    case Multiply => Ok(Value.Float(fo.arith(op, l, r)))
    case Divide => if Tokens.IsZeroFloat(r) then Err(DivisionByZero) else Ok(Value.Float(fo.arith(op, l, r)))
    case Equal => Ok(Value.Boolean(fo.close(l, r)))
    case NotEqual => Ok(Value.Boolean(!fo.close(l, r)))
    case Less => Ok(Value.Boolean(fo.order(op, l, r)))
    case LessEqual => Ok(Value.Boolean(fo.order(op, l, r)))
    case Greater => Ok(Value.Boolean(fo.order(op, l, r)))
    case GreaterEqual => Ok(Value.Boolean(fo.order(op, l, r)))
    case _ => Err(UnsupportedFloatOp(op))
  }

  /** The string-by-string arm: concatenation and equality only. */
  function StringOp(op: BinaryOperator, l: string, r: string): (res: Result<Value, Failure>)
    ensures res.Ok? <==> Accepts(op, Value.String(l), Value.String(r))
    ensures res.Err? ==> res.error == UnsupportedStringOp(op)
    ensures op.Add? ==> res.Ok? && res.value.String? && |res.value.strValue| == |l| + |r|
                        && res.value.strValue[..|l|] == l && res.value.strValue[|l|..] == r
    ensures op.Equal? ==> res == Ok(Value.Boolean(l == r))
    ensures op.NotEqual? ==> res == Ok(Value.Boolean(l != r))
  {
    match op
    case Add => Ok(Value.String(l + r))
    case Equal => Ok(Value.Boolean(l == r))
    case NotEqual => Ok(Value.Boolean(l != r))
    case _ => Err(UnsupportedStringOp(op))
  }

  /** The boolean-by-boolean arm: `&&`, `||` and equality only (both sides already evaluated). */
  function BoolOp(op: BinaryOperator, l: bool, r: bool): (res: Result<Value, Failure>)
    ensures res.Ok? <==> Accepts(op, Value.Boolean(l), Value.Boolean(r))
    ensures res.Err? ==> res.error == UnsupportedBoolOp(op)
    ensures res.Ok? ==> res.value.Boolean?
    ensures op.And? ==> (res.value.boolValue <==> l && r)
    ensures op.Or? ==> (res.value.boolValue <==> l || r)
  {
    match op
    case And => Ok(Value.Boolean(l && r))
    case Or => Ok(Value.Boolean(l || r))
    case Equal => Ok(Value.Boolean(l == r))
    case NotEqual => Ok(Value.Boolean(l != r))
    case _ => Err(UnsupportedBoolOp(op))
  }

  /** The operand pairs apply_binary_operator has a dedicated arm for. */
  predicate HasArm(l: Value, r: Value) {
    || (l.Integer? && r.Integer?) || (l.Float? && r.Float?) || (l.String? && r.String?)
    || (l.Boolean? && r.Boolean?) || (l.Integer? && r.Float?) || (l.Float? && r.Integer?)
  }

  /**
   * Interpreter::apply_binary_operator. Any pair without a dedicated arm
   * (including two nils, two arrays, two maps and two functions) is unequal
   * under `==` and `!=` and an error under every other operator.
   */
  function ApplyBinary(fo: FloatOps, op: BinaryOperator, l: Value, r: Value): (res: Result<Value, Failure>)
    ensures res.Ok? && IsComparison(op) ==> res.value.Boolean?
    ensures res.Ok? && res.value.Integer? ==> Tokens.InI64(res.value.intValue)
    ensures !HasArm(l, r) ==>
              res == (if op.Equal? then Ok(Value.Boolean(false))
                      else if op.NotEqual? then Ok(Value.Boolean(true))
                      else Err(UnsupportedOperation(TypeName(l), op, TypeName(r))))
  {
    match (l, r)
    case (Integer(a), Integer(b)) => IntOp(op, a, b)
    case (Float(a), Float(b)) => FloatOp(fo, op, a, b)
    case (String(a), String(b)) => StringOp(op, a, b)
    case (Integer(a), Float(b)) => FloatOp(fo, op, fo.ofInt(a), b)
    case (Float(a), Integer(b)) => FloatOp(fo, op, a, fo.ofInt(b))
    case (Boolean(a), Boolean(b)) => BoolOp(op, a, b)
    case (_, _) =>
      if op.Equal? then Ok(Value.Boolean(false))
      else if op.NotEqual? then Ok(Value.Boolean(true))
      else Err(UnsupportedOperation(TypeName(l), op, TypeName(r)))
  }

  /** Interpreter::apply_unary_operator: `!` works on every value, `-` on numbers only. */
  function ApplyUnary(fo: FloatOps, op: UnaryOperator, v: Value): (res: Result<Value, Failure>)
    ensures res.Ok? <==> op.Not? || (op.Minus? && (v.Float? || (v.Integer? && Tokens.InI64(-v.intValue))))
    ensures op.Not? ==> res == Ok(Value.Boolean(!IsTruthy(v)))
    ensures res.Err? && !v.Integer? ==> res.error == UnsupportedUnary(op, TypeName(v))
  {
    match op
    case Not => Ok(Value.Boolean(!IsTruthy(v)))
    case Minus =>
      (match v
       case Integer(i) => CheckedInt(-i)
       case Float(f) => Ok(Value.Float(fo.negate(f)))
       case _ => Err(UnsupportedUnary(op, TypeName(v))))
    case BitwiseNot => Err(UnsupportedUnary(op, TypeName(v)))
  }

  // ---------------------------------------------------------------- properties

  /**
   * The operator table: which operators each pair of operand types accepts.
   * An independent statement of the arms of apply_binary_operator.
   */
  predicate Accepts(op: BinaryOperator, l: Value, r: Value) {
    if l.Integer? && r.Integer? then
      op in {Add, Subtract, Multiply, Divide, Modulo, Equal, NotEqual, Less, LessEqual, Greater, GreaterEqual}
    else if (l.Integer? || l.Float?) && (r.Integer? || r.Float?) then
      op in {Add, Subtract, Multiply, Divide, Equal, NotEqual, Less, LessEqual, Greater, GreaterEqual}
    else if l.String? && r.String? then op in {Add, Equal, NotEqual}
    else if l.Boolean? && r.Boolean? then op in {And, Or, Equal, NotEqual}
    else op in {Equal, NotEqual}
  }

  /**
   * The only failures of an accepted operator are runtime ones: division
   * by zero, and i64 overflow or a remainder by zero.
   */
  lemma AcceptedFailsAtRuntime(fo: FloatOps, op: BinaryOperator, l: Value, r: Value)
    requires Accepts(op, l, r)
    ensures ApplyBinary(fo, op, l, r).Err? ==>
              ApplyBinary(fo, op, l, r).error == DivisionByZero || ApplyBinary(fo, op, l, r).error == Unspecified
  {
  }

  /** An operator outside the table always fails, with the message for the operand types. */
  lemma RejectedFails(fo: FloatOps, op: BinaryOperator, l: Value, r: Value)
    requires !Accepts(op, l, r)
    ensures ApplyBinary(fo, op, l, r).Err?
    ensures ApplyBinary(fo, op, l, r).error != DivisionByZero && ApplyBinary(fo, op, l, r).error != Unspecified
  {
  }

  /** `==` and `!=` never fail, whatever the operand types. */
  lemma EqualityNeverFails(fo: FloatOps, op: BinaryOperator, l: Value, r: Value)
    requires op.Equal? || op.NotEqual?
    ensures ApplyBinary(fo, op, l, r).Ok?
  {
  }

  /**
   * Division by zero is reported exactly for `/` of a number by an integer
   * 0 or a zero float (given that converting an integer yields zero only for 0).
   */
  lemma DivisionByZeroExactly(fo: FloatOps, op: BinaryOperator, l: Value, r: Value)
    requires forall n :: Tokens.IsZeroFloat(fo.ofInt(n)) <==> n == 0
    ensures ApplyBinary(fo, op, l, r) == Err(DivisionByZero) <==>
              && op.Divide?
              && (l.Integer? || l.Float?)
              && (r == Value.Integer(0) || (r.Float? && Tokens.IsZeroFloat(r.floatValue)))
  {
  }

  /**
   * Integer arithmetic is exact whenever the result fits an i64, and
   * otherwise fails; division and remainder are those of truncating division.
   */
  lemma IntArithmetic(op: BinaryOperator, a: int, b: int)
    ensures op.Add? ==> IntOp(op, a, b) == (if Tokens.InI64(a + b) then Ok(Value.Integer(a + b)) else Err(Unspecified))
    ensures op.Subtract? ==> IntOp(op, a, b) == (if Tokens.InI64(a - b) then Ok(Value.Integer(a - b)) else Err(Unspecified))
    ensures op.Multiply? ==> IntOp(op, a, b) == (if Tokens.InI64(a * b) then Ok(Value.Integer(a * b)) else Err(Unspecified))
    ensures op.Divide? && b != 0 && Tokens.InI64(a) && Tokens.InI64(b) && IntOp(op, a, b).Ok? ==>
              var q := IntOp(op, a, b).value.intValue;
              Abs(q) == Abs(a) / Abs(b) && (q > 0 ==> (a < 0) == (b < 0))
    ensures op.Modulo? && IntOp(op, a, b).Ok? ==>
              var m := IntOp(op, a, b).value.intValue;
              Abs(m) < Abs(b) && (a >= 0 ==> m >= 0) && (a < 0 ==> m <= 0)
  {
    if b != 0 {
      TruncDivision(a, b);
    }
  }

  /** `i64::MIN / -1` and `i64::MIN % -1` are failures; `i64::MAX / -1` is fine. */
  lemma MinByMinusOne()
    ensures IntOp(Divide, Tokens.I64_MIN, -1) == Err(Unspecified)
    ensures IntOp(Modulo, Tokens.I64_MIN, -1) == Err(Unspecified)
    ensures IntOp(Divide, Tokens.I64_MAX, -1) == Ok(Value.Integer(-Tokens.I64_MAX))
    ensures IntOp(Modulo, -7, 2) == Ok(Value.Integer(-1))
    ensures IntOp(Divide, -7, 2) == Ok(Value.Integer(-3))
  {
    assert TruncDiv(Tokens.I64_MIN, -1) == -Tokens.I64_MIN;
    assert TruncDiv(-7, 2) == -3;
  }

  /**
   * `==` agrees with `PartialEq for Value` on numbers, strings and booleans,
   * and `!=` is its negation there.
   */
  lemma EqualityAgreesOnScalars(fo: FloatOps, l: Value, r: Value)
    requires (l.Integer? && r.Integer?) || (l.Float? && r.Float?) || (l.String? && r.String?) || (l.Boolean? && r.Boolean?)
    ensures ApplyBinary(fo, Equal, l, r) == Ok(Value.Boolean(ValueEq(fo.close, l, r)))
    ensures ApplyBinary(fo, NotEqual, l, r) == Ok(Value.Boolean(!ValueEq(fo.close, l, r)))
  {
  }

  /**
   * On every other pair `==` is false, even where `PartialEq` holds: two
   * nils, two equal arrays or two functions of the same name.
   */
  lemma EqualityFalseOnCompound(fo: FloatOps, l: Value, r: Value)
    requires !HasArm(l, r)
    ensures ApplyBinary(fo, Equal, l, r) == Ok(Value.Boolean(false))
    ensures ApplyBinary(fo, NotEqual, l, r) == Ok(Value.Boolean(true))
    ensures ValueEq(fo.close, Value.Nil, Value.Nil) && ValueEq(fo.close, Value.Array([]), Value.Array([]))
  {
  }

  /** Mixed integer/float operands compute as floats, in either order. */
  lemma MixedPromotes(fo: FloatOps, op: BinaryOperator, a: int, f: Tokens.FloatLit)
    ensures ApplyBinary(fo, op, Value.Integer(a), Value.Float(f)) == ApplyBinary(fo, op, Value.Float(fo.ofInt(a)), Value.Float(f))
    ensures ApplyBinary(fo, op, Value.Float(f), Value.Integer(a)) == ApplyBinary(fo, op, Value.Float(f), Value.Float(fo.ofInt(a)))
  {
  }

  /** `!!v` is the truthiness of `v`; `--i` is `i` except at `i64::MIN`, where `-` fails. */
  lemma UnaryInvolutions(fo: FloatOps, v: Value, i: int)
    requires Tokens.InI64(i)
    ensures ApplyUnary(fo, Not, ApplyUnary(fo, Not, v).value) == Ok(Value.Boolean(IsTruthy(v)))
    ensures i != Tokens.I64_MIN ==> ApplyUnary(fo, Minus, ApplyUnary(fo, Minus, Value.Integer(i)).value) == Ok(Value.Integer(i))
    ensures ApplyUnary(fo, Minus, Value.Integer(Tokens.I64_MIN)) == Err(Unspecified)
  {
  }
}

=== FILE: parser.dfy ===
/**
 * The recursive-descent parser (src/parser/mod.rs).
 *
 * The Rust parser mutates a cursor over a token vector. Here each parsing
 * function takes the tokens and a position and returns the parsed value
 * together with the position after it. An error aborts the whole parse, so
 * the position reached on failure is not observable, with one exception:
 * the optional exception type of a `catch` clause, where a failed
 * `expect_identifier` still consumes a token. That case is written out in
 * `CatchClauses`.
 *
 * Token kinds are compared by tag only (`std::mem::discriminant`), as
 * `SameTag` does.
 */
module Parser {
  import opened Wrappers
  import opened Tokens
  import opened Ast

  /** The parser's error messages, one constructor per distinct message. */
  datatype ParseError =
    | UnexpectedEndOfInput
    | ExpectedToken(expected: TokenKind, found: TokenKind)
    | ExpectedIdentifier(found: TokenKind)
    | ExpectedIdentifierAtEnd
    | ExpectedAssignmentOperator
    | InvalidFunctionCall
    | InvalidAssignmentTarget
    | UnexpectedToken(found: TokenKind)
    | ExpectedPattern
    | ExpectedType

  /** A parsed value and the position of the first token after it. */
  datatype Parsed<T> = Parsed(value: T, next: nat)

  // ---------------------------------------------------------------- cursor

  /** Parser::is_at_end: past the tokens, or at an EOF token. */
  predicate AtEnd(ts: seq<Token>, p: nat) {
    p >= |ts| || ts[p].kind == EOF
  }

  /** Parser::check: the current token has the tag of `k`. */
  predicate Check(ts: seq<Token>, p: nat, k: TokenKind) {
    p < |ts| && SameTag(ts[p].kind, k)
  }

  /** Parser::advance, position only: it never moves past EOF or the end. */
  function Step(ts: seq<Token>, p: nat): (q: nat)
    requires p <= |ts|
    ensures AtEnd(ts, p) ==> q == p
    ensures !AtEnd(ts, p) ==> q == p + 1
    ensures q <= |ts|
  {
    if AtEnd(ts, p) then p else p + 1
  }

  /** Parser::expect_token: consume one token, which must carry the tag of `k`. */
  function ExpectToken(ts: seq<Token>, p: nat, k: TokenKind): (r: Result<nat, ParseError>)
    requires p <= |ts|
    ensures r.Ok? <==> !AtEnd(ts, p) && SameTag(ts[p].kind, k)
    ensures r.Ok? ==> r.value == p + 1 && r.value <= |ts|
    ensures AtEnd(ts, p) ==> r == Err(UnexpectedEndOfInput)
    ensures !AtEnd(ts, p) && !SameTag(ts[p].kind, k) ==> r == Err(ExpectedToken(k, ts[p].kind))
  {
    if AtEnd(ts, p) then Err(UnexpectedEndOfInput)
    else if SameTag(ts[p].kind, k) then Ok(p + 1)
    else Err(ExpectedToken(k, ts[p].kind))
  }

  /**
   * Parser::expect_identifier. On failure the token is consumed all the
   * same: the next position is always `Step(ts, p)`.
   */
  function ExpectIdentifier(ts: seq<Token>, p: nat): (r: Result<Parsed<string>, ParseError>)
    requires p <= |ts|
    ensures r.Ok? <==> !AtEnd(ts, p) && ts[p].kind.Identifier?
    ensures r.Ok? ==> r.value == Parsed(ts[p].kind.name, Step(ts, p))
    ensures AtEnd(ts, p) ==> r == Err(ExpectedIdentifierAtEnd)
  {
    if AtEnd(ts, p) then Err(ExpectedIdentifierAtEnd)
    else if ts[p].kind.Identifier? then Ok(Parsed(ts[p].kind.name, p + 1))
    else Err(ExpectedIdentifier(ts[p].kind))
  }

  /** A statement separator: a newline or a comment. */
  predicate IsSeparator(k: TokenKind) {
    k == Newline || k.Comment?
  }

  /** Parser::consume_newline_or_eof: skip separators; it never fails. */
  function SkipSeparators(ts: seq<Token>, p: nat): (q: nat)
    requires p <= |ts|
    ensures p <= q <= |ts|
    ensures forall i | p <= i < q :: IsSeparator(ts[i].kind)
    ensures q == |ts| || !IsSeparator(ts[q].kind)
    decreases |ts| - p
  {
    if p < |ts| && IsSeparator(ts[p].kind) then SkipSeparators(ts, p + 1) else p
  }

  // ---------------------------------------------------------------- operator matchers

  /**
   * The binary operator a token denotes at precedence level `k`:
   * 1 `||`, 2 `&&`, 3 equality, 4 comparison, 5 term, 6 factor
   * (match_token on Or and And, match_equality_operator ... match_factor_operator).
   */
  function LevelOperator(k: nat, kind: TokenKind): Option<BinaryOperator>
  {
    if k == 1 then
      (if kind == TokenKind.Or then Some(BinaryOperator.Or) else None)
    else if k == 2 then
      (if kind == TokenKind.And then Some(BinaryOperator.And) else None)
    else if k == 3 then
      match kind
      case Equal => Some(BinaryOperator.Equal)
      case NotEqual => Some(BinaryOperator.NotEqual)
      case _ => None
    else if k == 4 then
      match kind
      case Less => Some(BinaryOperator.Less)
      case LessEqual => Some(BinaryOperator.LessEqual)
      case Greater => Some(BinaryOperator.Greater)
      case GreaterEqual => Some(BinaryOperator.GreaterEqual)
      case _ => None
    else if k == 5 then
      match kind
      case Plus => Some(Add)
      case Minus => Some(Subtract)
      case _ => None
    else if k == 6 then
      match kind
      case Multiply => Some(BinaryOperator.Multiply)
      case Divide => Some(BinaryOperator.Divide)
      case Modulo => Some(BinaryOperator.Modulo)
      case Power => Some(BinaryOperator.Power)
      case _ => None
    else
      None
  }

  /** Parser::match_unary_operator */
  function UnaryOperatorOf(kind: TokenKind): Option<UnaryOperator>
  {
    match kind
    case Not => Some(UnaryOperator.Not)
    case Minus => Some(UnaryOperator.Minus)
    case BitwiseNot => Some(UnaryOperator.BitwiseNot)
    case _ => None
  }

  // ---------------------------------------------------------------- expressions

  /** Parser::parse_expression */
  function ParseExpression(ts: seq<Token>, p: nat): (r: Result<Parsed<Expr>, ParseError>)
    requires p <= |ts|
    ensures r.Ok? ==> p < r.value.next <= |ts|
    decreases |ts| - p, 11
  {
    ParseBinary(ts, p, 1)
  }

  /**
   * parse_or, parse_and, parse_equality, parse_comparison, parse_term and
   * parse_factor, for levels `k` = 1 to 6: an operand of the next level,
   * then a left-nested chain of level-`k` operators.
   */
  function ParseBinary(ts: seq<Token>, p: nat, k: nat): (r: Result<Parsed<Expr>, ParseError>)
    requires p <= |ts| && 1 <= k <= 6
    ensures r.Ok? ==> p < r.value.next <= |ts|
    decreases |ts| - p, 11 - k
  {
    var left :- if k == 6 then ParseUnary(ts, p) else ParseBinary(ts, p, k + 1);
    BinaryTail(ts, left.value, left.next, k)
  }

  /** The `while let Some(op) = ...` loop of a binary level, with `left` parsed so far. */
  function BinaryTail(ts: seq<Token>, left: Expr, p: nat, k: nat): (r: Result<Parsed<Expr>, ParseError>)
    requires p <= |ts| && 1 <= k <= 6
    ensures r.Ok? ==> p <= r.value.next <= |ts|
    decreases |ts| - p, 0
  {
    if p < |ts| && LevelOperator(k, ts[p].kind).Some? then
      var op := LevelOperator(k, ts[p].kind).value;
      var right :- if k == 6 then ParseUnary(ts, p + 1) else ParseBinary(ts, p + 1, k + 1);
      BinaryTail(ts, Binary(left, op, right.value), right.next, k)
    else
      Ok(Parsed(left, p))
  }

  /** Parser::parse_unary: prefix operators, right-recursive. */
  function ParseUnary(ts: seq<Token>, p: nat): (r: Result<Parsed<Expr>, ParseError>)
    requires p <= |ts|
    ensures r.Ok? ==> p < r.value.next <= |ts|
    decreases |ts| - p, 4
  {
    if p < |ts| && UnaryOperatorOf(ts[p].kind).Some? then
      var operand :- ParseUnary(ts, p + 1);
      Ok(Parsed(Unary(UnaryOperatorOf(ts[p].kind).value, operand.value), operand.next))
    else
      ParsePostfix(ts, p)
  }

  /** Parser::parse_postfix: a primary followed by calls, indexing and field accesses. */
  function ParsePostfix(ts: seq<Token>, p: nat): (r: Result<Parsed<Expr>, ParseError>)
    requires p <= |ts|
    ensures r.Ok? ==> p < r.value.next <= |ts|
    decreases |ts| - p, 3
  {
    var primary :- ParsePrimary(ts, p);
    PostfixTail(ts, primary.value, primary.next)
  }

  /** The loop of parse_postfix, with `e` parsed so far. */
  function PostfixTail(ts: seq<Token>, e: Expr, p: nat): (r: Result<Parsed<Expr>, ParseError>)
    requires p <= |ts|
    ensures r.Ok? ==> p <= r.value.next <= |ts|
    decreases |ts| - p, 2
  {
    if Check(ts, p, LeftParen) then
      var args :- ParseList(ts, p + 1, RightParen);
      if e.Identifier? then PostfixTail(ts, Call(e.name, args.value), args.next)
      else Err(InvalidFunctionCall)
    else if Check(ts, p, LeftBracket) then
      var index :- ParseExpression(ts, p + 1);
      var q :- ExpectToken(ts, index.next, RightBracket);
      PostfixTail(ts, Expr.Index(e, index.value), q)
    else if Check(ts, p, Dot) then
      var field :- ExpectIdentifier(ts, p + 1);
      if Check(ts, field.next, LeftParen) then
        var args :- ParseList(ts, field.next + 1, RightParen);
        PostfixTail(ts, MethodCall(e, field.value, args.value), args.next)
      else
        PostfixTail(ts, Expr.FieldAccess(e, field.value), field.next)
    else
      Ok(Parsed(e, p))
  }

  /**
   * A comma-separated, possibly empty list of expressions followed by
   * `closer` (call and method arguments, array elements).
   */
  function ParseList(ts: seq<Token>, p: nat, closer: TokenKind): (r: Result<Parsed<seq<Expr>>, ParseError>)
    requires p <= |ts|
    ensures r.Ok? ==> p < r.value.next <= |ts|
    decreases |ts| - p, 13
  {
    var items :- if Check(ts, p, closer) then Ok(Parsed([], p)) else ExprItems(ts, p);
    var q :- ExpectToken(ts, items.next, closer);
    Ok(Parsed(items.value, q))
  }

  /** One or more expressions separated by commas. */
  function ExprItems(ts: seq<Token>, p: nat): (r: Result<Parsed<seq<Expr>>, ParseError>)
    requires p <= |ts|
    ensures r.Ok? ==> p < r.value.next <= |ts| && |r.value.value| >= 1
    decreases |ts| - p, 12
  {
    var first :- ParseExpression(ts, p);
    if Check(ts, first.next, Comma) then
      var rest :- ExprItems(ts, first.next + 1);
      Ok(Parsed([first.value] + rest.value, rest.next))
    else
      Ok(Parsed([first.value], first.next))
  }

  /** One or more `key : value` pairs separated by commas. */
  function PairItems(ts: seq<Token>, p: nat): (r: Result<Parsed<seq<(Expr, Expr)>>, ParseError>)
    requires p <= |ts|
    ensures r.Ok? ==> p < r.value.next <= |ts| && |r.value.value| >= 1
    decreases |ts| - p, 12
  {
    var key :- ParseExpression(ts, p);
    var colon :- ExpectToken(ts, key.next, Colon);
    var value :- ParseExpression(ts, colon);
    if Check(ts, value.next, Comma) then
      var rest :- PairItems(ts, value.next + 1);
      Ok(Parsed([(key.value, value.value)] + rest.value, rest.next))
    else
      Ok(Parsed([(key.value, value.value)], value.next))
  }

  /** Parser::parse_primary: one token, or a parenthesised, array or map form. */
  function ParsePrimary(ts: seq<Token>, p: nat): (r: Result<Parsed<Expr>, ParseError>)
    requires p <= |ts|
    ensures r.Ok? ==> p < r.value.next <= |ts|
    ensures AtEnd(ts, p) ==> r == Err(UnexpectedEndOfInput)
    decreases |ts| - p, 1
  {
    if AtEnd(ts, p) then Err(UnexpectedEndOfInput)
    else
      var kind := ts[p].kind;
      match kind
      case Integer(n) => Ok(Parsed(Expr.Integer(n), p + 1))
      case Float(f) => Ok(Parsed(Expr.Float(f), p + 1))
      case String(s) => Ok(Parsed(Expr.String(s), p + 1))
      case Boolean(b) => Ok(Parsed(Expr.Boolean(b), p + 1))
      case True => Ok(Parsed(Expr.Boolean(true), p + 1))
      case False => Ok(Parsed(Expr.Boolean(false), p + 1))
      case Nil => Ok(Parsed(Expr.Nil, p + 1))
      case Identifier(name) => Ok(Parsed(Expr.Identifier(name), p + 1))
      case Command(c) => Ok(Parsed(Expr.Command(c), p + 1))
      case LeftParen =>
        var inner :- ParseExpression(ts, p + 1);
        var q :- ExpectToken(ts, inner.next, RightParen);
        Ok(Parsed(inner.value, q))
      case LeftBracket =>
        var elements :- ParseList(ts, p + 1, RightBracket);
        Ok(Parsed(Expr.Array(elements.value), elements.next))
      case LeftBrace =>
        var pairs :- if Check(ts, p + 1, RightBrace) then Ok(Parsed([], p + 1)) else PairItems(ts, p + 1);
        var q :- ExpectToken(ts, pairs.next, RightBrace);
        Ok(Parsed(Expr.Map(pairs.value), q))
      case other => Err(UnexpectedToken(other))
  }

  // ---------------------------------------------------------------- patterns, targets, types

  /**
   * Parser::parse_pattern. The wildcard test compares tags only, so ANY
   * identifier token is taken as the wildcard `_`.
   */
  function ParsePattern(ts: seq<Token>, p: nat): (r: Result<Parsed<Pattern>, ParseError>)
    requires p <= |ts|
    ensures r.Ok? ==> p < r.value.next <= |ts|
    ensures Check(ts, p, TokenKind.Identifier("_")) ==> r == Ok(Parsed(Wildcard, p + 1))
    ensures !Check(ts, p, TokenKind.Identifier("_")) ==> (r.Err? <==> ParseExpression(ts, p).Err?)
    ensures r.Err? ==> r.error == ExpectedPattern
  {
    if Check(ts, p, TokenKind.Identifier("_")) then Ok(Parsed(Wildcard, p + 1))
    else
      match ParseExpression(ts, p)
      case Ok(Parsed(e, q)) =>
        Ok(Parsed(if e.Identifier? then Pattern.Identifier(e.name) else Literal(e), q))
      case Err(_) => Err(ExpectedPattern)
  }

  /** The expressions that can stand on the left of an assignment. */
  predicate IsTargetExpr(e: Expr) {
    e.Identifier? || e.Index? || e.FieldAccess?
  }

  /** Parser::parse_assignment_target: a postfix expression restricted to three shapes. */
  function ParseAssignmentTarget(ts: seq<Token>, p: nat): (r: Result<Parsed<AssignmentTarget>, ParseError>)
    requires p <= |ts|
    ensures r.Ok? ==> p < r.value.next <= |ts|
    ensures r.Ok? <==> ParsePostfix(ts, p).Ok? && IsTargetExpr(ParsePostfix(ts, p).value.value)
    ensures ParsePostfix(ts, p).Ok? && !IsTargetExpr(ParsePostfix(ts, p).value.value) ==>
              r == Err(InvalidAssignmentTarget)
    ensures r.Ok? ==> r.value.next == ParsePostfix(ts, p).value.next
  {
    var e :- ParsePostfix(ts, p);
    match e.value
    case Identifier(name) => Ok(Parsed(AssignmentTarget.Identifier(name), e.next))
    case Index(o, i) => Ok(Parsed(AssignmentTarget.Index(o, i), e.next))
    case FieldAccess(o, f) => Ok(Parsed(AssignmentTarget.FieldAccess(o, f), e.next))
    case _ => Err(InvalidAssignmentTarget)
  }

  /** Parser::parse_type: a single identifier; unknown names become Custom types. */
  function ParseType(ts: seq<Token>, p: nat): (r: Result<Parsed<Type>, ParseError>)
    requires p <= |ts|
    ensures r.Ok? <==> !AtEnd(ts, p) && ts[p].kind.Identifier?
    ensures r.Ok? ==> r.value.next == p + 1
    ensures r.Err? ==> r.error == ExpectedType
  {
    if AtEnd(ts, p) then Err(ExpectedType)
    else
      match ts[p].kind
      case Identifier(name) =>
        var t :=
          if name == "int" then Type.Int
          else if name == "float" then Type.Float
          else if name == "string" then Type.String
          else if name == "bool" then Type.Bool
          else if name == "any" then Type.Any
          else Type.Custom(name);
        Ok(Parsed(t, p + 1))
      case _ => Err(ExpectedType)
  }

  /** An optional type introduced by `marker` (`:` before a type annotation, `->` before a return type). */
  function OptionalType(ts: seq<Token>, p: nat, marker: TokenKind): (r: Result<Parsed<Option<Type>>, ParseError>)
    requires p <= |ts|
    ensures r.Ok? ==> p <= r.value.next <= |ts|
    ensures !Check(ts, p, marker) ==> r == Ok(Parsed(None, p))
  {
    if Check(ts, p, marker) then
      var t :- ParseType(ts, p + 1);
      Ok(Parsed(Some(t.value), t.next))
    else
      Ok(Parsed(None, p))
  }

  // ---------------------------------------------------------------- speculative lookahead

  /**
   * Parser::is_is_assignment: an identifier followed by `is`. The Rust
   * code moves the cursor and puts it back; here nothing moves.
   */
  predicate IsIsAssignment(ts: seq<Token>, p: nat) {
    p < |ts| && ts[p].kind.Identifier? && p + 1 < |ts| && ts[p + 1].kind == Is
  }

  /** Parser::is_assignment: an assignment target followed by `=`, `+=` or `-=`. */
  predicate IsAssignment(ts: seq<Token>, p: nat)
    requires p <= |ts|
  {
    match ParseAssignmentTarget(ts, p)
    case Ok(t) => t.next < |ts| && ts[t.next].kind in {TokenKind.Assign, PlusAssign, MinusAssign}
    case Err(_) => false
  }

  // ---------------------------------------------------------------- statements

  /** parse_let_statement and parse_const_statement, after the keyword. */
  function ParseLet(ts: seq<Token>, p: nat, isConst: bool): (r: Result<Parsed<Stmt>, ParseError>)
    requires p <= |ts|
    ensures r.Ok? ==> p < r.value.next <= |ts|
    ensures r.Ok? ==> (if isConst then r.value.value.Const? else r.value.value.Let?)
  {
    var name :- ExpectIdentifier(ts, p);
    var annotation :- OptionalType(ts, name.next, Colon);
    var q :- ExpectToken(ts, annotation.next, Is);
    var value :- ParseExpression(ts, q);
    var stmt := if isConst then Stmt.Const(name.value, annotation.value, value.value)
                else Stmt.Let(name.value, annotation.value, value.value);
    Ok(Parsed(stmt, SkipSeparators(ts, value.next)))
  }

  /** Parser::parse_is_assignment_statement: `name is value` declares a variable, untyped. */
  function ParseIsAssignment(ts: seq<Token>, p: nat): (r: Result<Parsed<Stmt>, ParseError>)
    requires p <= |ts|
    ensures r.Ok? ==> p < r.value.next <= |ts|
    ensures r.Ok? ==> r.value.value.Let? && r.value.value.typeAnnotation.None?
  {
    var name :- ExpectIdentifier(ts, p);
    var q :- ExpectToken(ts, name.next, Is);
    var value :- ParseExpression(ts, q);
    Ok(Parsed(Stmt.Let(name.value, None, value.value), SkipSeparators(ts, value.next)))
  }

  /** Parser::parse_assignment_statement */
  function ParseAssignment(ts: seq<Token>, p: nat): (r: Result<Parsed<Stmt>, ParseError>)
    requires p <= |ts|
    ensures r.Ok? ==> p < r.value.next <= |ts|
    ensures r.Ok? ==> r.value.value.Assignment?
  {
    var target :- ParseAssignmentTarget(ts, p);
    var q := target.next;
    var op :- ParseAssignmentOperator(ts, q);
    AssignmentValue(ts, q + 1, target.value, op)
  }

  /** The value of an assignment statement, after its target and operator. */
  function AssignmentValue(ts: seq<Token>, p: nat, target: AssignmentTarget, op: AssignmentOperator)
    : (r: Result<Parsed<Stmt>, ParseError>)
    requires p <= |ts|
    ensures r.Ok? ==> p < r.value.next <= |ts|
  {
    var value :- ParseExpression(ts, p);
    Ok(Parsed(Assignment(target, op, value.value), SkipSeparators(ts, value.next)))
  }

  /** The operator of an assignment statement: `=`, `+=` or `-=`, tested in that order. */
  function ParseAssignmentOperator(ts: seq<Token>, q: nat): (r: Result<AssignmentOperator, ParseError>)
    requires q <= |ts|
    ensures r.Ok? <==> q < |ts| && ts[q].kind in {TokenKind.Assign, PlusAssign, MinusAssign}
    ensures r.Err? ==> r.error == ExpectedAssignmentOperator
  {
    if Check(ts, q, TokenKind.Assign) then Ok(AssignmentOperator.Assign)
    else if Check(ts, q, PlusAssign) then Ok(AddAssign)
    else if Check(ts, q, MinusAssign) then Ok(SubtractAssign)
    else Err(ExpectedAssignmentOperator)
  }

  /** Parameters of a function declaration: `name [: type]`, separated by commas. */
  function ParamItems(ts: seq<Token>, p: nat): (r: Result<Parsed<seq<Parameter>>, ParseError>)
    requires p <= |ts|
    ensures r.Ok? ==> p < r.value.next <= |ts| && |r.value.value| >= 1
    decreases |ts| - p
  {
    var name :- ExpectIdentifier(ts, p);
    var annotation :- OptionalType(ts, name.next, Colon);
    var param := Parameter(name.value, annotation.value);
    if Check(ts, annotation.next, Comma) then
      var rest :- ParamItems(ts, annotation.next + 1);
      Ok(Parsed([param] + rest.value, rest.next))
    else
      Ok(Parsed([param], annotation.next))
  }

  /**
   * The parameter list of parse_function_statement: `(`, the parameters
   * unless `)` follows at once, and `)`.
   */
  function ParameterList(ts: seq<Token>, p: nat): (r: Result<Parsed<seq<Parameter>>, ParseError>)
    requires p <= |ts|
    ensures r.Ok? ==> p < r.value.next <= |ts|
  {
    var open :- ExpectToken(ts, p, LeftParen);
    var params :- if Check(ts, open, RightParen) then Ok(Parsed([], open)) else ParamItems(ts, open);
    var close :- ExpectToken(ts, params.next, RightParen);
    Ok(Parsed(params.value, close))
  }

  /** Parser::parse_return_statement: the value is absent before a newline or at the end. */
  function ParseReturn(ts: seq<Token>, p: nat): (r: Result<Parsed<Stmt>, ParseError>)
    requires p <= |ts|
    ensures r.Ok? ==> p <= r.value.next <= |ts| && r.value.value.Return?
    ensures Check(ts, p, Newline) || AtEnd(ts, p) ==> r.Ok? && r.value.value == Stmt.Return(None)
  {
    if Check(ts, p, Newline) || AtEnd(ts, p) then
      Ok(Parsed(Stmt.Return(None), SkipSeparators(ts, p)))
    else
      var value :- ParseExpression(ts, p);
      Ok(Parsed(Stmt.Return(Some(value.value)), SkipSeparators(ts, value.next)))
  }

  /**
   * Parser::parse_function_statement, after `fn`: a Function statement named
   * by the identifier at `p`, whose body ends at a closing brace; without an
   * identifier at `p` it fails on that token.
   */
  function ParseFunction(ts: seq<Token>, p: nat): (r: Result<Parsed<Stmt>, ParseError>)
    requires p <= |ts|
    ensures r.Ok? ==> p < r.value.next <= |ts|
    decreases |ts| - p, 20
  {
    var name :- ExpectIdentifier(ts, p);
    var params :- ParameterList(ts, name.next);
    var returnType :- OptionalType(ts, params.next, Arrow);
    var body :- BracedBlock(ts, returnType.next);
    Ok(Parsed(Stmt.Function(name.value, params.value, returnType.value, body.value), body.next))
  }

  /**
   * Parser::parse_if_statement, after `if`: an If statement ending at a
   * closing brace; `else` must follow the closing brace directly.
   */
  function ParseIf(ts: seq<Token>, p: nat): (r: Result<Parsed<Stmt>, ParseError>)
    requires p <= |ts|
    ensures r.Ok? ==> p < r.value.next <= |ts|
    decreases |ts| - p, 20
  {
    var condition :- ParseExpression(ts, p);
    var thenBlock :- BracedBlock(ts, condition.next);
    var elseBranch :- ElseClause(ts, thenBlock.next);
    Ok(Parsed(Stmt.If(condition.value, thenBlock.value, elseBranch.value), elseBranch.next))
  }

  /** The optional `else { ... }` of parse_if_statement, tested right after the then-block. */
  function ElseClause(ts: seq<Token>, p: nat): (r: Result<Parsed<ElseBranch>, ParseError>)
    requires p <= |ts|
    ensures r.Ok? ==> p <= r.value.next <= |ts|
    ensures !Check(ts, p, Else) ==> r == Ok(Parsed(NoElse, p))
    decreases |ts| - p, 15
  {
    if Check(ts, p, Else) then
      var elseBlock :- BracedBlock(ts, p + 1);
      Ok(Parsed(ElseBlock(elseBlock.value), elseBlock.next))
    else
      Ok(Parsed(NoElse, p))
  }

  /**
   * Parser::parse_for_statement, after `for`: a For statement over the
   * identifier at `p`, which `in` must follow, ending at a closing brace.
   */
  function ParseFor(ts: seq<Token>, p: nat): (r: Result<Parsed<Stmt>, ParseError>)
    requires p <= |ts|
    ensures r.Ok? ==> p < r.value.next <= |ts|
    decreases |ts| - p, 20
  {
    var variable :- ExpectIdentifier(ts, p);
    var q :- ExpectToken(ts, variable.next, In);
    var iterable :- ParseExpression(ts, q);
    var body :- BracedBlock(ts, iterable.next);
    Ok(Parsed(Stmt.For(variable.value, iterable.value, body.value), body.next))
  }

  /** Parser::parse_while_statement, after `while`: a While statement ending at a closing brace. */
  function ParseWhile(ts: seq<Token>, p: nat): (r: Result<Parsed<Stmt>, ParseError>)
    requires p <= |ts|
    ensures r.Ok? ==> p < r.value.next <= |ts|
    decreases |ts| - p, 20
  {
    var condition :- ParseExpression(ts, p);
    var body :- BracedBlock(ts, condition.next);
    Ok(Parsed(Stmt.While(condition.value, body.value), body.next))
  }

  /**
   * Parser::parse_try_statement, after `try`: a Try statement whose body
   * opens with the brace at `p`; any other token there is the error.
   */
  function ParseTry(ts: seq<Token>, p: nat): (r: Result<Parsed<Stmt>, ParseError>)
    requires p <= |ts|
    ensures r.Ok? ==> p < r.value.next <= |ts|
    decreases |ts| - p, 20
  {
    var body :- BracedBlock(ts, p);
    var clauses :- CatchClauses(ts, body.next);
    Ok(Parsed(Stmt.Try(body.value, clauses.value), clauses.next))
  }

  /**
   * The `while match_keywords(Catch)` loop of parse_try_statement. The
   * exception type is whatever identifier follows `catch`; when the token
   * is not an identifier it is consumed anyway. The `as` test compares
   * tags only, so any identifier introduces the variable.
   */
  function CatchClauses(ts: seq<Token>, p: nat): (r: Result<Parsed<seq<CatchClause>>, ParseError>)
    requires p <= |ts|
    ensures r.Ok? ==> p <= r.value.next <= |ts|
    ensures !Check(ts, p, Catch) ==> r == Ok(Parsed([], p))
    decreases |ts| - p, 20
  {
    if Check(ts, p, Catch) then
      var typed := ExpectIdentifier(ts, p + 1);
      var exceptionType := if typed.Ok? then Some(typed.value.value) else None;
      var q := Step(ts, p + 1);
      var variable :-
        if Check(ts, q, TokenKind.Identifier("as")) then
          var v :- ExpectIdentifier(ts, q + 1);
          Ok(Parsed(Some(v.value), v.next))
        else
          Ok(Parsed(None, q));
      var body :- BracedBlock(ts, variable.next);
      var rest :- CatchClauses(ts, body.next);
      Ok(Parsed([CatchClause(exceptionType, variable.value, body.value)] + rest.value, rest.next))
    else
      Ok(Parsed([], p))
  }

  /** Parser::parse_match_statement, after `match`: a Match statement ending at a closing brace. */
  function ParseMatch(ts: seq<Token>, p: nat): (r: Result<Parsed<Stmt>, ParseError>)
    requires p <= |ts|
    ensures r.Ok? ==> p < r.value.next <= |ts|
    decreases |ts| - p, 20
  {
    var scrutinee :- ParseExpression(ts, p);
    var arms :- BracedArms(ts, scrutinee.next);
    Ok(Parsed(Stmt.Match(scrutinee.value, arms.value), arms.next))
  }

  /** The body of parse_match_statement: `{`, the arms, and the closing `}`. */
  function BracedArms(ts: seq<Token>, p: nat): (r: Result<Parsed<seq<MatchArm>>, ParseError>)
    requires p <= |ts|
    ensures r.Ok? ==> p < r.value.next <= |ts|
    decreases |ts| - p, 15
  {
    var brace :- ExpectToken(ts, p, LeftBrace);
    var arms :- MatchArms(ts, brace);
    var close :- ExpectToken(ts, arms.next, RightBrace);
    Ok(Parsed(arms.value, close))
  }

  /** The arm loop of parse_match_statement: `pattern -> { block }` until `}` or the end. */
  function MatchArms(ts: seq<Token>, p: nat): (r: Result<Parsed<seq<MatchArm>>, ParseError>)
    requires p <= |ts|
    ensures r.Ok? ==> p <= r.value.next <= |ts|
    decreases |ts| - p, 20
  {
    if !Check(ts, p, RightBrace) && !AtEnd(ts, p) then
      var pattern :- ParsePattern(ts, p);
      var arrow :- ExpectToken(ts, pattern.next, Arrow);
      var body :- BracedBlock(ts, arrow);
      var rest :- MatchArms(ts, body.next);
      Ok(Parsed([MatchArm(pattern.value, body.value)] + rest.value, rest.next))
    else
      Ok(Parsed([], p))
  }

  /**
   * `expect_token(LeftBrace)` followed by parse_block, the pair that opens
   * the body of every compound statement, catch clause and match arm.
   */
  function BracedBlock(ts: seq<Token>, p: nat): (r: Result<Parsed<seq<Stmt>>, ParseError>)
    requires p <= |ts|
    ensures r.Ok? ==> p < r.value.next <= |ts|
    ensures AtEnd(ts, p) ==> r == Err(UnexpectedEndOfInput)
    ensures !AtEnd(ts, p) && ts[p].kind != LeftBrace ==> r == Err(ExpectedToken(LeftBrace, ts[p].kind))
    ensures !AtEnd(ts, p) && ts[p].kind == LeftBrace ==> r == ParseBlock(ts, p + 1)
    decreases |ts| - p, 15
  {
    var brace :- ExpectToken(ts, p, LeftBrace);
    ParseBlock(ts, brace)
  }

  /** Parser::parse_block, after `{`: statements up to the closing brace. */
  function ParseBlock(ts: seq<Token>, p: nat): (r: Result<Parsed<seq<Stmt>>, ParseError>)
    requires p <= |ts|
    ensures r.Ok? ==> p < r.value.next <= |ts|
    ensures r.Ok? ==> ts[r.value.next - 1].kind == RightBrace
    decreases |ts| - p, 32
  {
    var items :- BlockItems(ts, p);
    var close :- ExpectToken(ts, items.next, RightBrace);
    Ok(Parsed(items.value, close))
  }

  /** The loop of parse_block: separators are skipped, statements collected in order. */
  function BlockItems(ts: seq<Token>, p: nat): (r: Result<Parsed<seq<Stmt>>, ParseError>)
    requires p <= |ts|
    ensures r.Ok? ==> p <= r.value.next <= |ts|
    ensures r.Ok? ==> Check(ts, r.value.next, RightBrace) || AtEnd(ts, r.value.next)
    decreases |ts| - p, 31
  {
    if !Check(ts, p, RightBrace) && !AtEnd(ts, p) then
      if IsSeparator(ts[p].kind) then
        BlockItems(ts, p + 1)
      else
        var stmt :- ParseStatement(ts, p);
        var rest :- BlockItems(ts, stmt.next);
        Ok(Parsed([stmt.value] + rest.value, rest.next))
    else
      Ok(Parsed([], p))
  }

  /**
   * Parser::parse_statement: a keyword statement, else an `is` declaration,
   * else an assignment (decided by speculative lookahead), else an
   * expression statement.
   */
  function ParseStatement(ts: seq<Token>, p: nat): (r: Result<Parsed<Stmt>, ParseError>)
    requires p <= |ts|
    ensures r.Ok? ==> p < r.value.next <= |ts|
    decreases |ts| - p, 30
  {
    if Check(ts, p, TokenKind.Let) then ParseLet(ts, p + 1, false)
    else if Check(ts, p, TokenKind.Const) then ParseLet(ts, p + 1, true)
    else if Check(ts, p, Fn) then ParseFunction(ts, p + 1)
    else if Check(ts, p, TokenKind.If) then ParseIf(ts, p + 1)
    else if Check(ts, p, TokenKind.For) then ParseFor(ts, p + 1)
    else if Check(ts, p, TokenKind.While) then ParseWhile(ts, p + 1)
    else if Check(ts, p, TokenKind.Return) then ParseReturn(ts, p + 1)
    else if Check(ts, p, TokenKind.Try) then ParseTry(ts, p + 1)
    else if Check(ts, p, TokenKind.Match) then ParseMatch(ts, p + 1)
    else if IsIsAssignment(ts, p) then ParseIsAssignment(ts, p)
    else if IsAssignment(ts, p) then ParseAssignment(ts, p)
    else
      var e :- ParseExpression(ts, p);
      Ok(Parsed(Stmt.Expression(e.value), SkipSeparators(ts, e.next)))
  }

  /** The loop of Parser::parse, with the statements collected so far in `prog`. */
  function ProgramItems(ts: seq<Token>, p: nat, prog: Program): (r: Result<Program, ParseError>)
    requires p <= |ts|
    ensures r.Ok? ==> |r.value.statements| >= |prog.statements|
    ensures r.Ok? ==> r.value.statements[..|prog.statements|] == prog.statements
    decreases |ts| - p
  {
    if AtEnd(ts, p) then Ok(prog)
    else if IsSeparator(ts[p].kind) then ProgramItems(ts, p + 1, prog)
    else
      var stmt :- ParseStatement(ts, p);
      ProgramItems(ts, stmt.next, AddStatement(prog, stmt.value))
  }

  /** One separator is skipped at the top level. */
  lemma ProgramSeparator(ts: seq<Token>, p: nat, prog: Program)
    requires p < |ts| && IsSeparator(ts[p].kind)
    ensures ProgramItems(ts, p, prog) == ProgramItems(ts, p + 1, prog)
  {
  }

  /** Separators between statements are skipped at the top level. */
  lemma {:induction false} ProgramSkipsSeparators(ts: seq<Token>, p: nat, q: nat, prog: Program)
    requires p <= q <= |ts| && forall i | p <= i < q :: IsSeparator(ts[i].kind)
    ensures ProgramItems(ts, p, prog) == ProgramItems(ts, q, prog)
    decreases q - p
  {
    if p < q {
      ProgramSkipsSeparators(ts, p, q - 1, prog);
      LastSeparator(ts, p, q, prog);
    }
  }

  /** The last separator of a run is skipped. */
  lemma LastSeparator(ts: seq<Token>, p: nat, q: nat, prog: Program)
    requires p < q <= |ts| && forall i | p <= i < q :: IsSeparator(ts[i].kind)
    ensures ProgramItems(ts, q - 1, prog) == ProgramItems(ts, q, prog)
  {
    ProgramSeparator(ts, q - 1, prog);
  }

  /** The first statement that fails to parse fails the whole program, with its error. */
  lemma ProgramFirstError(ts: seq<Token>, p: nat, prog: Program)
    requires p < |ts| && !AtEnd(ts, p) && !IsSeparator(ts[p].kind) && ParseStatement(ts, p).Err?
    ensures ProgramItems(ts, p, prog) == Err(ParseStatement(ts, p).error)
  {
  }

  /** A statement that parses is appended, and the loop resumes after it. */
  lemma ProgramNext(ts: seq<Token>, p: nat, prog: Program, s: Stmt, q: nat)
    requires p < |ts| && !AtEnd(ts, p) && !IsSeparator(ts[p].kind) && ParseStatement(ts, p) == Ok(Parsed(s, q))
    ensures ProgramItems(ts, p, prog) == ProgramItems(ts, q, AddStatement(prog, s))
  {
  }

  /**
   * Parser::parse: newlines and comments before the first statement are
   * skipped; a first statement that fails is the error of the whole parse,
   * and one that parses starts the program, the loop resuming after it.
   */
  function Parse(ts: seq<Token>): (r: Result<Program, ParseError>)
    ensures var p := SkipSeparators(ts, 0);
            AtEnd(ts, p) ==> r == Ok(Program([]))
    ensures var p := SkipSeparators(ts, 0);
            !AtEnd(ts, p) && ParseStatement(ts, p).Err? ==> r == Err(ParseStatement(ts, p).error)
    ensures var p := SkipSeparators(ts, 0);
            !AtEnd(ts, p) && ParseStatement(ts, p).Ok? ==>
              var first := ParseStatement(ts, p).value;
              r == ProgramItems(ts, first.next, Program([first.value]))
  {
    var p := SkipSeparators(ts, 0);
    ProgramSkipsSeparators(ts, 0, p, NewProgram());
    if AtEnd(ts, p) then
      ProgramItems(ts, 0, NewProgram())
    else if ParseStatement(ts, p).Err? then
      ProgramFirstError(ts, p, NewProgram());
      ProgramItems(ts, 0, NewProgram())
    else
      var first := ParseStatement(ts, p).value;
      ProgramNext(ts, p, NewProgram(), first.value, first.next);
      ProgramItems(ts, 0, NewProgram())
  }
}

=== FILE: parser_props.dfy ===
/**
 * Properties of the recursive-descent parser (src/parser/mod.rs): the
 * precedence ladder and left nesting of binary operators, call parsing,
 * the tag-only token tests, the statement dispatch after speculative
 * lookahead, and the statement loop of `parse`.
 *
 * The parser reads token kinds only, so the concrete examples are stated
 * for every token sequence with the given kinds, whatever the positions.
 */
module ParserProps {
  import opened Wrappers
  import opened Tokens
  import opened Ast
  import opened Parser

  /** The tokens `ts` have the kinds `ks`, one for one. */
  predicate HasKinds(ts: seq<Token>, ks: seq<TokenKind>) {
    |ts| == |ks| && forall i | 0 <= i < |ts| :: ts[i].kind == ks[i]
  }

  /** Four tokens of the given kinds, one by one. */
  lemma FourKinds(ts: seq<Token>, a: TokenKind, b: TokenKind, c: TokenKind, d: TokenKind)
    requires HasKinds(ts, [a, b, c, d])
    ensures |ts| == 4 && ts[0].kind == a && ts[1].kind == b && ts[2].kind == c && ts[3].kind == d
  {
    assert ts[0].kind == [a, b, c, d][0];
  }

  /** No binary level from `lo` to `hi` takes `kind` as its operator. */
  predicate NoOperatorBetween(kind: TokenKind, lo: nat, hi: nat) {
    forall m | lo <= m <= hi :: LevelOperator(m, kind).None?
  }

  /** A token kind no binary level takes as its operator. */
  predicate NotBinary(kind: TokenKind) {
    NoOperatorBetween(kind, 1, 6)
  }

  /** A token kind that continues no postfix chain. */
  predicate NotPostfix(kind: TokenKind) {
    kind != LeftParen && kind != LeftBracket && kind != Dot
  }

  // ---------------------------------------------------------------- the precedence ladder

  /** The postfix loop stops at a token that continues no postfix chain. */
  lemma PostfixStops(ts: seq<Token>, e: Expr, q: nat)
    requires q < |ts| && NotPostfix(ts[q].kind)
    ensures PostfixTail(ts, e, q) == Ok(Parsed(e, q))
  {
    NoPostfixCheck(ts, q);
  }

  /** None of the postfix tests of parse_postfix takes a token that continues no postfix chain. */
  lemma NoPostfixCheck(ts: seq<Token>, q: nat)
    requires q < |ts| && NotPostfix(ts[q].kind)
    ensures !Check(ts, q, LeftParen) && !Check(ts, q, LeftBracket) && !Check(ts, q, Dot)
  {
  }

  /** A primary followed by no postfix token is the whole postfix expression. */
  lemma PlainPostfix(ts: seq<Token>, p: nat, e: Expr, q: nat)
    requires p <= |ts| && ParsePrimary(ts, p) == Ok(Parsed(e, q))
    requires q < |ts| && NotPostfix(ts[q].kind)
    ensures ParsePostfix(ts, p) == Ok(Parsed(e, q))
  {
    PostfixStops(ts, e, q);
  }

  /** A literal or name token, followed by no postfix token, is a whole unary expression. */
  lemma Atom(ts: seq<Token>, p: nat, e: Expr)
    requires p + 1 < |ts| && NotPostfix(ts[p + 1].kind)
    requires ParsePrimary(ts, p) == Ok(Parsed(e, p + 1))
    requires UnaryOperatorOf(ts[p].kind).None?
    ensures ParseUnary(ts, p) == Ok(Parsed(e, p + 1))
  {
    PlainPostfix(ts, p, e, p + 1);
  }

  /** A binary level stops at a token that is not one of its operators. */
  lemma TailStops(ts: seq<Token>, e: Expr, q: nat, k: nat)
    requires q < |ts| && 1 <= k <= 6 && LevelOperator(k, ts[q].kind).None?
    ensures BinaryTail(ts, e, q, k) == Ok(Parsed(e, q))
  {
  }

  /** A level-`k` operator extends the left operand with the right one parsed one level up. */
  lemma TailExtends(ts: seq<Token>, e: Expr, q: nat, k: nat, right: Expr, q2: nat)
    requires q < |ts| && 1 <= k <= 6 && LevelOperator(k, ts[q].kind).Some?
    requires (if k == 6 then ParseUnary(ts, q + 1) else ParseBinary(ts, q + 1, k + 1)) == Ok(Parsed(right, q2))
    ensures BinaryTail(ts, e, q, k) ==
              BinaryTail(ts, Binary(e, LevelOperator(k, ts[q].kind).value, right), q2, k)
  {
  }

  /** Each binary operator token belongs to exactly one precedence level. */
  lemma OnlyLevel(kind: TokenKind, k: nat)
    requires 1 <= k <= 6 && LevelOperator(k, kind).Some?
    ensures NoOperatorBetween(kind, 1, k - 1) && NoOperatorBetween(kind, k + 1, 6)
  {
  }

  /**
   * Lower levels add nothing when the next token is none of their
   * operators: the level-`k` expression is also the level-`m` one.
   */
  lemma {:induction false} LadderDown(ts: seq<Token>, p: nat, k: nat, m: nat, e: Expr, q: nat)
    requires p <= |ts| && 1 <= m <= k <= 6 && ParseBinary(ts, p, k) == Ok(Parsed(e, q))
    requires q < |ts| && NoOperatorBetween(ts[q].kind, m, k - 1)
    ensures ParseBinary(ts, p, m) == Ok(Parsed(e, q))
    decreases k - m
  {
    if m < k {
      TailStops(ts, e, q, k - 1);
      assert ParseBinary(ts, p, k - 1) == Ok(Parsed(e, q));
      LadderDown(ts, p, k - 1, m, e, q);
    }
  }

  /**
   * A unary expression followed by no operator of level `k` or above is
   * the whole level-`k` expression.
   */
  lemma {:induction false} LadderUp(ts: seq<Token>, p: nat, k: nat, e: Expr, q: nat)
    requires p <= |ts| && 1 <= k <= 6 && ParseUnary(ts, p) == Ok(Parsed(e, q))
    requires q < |ts| && NoOperatorBetween(ts[q].kind, k, 6)
    ensures ParseBinary(ts, p, k) == Ok(Parsed(e, q))
    decreases 6 - k
  {
    TailStops(ts, e, q, k);
    if k < 6 {
      LadderUp(ts, p, k + 1, e, q);
    }
  }

  /** The operand of level `k` (the next level up, or a unary expression at level 6). */
  lemma OperandOf(ts: seq<Token>, p: nat, k: nat, e: Expr, q: nat)
    requires p <= |ts| && 1 <= k <= 6 && ParseUnary(ts, p) == Ok(Parsed(e, q))
    requires q < |ts| && NoOperatorBetween(ts[q].kind, k + 1, 6)
    ensures (if k == 6 then ParseUnary(ts, p) else ParseBinary(ts, p, k + 1)) == Ok(Parsed(e, q))
  {
    if k < 6 {
      LadderUp(ts, p, k + 1, e, q);
    }
  }

  /** A unary expression followed by no operator is the whole expression. */
  lemma Operand(ts: seq<Token>, p: nat, e: Expr, q: nat)
    requires p <= |ts| && ParseUnary(ts, p) == Ok(Parsed(e, q))
    requires q < |ts| && NotBinary(ts[q].kind)
    ensures ParseExpression(ts, p) == Ok(Parsed(e, q))
  {
    LadderUp(ts, p, 1, e, q);
  }

  // ---------------------------------------------------------------- precedence and associativity

  /**
   * Three operands `a op1 b op2 c`: the facts the precedence lemmas share.
   * Each operand is a whole unary expression, `op1` sits at level `i`,
   * `op2` at level `j`, and no operator follows `c`.
   */
  predicate ThreeOperands(ts: seq<Token>, p: nat, a: Expr, b: Expr, c: Expr, i: nat, j: nat) {
    && p + 5 < |ts|
    && ParseUnary(ts, p) == Ok(Parsed(a, p + 1))
    && ParseUnary(ts, p + 2) == Ok(Parsed(b, p + 3))
    && ParseUnary(ts, p + 4) == Ok(Parsed(c, p + 5))
    && 1 <= i <= 6 && LevelOperator(i, ts[p + 1].kind).Some?
    && 1 <= j <= 6 && LevelOperator(j, ts[p + 3].kind).Some?
    && NotBinary(ts[p + 5].kind)
  }

  /** `b op2 c` is one level-`j` expression, whatever precedes it. */
  lemma RightPair(ts: seq<Token>, p: nat, a: Expr, b: Expr, c: Expr, i: nat, j: nat)
    requires ThreeOperands(ts, p, a, b, c, i, j)
    ensures ParseBinary(ts, p + 2, j) ==
              Ok(Parsed(Binary(b, LevelOperator(j, ts[p + 3].kind).value, c), p + 5))
  {
    var bc := Binary(b, LevelOperator(j, ts[p + 3].kind).value, c);
    OnlyLevel(ts[p + 3].kind, j);
    OperandOf(ts, p + 2, j, b, p + 3);
    OperandOf(ts, p + 4, j, c, p + 5);
    TailExtends(ts, b, p + 3, j, c, p + 5);
    TailStops(ts, bc, p + 5, j);
  }

  /** `a op1 b` is one level-`i` expression, when `op2` binds no tighter than `op1`. */
  lemma LeftPair(ts: seq<Token>, p: nat, a: Expr, b: Expr, c: Expr, i: nat, j: nat)
    requires ThreeOperands(ts, p, a, b, c, i, j) && j <= i
    ensures BinaryTail(ts, a, p + 1, i) ==
              BinaryTail(ts, Binary(a, LevelOperator(i, ts[p + 1].kind).value, b), p + 3, i)
    ensures ParseBinary(ts, p, i) ==
              BinaryTail(ts, Binary(a, LevelOperator(i, ts[p + 1].kind).value, b), p + 3, i)
  {
    OnlyLevel(ts[p + 1].kind, i);
    OnlyLevel(ts[p + 3].kind, j);
    OperandOf(ts, p, i, a, p + 1);
    OperandOf(ts, p + 2, i, b, p + 3);
    TailExtends(ts, a, p + 1, i, b, p + 3);
  }

  /** A tighter right operator groups to the right: `a op1 (b op2 c)`. */
  lemma TighterRight(ts: seq<Token>, p: nat, a: Expr, b: Expr, c: Expr, i: nat, j: nat)
    requires ThreeOperands(ts, p, a, b, c, i, j) && i < j
    ensures ParseExpression(ts, p) ==
              Ok(Parsed(Binary(a, LevelOperator(i, ts[p + 1].kind).value,
                               Binary(b, LevelOperator(j, ts[p + 3].kind).value, c)), p + 5))
  {
    var bc := Binary(b, LevelOperator(j, ts[p + 3].kind).value, c);
    var abc := Binary(a, LevelOperator(i, ts[p + 1].kind).value, bc);
    RightPair(ts, p, a, b, c, i, j);
    LadderDown(ts, p + 2, j, i + 1, bc, p + 5);
    OnlyLevel(ts[p + 1].kind, i);
    OperandOf(ts, p, i, a, p + 1);
    TailExtends(ts, a, p + 1, i, bc, p + 5);
    TailStops(ts, abc, p + 5, i);
    assert ParseBinary(ts, p, i) == Ok(Parsed(abc, p + 5));
    LadderDown(ts, p, i, 1, abc, p + 5);
  }

  /** Operators of one level group to the left: `(a op1 b) op2 c`. */
  lemma SameLevelLeft(ts: seq<Token>, p: nat, a: Expr, b: Expr, c: Expr, i: nat, j: nat)
    requires ThreeOperands(ts, p, a, b, c, i, j) && i == j
    ensures ParseExpression(ts, p) ==
              Ok(Parsed(Binary(Binary(a, LevelOperator(i, ts[p + 1].kind).value, b),
                               LevelOperator(j, ts[p + 3].kind).value, c), p + 5))
  {
    var ab := Binary(a, LevelOperator(i, ts[p + 1].kind).value, b);
    var abc := Binary(ab, LevelOperator(j, ts[p + 3].kind).value, c);
    LeftPair(ts, p, a, b, c, i, j);
    OnlyLevel(ts[p + 3].kind, j);
    OperandOf(ts, p + 4, j, c, p + 5);
    TailExtends(ts, ab, p + 3, j, c, p + 5);
    TailStops(ts, abc, p + 5, j);
    LadderDown(ts, p, i, 1, abc, p + 5);
  }

  /** A tighter left operator groups to the left: `(a op1 b) op2 c`. */
  lemma TighterLeft(ts: seq<Token>, p: nat, a: Expr, b: Expr, c: Expr, i: nat, j: nat)
    requires ThreeOperands(ts, p, a, b, c, i, j) && j < i
    ensures ParseExpression(ts, p) ==
              Ok(Parsed(Binary(Binary(a, LevelOperator(i, ts[p + 1].kind).value, b),
                               LevelOperator(j, ts[p + 3].kind).value, c), p + 5))
  {
    var ab := Binary(a, LevelOperator(i, ts[p + 1].kind).value, b);
    var abc := Binary(ab, LevelOperator(j, ts[p + 3].kind).value, c);
    LeftPair(ts, p, a, b, c, i, j);
    OnlyLevel(ts[p + 3].kind, j);
    TailStops(ts, ab, p + 3, i);
    LadderDown(ts, p, i, j + 1, ab, p + 3);
    OperandOf(ts, p + 4, j, c, p + 5);
    TailExtends(ts, ab, p + 3, j, c, p + 5);
    TailStops(ts, abc, p + 5, j);
    assert ParseBinary(ts, p, j) == Ok(Parsed(abc, p + 5));
    LadderDown(ts, p, j, 1, abc, p + 5);
  }

  /**
   * Precedence climbing: `a op1 b op2 c` groups to the right exactly when
   * `op2` binds tighter than `op1`, and to the left otherwise (equal
   * levels associate to the left).
   */
  lemma Precedence(ts: seq<Token>, p: nat, a: Expr, b: Expr, c: Expr, i: nat, j: nat)
    requires ThreeOperands(ts, p, a, b, c, i, j)
    ensures
      var op1 := LevelOperator(i, ts[p + 1].kind).value;
      var op2 := LevelOperator(j, ts[p + 3].kind).value;
      ParseExpression(ts, p) ==
        Ok(Parsed(if i < j then Binary(a, op1, Binary(b, op2, c)) else Binary(Binary(a, op1, b), op2, c), p + 5))
  {
    if i < j {
      TighterRight(ts, p, a, b, c, i, j);
    } else if i == j {
      SameLevelLeft(ts, p, a, b, c, i, j);
    } else {
      TighterLeft(ts, p, a, b, c, i, j);
    }
  }

  // ---------------------------------------------------------------- calls and postfix forms

  /** A name followed by a parenthesised argument list is a call of that name. */
  lemma CallOfName(ts: seq<Token>, p: nat, name: string, args: seq<Expr>, q: nat)
    requires p + 1 < |ts| && ts[p].kind == TokenKind.Identifier(name) && ts[p + 1].kind == LeftParen
    requires ParseList(ts, p + 2, RightParen) == Ok(Parsed(args, q))
    requires q < |ts| && NotPostfix(ts[q].kind)
    ensures ParsePostfix(ts, p) == Ok(Parsed(Call(name, args), q))
  {
    PrimaryName(ts, p, name);
    PostfixOf(ts, p, Expr.Identifier(name), p + 1);
    CallTail(ts, name, p + 1, args, q);
  }

  /** After a name, an argument list followed by no postfix token completes the call. */
  lemma CallTail(ts: seq<Token>, name: string, p: nat, args: seq<Expr>, q: nat)
    requires p < |ts| && ts[p].kind == LeftParen
    requires ParseList(ts, p + 1, RightParen) == Ok(Parsed(args, q))
    requires q < |ts| && NotPostfix(ts[q].kind)
    ensures PostfixTail(ts, Expr.Identifier(name), p) == Ok(Parsed(Call(name, args), q))
  {
    PostfixCall(ts, name, p, args, q);
    PostfixStops(ts, Call(name, args), q);
  }

  /** A name token is a primary expression on its own. */
  lemma PrimaryName(ts: seq<Token>, p: nat, name: string)
    requires p < |ts| && ts[p].kind == TokenKind.Identifier(name)
    ensures ParsePrimary(ts, p) == Ok(Parsed(Expr.Identifier(name), p + 1))
  {
  }

  /** The postfix loop starts after the primary expression. */
  lemma PostfixOf(ts: seq<Token>, p: nat, e: Expr, q: nat)
    requires p <= |ts| && ParsePrimary(ts, p) == Ok(Parsed(e, q))
    ensures ParsePostfix(ts, p) == PostfixTail(ts, e, q)
  {
  }

  /** An argument list after a name turns the name into a call and the loop goes on after the list. */
  lemma PostfixCall(ts: seq<Token>, name: string, p: nat, args: seq<Expr>, q: nat)
    requires p < |ts| && ts[p].kind == LeftParen
    requires ParseList(ts, p + 1, RightParen) == Ok(Parsed(args, q))
    ensures PostfixTail(ts, Expr.Identifier(name), p) == PostfixTail(ts, Call(name, args), q)
  {
  }

  /**
   * Only a bare name can be called: an argument list after anything else
   * is an error, once the arguments themselves have parsed.
   */
  lemma CallNeedsName(ts: seq<Token>, e: Expr, p: nat)
    requires p < |ts| && ts[p].kind == LeftParen && !e.Identifier?
    ensures PostfixTail(ts, e, p).Err?
    ensures ParseList(ts, p + 1, RightParen).Ok? ==> PostfixTail(ts, e, p) == Err(InvalidFunctionCall)
    ensures ParseList(ts, p + 1, RightParen).Err? ==>
              PostfixTail(ts, e, p) == Err(ParseList(ts, p + 1, RightParen).error)
  {
  }

  // ---------------------------------------------------------------- statements

  /** The keywords parse_statement dispatches on. */
  predicate KeywordStatement(kind: TokenKind) {
    kind in {TokenKind.Let, TokenKind.Const, Fn, TokenKind.If, TokenKind.For,
             TokenKind.While, TokenKind.Return, TokenKind.Try, TokenKind.Match}
  }

  /** No keyword test of parse_statement takes a token of any other kind. */
  lemma NoKeywordTest(ts: seq<Token>, p: nat)
    requires p < |ts| && !KeywordStatement(ts[p].kind)
    ensures !Check(ts, p, TokenKind.Let) && !Check(ts, p, TokenKind.Const) && !Check(ts, p, Fn)
    ensures !Check(ts, p, TokenKind.If) && !Check(ts, p, TokenKind.For) && !Check(ts, p, TokenKind.While)
    ensures !Check(ts, p, TokenKind.Return) && !Check(ts, p, TokenKind.Try) && !Check(ts, p, TokenKind.Match)
  {
  }

  /** `name is value` declares `name`, with no type annotation. */
  lemma IsDeclaration(ts: seq<Token>, p: nat, name: string, e: Expr, q: nat)
    requires p + 1 < |ts| && ts[p].kind == TokenKind.Identifier(name) && ts[p + 1].kind == Is
    requires ParseExpression(ts, p + 2) == Ok(Parsed(e, q))
    ensures ParseStatement(ts, p) == Ok(Parsed(Stmt.Let(name, None, e), SkipSeparators(ts, q)))
  {
    IsStatement(ts, p);
    IsDeclarationParsed(ts, p, name, e, q);
  }

  /** Past the keyword tests, a name followed by `is` is parsed as a declaration. */
  lemma IsStatement(ts: seq<Token>, p: nat)
    requires p < |ts| && ts[p].kind.Identifier? && IsIsAssignment(ts, p)
    ensures ParseStatement(ts, p) == ParseIsAssignment(ts, p)
  {
    NoKeywordTest(ts, p);
  }

  /** parse_is_assignment_statement on a name, `is` and an expression. */
  lemma IsDeclarationParsed(ts: seq<Token>, p: nat, name: string, e: Expr, q: nat)
    requires p + 1 < |ts| && ts[p].kind == TokenKind.Identifier(name) && ts[p + 1].kind == Is
    requires ParseExpression(ts, p + 2) == Ok(Parsed(e, q))
    ensures ParseIsAssignment(ts, p) == Ok(Parsed(Stmt.Let(name, None, e), SkipSeparators(ts, q)))
  {
    assert ExpectToken(ts, p + 1, Is) == Ok(p + 2);
  }

  /** `let name is value` and `const name is value`, without an annotation. */
  lemma LetDeclaration(ts: seq<Token>, p: nat, name: string, e: Expr, q: nat)
    requires p + 2 < |ts| && ts[p].kind in {TokenKind.Let, TokenKind.Const}
    requires ts[p + 1].kind == TokenKind.Identifier(name) && ts[p + 2].kind == Is
    requires ParseExpression(ts, p + 3) == Ok(Parsed(e, q))
    ensures ParseStatement(ts, p) ==
              Ok(Parsed(if ts[p].kind == TokenKind.Let then Stmt.Let(name, None, e) else Stmt.Const(name, None, e),
                        SkipSeparators(ts, q)))
  {
    if ts[p].kind == TokenKind.Let {
      assert Check(ts, p, TokenKind.Let);
    } else {
      assert !Check(ts, p, TokenKind.Let) && Check(ts, p, TokenKind.Const);
    }
    LetParsed(ts, p + 1, name, e, q, ts[p].kind == TokenKind.Const);
  }

  /** parse_let_statement and parse_const_statement after the keyword: a name, `is` and an expression. */
  lemma LetParsed(ts: seq<Token>, p: nat, name: string, e: Expr, q: nat, isConst: bool)
    requires p + 1 < |ts| && ts[p].kind == TokenKind.Identifier(name) && ts[p + 1].kind == Is
    requires ParseExpression(ts, p + 2) == Ok(Parsed(e, q))
    ensures ParseLet(ts, p, isConst) ==
              Ok(Parsed(if isConst then Stmt.Const(name, None, e) else Stmt.Let(name, None, e), SkipSeparators(ts, q)))
  {
    assert OptionalType(ts, p + 1, Colon) == Ok(Parsed(None, p + 1));
    assert ExpectToken(ts, p + 1, Is) == Ok(p + 2);
  }

  /** The statement kind an assignment operator token stands for. */
  function AssignmentOperatorOf(kind: TokenKind): Option<AssignmentOperator> {
    if kind == TokenKind.Assign then Some(AssignmentOperator.Assign)
    else if kind == PlusAssign then Some(AddAssign)
    else if kind == MinusAssign then Some(SubtractAssign)
    else None
  }

  /** A name is a complete assignment target when an assignment operator follows. */
  lemma NameTarget(ts: seq<Token>, p: nat, name: string)
    requires p + 1 < |ts| && ts[p].kind == TokenKind.Identifier(name) && AssignmentOperatorOf(ts[p + 1].kind).Some?
    ensures ParseAssignmentTarget(ts, p) == Ok(Parsed(AssignmentTarget.Identifier(name), p + 1))
  {
    PlainPostfix(ts, p, Expr.Identifier(name), p + 1);
  }

  /** The assignment lookahead succeeds on a name and an assignment operator. */
  lemma NameIsAssignment(ts: seq<Token>, p: nat, name: string)
    requires p + 1 < |ts| && ts[p].kind == TokenKind.Identifier(name) && AssignmentOperatorOf(ts[p + 1].kind).Some?
    ensures !IsIsAssignment(ts, p) && IsAssignment(ts, p)
  {
    NameTarget(ts, p, name);
  }

  /**
   * `name = value`, `name += value`, `name -= value`: the lookahead finds
   * the target and the operator, and parsing resumes at the name.
   */
  lemma NameAssignment(ts: seq<Token>, p: nat, name: string, e: Expr, q: nat)
    requires p + 1 < |ts| && ts[p].kind == TokenKind.Identifier(name) && AssignmentOperatorOf(ts[p + 1].kind).Some?
    requires ParseExpression(ts, p + 2) == Ok(Parsed(e, q))
    ensures ParseStatement(ts, p) ==
              Ok(Parsed(Assignment(AssignmentTarget.Identifier(name), AssignmentOperatorOf(ts[p + 1].kind).value, e),
                        SkipSeparators(ts, q)))
  {
    NameIsAssignment(ts, p, name);
    AssignmentStatement(ts, p);
    NameAssignmentParsed(ts, p, name, e, q);
  }

  /** Past the keyword and `is` tests, a statement the lookahead accepts is parsed as an assignment. */
  lemma AssignmentStatement(ts: seq<Token>, p: nat)
    requires p < |ts| && ts[p].kind.Identifier? && !IsIsAssignment(ts, p) && IsAssignment(ts, p)
    ensures ParseStatement(ts, p) == ParseAssignment(ts, p)
  {
    NoKeywordTest(ts, p);
  }

  /** The assignment operator is recognised by its tag, which for these kinds is the kind itself. */
  lemma AssignmentOperatorChecks(ts: seq<Token>, q: nat)
    requires q < |ts|
    ensures Check(ts, q, TokenKind.Assign) == (ts[q].kind == TokenKind.Assign)
    ensures Check(ts, q, PlusAssign) == (ts[q].kind == PlusAssign)
    ensures Check(ts, q, MinusAssign) == (ts[q].kind == MinusAssign)
  {
  }

  /** parse_assignment_statement on a name, an assignment operator and an expression. */
  lemma NameAssignmentParsed(ts: seq<Token>, p: nat, name: string, e: Expr, q: nat)
    requires p + 1 < |ts| && ts[p].kind == TokenKind.Identifier(name) && AssignmentOperatorOf(ts[p + 1].kind).Some?
    requires ParseExpression(ts, p + 2) == Ok(Parsed(e, q))
    ensures ParseAssignment(ts, p) ==
              Ok(Parsed(Assignment(AssignmentTarget.Identifier(name), AssignmentOperatorOf(ts[p + 1].kind).value, e),
                        SkipSeparators(ts, q)))
  {
    var op := AssignmentOperatorOf(ts[p + 1].kind).value;
    NameTarget(ts, p, name);
    OperatorParsed(ts, p + 1, op);
    AssignmentParts(ts, p, AssignmentTarget.Identifier(name), op, e, q);
  }

  /** parse_assignment_statement: target, operator and value, each parsed where the last one stopped. */
  lemma AssignmentParts(ts: seq<Token>, p: nat, t: AssignmentTarget, op: AssignmentOperator, e: Expr, q: nat)
    requires p + 1 < |ts| && ParseAssignmentTarget(ts, p) == Ok(Parsed(t, p + 1))
    requires ParseAssignmentOperator(ts, p + 1) == Ok(op)
    requires ParseExpression(ts, p + 2) == Ok(Parsed(e, q))
    ensures ParseAssignment(ts, p) == Ok(Parsed(Assignment(t, op, e), SkipSeparators(ts, q)))
  {
    AssignmentHead(ts, p, t, op);
  }

  /** After a target and an operator, parse_assignment_statement goes on to the value. */
  lemma AssignmentHead(ts: seq<Token>, p: nat, t: AssignmentTarget, op: AssignmentOperator)
    requires p + 1 < |ts| && ParseAssignmentTarget(ts, p) == Ok(Parsed(t, p + 1))
    requires ParseAssignmentOperator(ts, p + 1) == Ok(op)
    ensures ParseAssignment(ts, p) == AssignmentValue(ts, p + 2, t, op)
  {
  }

  /** The assignment operator is read as the one its token spells. */
  lemma OperatorParsed(ts: seq<Token>, q: nat, op: AssignmentOperator)
    requires q < |ts| && AssignmentOperatorOf(ts[q].kind) == Some(op)
    ensures ParseAssignmentOperator(ts, q) == Ok(op)
  {
    AssignmentOperatorChecks(ts, q);
  }

  /** A statement that is neither a keyword form, a declaration nor an assignment is an expression. */
  lemma ExpressionStatement(ts: seq<Token>, p: nat, e: Expr, q: nat)
    requires p < |ts| && !KeywordStatement(ts[p].kind) && !IsIsAssignment(ts, p) && !IsAssignment(ts, p)
    requires ParseExpression(ts, p) == Ok(Parsed(e, q))
    ensures ParseStatement(ts, p) == Ok(Parsed(Stmt.Expression(e), SkipSeparators(ts, q)))
  {
    NoKeywordTest(ts, p);
  }

  /** A call is never an assignment target, so a call statement is an expression statement. */
  lemma CallIsNoAssignment(ts: seq<Token>, p: nat, name: string, args: seq<Expr>, q: nat)
    requires p <= |ts| && ParsePostfix(ts, p) == Ok(Parsed(Call(name, args), q))
    ensures !IsAssignment(ts, p)
  {
  }

  // ---------------------------------------------------------------- try and catch

  /**
   * `catch {` without a type: the failed identifier test has consumed the
   * brace, so the clause then demands another one.
   */
  lemma CatchSwallowsBrace(ts: seq<Token>, p: nat)
    requires p + 2 < |ts| && ts[p].kind == Catch && ts[p + 1].kind == LeftBrace
    requires !ts[p + 2].kind.Identifier? && ts[p + 2].kind != LeftBrace && ts[p + 2].kind != EOF
    ensures CatchClauses(ts, p) == Err(ExpectedToken(LeftBrace, ts[p + 2].kind))
  {
    assert ExpectIdentifier(ts, p + 1).Err?;
    assert Step(ts, p + 1) == p + 2;
    assert !Check(ts, p + 2, TokenKind.Identifier("as"));
  }

  /** `catch T`: the clause starts, and `T` is its exception type. */
  lemma CatchHeader(ts: seq<Token>, p: nat, t: string)
    requires p + 2 < |ts| && ts[p].kind == Catch && ts[p + 1].kind == TokenKind.Identifier(t)
    ensures Check(ts, p, Catch) && ExpectIdentifier(ts, p + 1) == Ok(Parsed(t, p + 2)) && Step(ts, p + 1) == p + 2
  {
  }

  /** A brace where `as` could stand binds no variable and opens the body. */
  lemma BraceOpens(ts: seq<Token>, q: nat)
    requires q < |ts| && ts[q].kind == LeftBrace
    ensures !Check(ts, q, TokenKind.Identifier("as")) && ExpectToken(ts, q, LeftBrace) == Ok(q + 1)
  {
  }

  /** Any word where `as` could stand, then a name and a brace: the name is bound and the body opens. */
  lemma WordBindsVariable(ts: seq<Token>, q: nat, w: string, v: string)
    requires q + 2 < |ts| && ts[q].kind == TokenKind.Identifier(w) && ts[q + 1].kind == TokenKind.Identifier(v)
    requires ts[q + 2].kind == LeftBrace
    ensures Check(ts, q, TokenKind.Identifier("as")) && ExpectIdentifier(ts, q + 1) == Ok(Parsed(v, q + 2))
    ensures ExpectToken(ts, q + 2, LeftBrace) == Ok(q + 3)
  {
  }

  /** `catch T {...}`: the identifier after `catch` is the exception type, and no variable is bound. */
  lemma CatchTyped(ts: seq<Token>, p: nat, t: string, body: seq<Stmt>, q: nat)
    requires p + 3 < |ts| && ts[p].kind == Catch && ts[p + 1].kind == TokenKind.Identifier(t) && ts[p + 2].kind == LeftBrace
    requires ParseBlock(ts, p + 3) == Ok(Parsed(body, q)) && !Check(ts, q, Catch)
    ensures CatchClauses(ts, p) == Ok(Parsed([CatchClause(Some(t), None, body)], q))
  {
    CatchHeader(ts, p, t);
    BraceOpens(ts, p + 2);
    assert [CatchClause(Some(t), None, body)] + [] == [CatchClause(Some(t), None, body)];
  }

  /**
   * `catch T w v {...}`: the `as` test compares tags only, so any word
   * `w` in its place introduces the variable `v`.
   */
  lemma CatchAnyWordIsAs(ts: seq<Token>, p: nat, t: string, w: string, v: string, body: seq<Stmt>, q: nat)
    requires p + 5 < |ts| && ts[p].kind == Catch && ts[p + 1].kind == TokenKind.Identifier(t)
    requires ts[p + 2].kind == TokenKind.Identifier(w) && ts[p + 3].kind == TokenKind.Identifier(v) && ts[p + 4].kind == LeftBrace
    requires ParseBlock(ts, p + 5) == Ok(Parsed(body, q)) && !Check(ts, q, Catch)
    ensures CatchClauses(ts, p) == Ok(Parsed([CatchClause(Some(t), Some(v), body)], q))
  {
    CatchHeader(ts, p, t);
    WordBindsVariable(ts, p + 2, w, v);
    assert [CatchClause(Some(t), Some(v), body)] + [] == [CatchClause(Some(t), Some(v), body)];
  }

  // ---------------------------------------------------------------- compound statements

  /** `()`: the empty parameter list. */
  lemma NoParameters(ts: seq<Token>, p: nat)
    requires p + 1 < |ts| && ts[p].kind == LeftParen && ts[p + 1].kind == RightParen
    ensures ParameterList(ts, p) == Ok(Parsed([], p + 2))
  {
  }

  /** `name`, then a brace where `->` could stand: the name is parsed and there is no return type. */
  lemma FunctionHead(ts: seq<Token>, p: nat, name: string, r: nat)
    ensures p < |ts| && ts[p].kind == TokenKind.Identifier(name) ==> ExpectIdentifier(ts, p) == Ok(Parsed(name, p + 1))
    ensures r < |ts| && ts[r].kind == LeftBrace ==> OptionalType(ts, r, Arrow) == Ok(Parsed(None, r))
  {
  }

  /**
   * `fn name(params) { body }` without a return type: a Function statement
   * with the parameters in order, ending after the body.
   */
  lemma FunctionStatement(ts: seq<Token>, p: nat, name: string, params: seq<Parameter>, r: nat, body: seq<Stmt>, q: nat)
    requires p < |ts| && ts[p].kind == TokenKind.Identifier(name) && ParameterList(ts, p + 1) == Ok(Parsed(params, r))
    requires r < |ts| && ts[r].kind == LeftBrace && BracedBlock(ts, r) == Ok(Parsed(body, q))
    ensures ParseFunction(ts, p) == Ok(Parsed(Stmt.Function(name, params, None, body), q))
  {
    FunctionHead(ts, p, name, r);
  }

  /** After `fn` and after `for` a name must come first; otherwise the parse fails on that token. */
  lemma NameExpected(ts: seq<Token>, p: nat)
    requires p <= |ts|
    ensures AtEnd(ts, p) ==> ParseFunction(ts, p) == Err(ExpectedIdentifierAtEnd) && ParseFor(ts, p) == Err(ExpectedIdentifierAtEnd)
    ensures !AtEnd(ts, p) && !ts[p].kind.Identifier? ==>
              && ParseFunction(ts, p) == Err(ExpectedIdentifier(ts[p].kind))
              && ParseFor(ts, p) == Err(ExpectedIdentifier(ts[p].kind))
  {
  }

  /** `if c { ... }` and its else clause: an If statement with that else branch. */
  lemma IfStatement(ts: seq<Token>, p: nat, c: Expr, q: nat, thenBlock: seq<Stmt>, q2: nat, elseBranch: ElseBranch, q3: nat)
    requires p <= |ts| && ParseExpression(ts, p) == Ok(Parsed(c, q))
    requires BracedBlock(ts, q) == Ok(Parsed(thenBlock, q2)) && ElseClause(ts, q2) == Ok(Parsed(elseBranch, q3))
    ensures ParseIf(ts, p) == Ok(Parsed(Stmt.If(c, thenBlock, elseBranch), q3))
  {
  }

  /** `else` must directly follow the then-block: anything else there, a newline included, means no else branch. */
  lemma NoElseClause(ts: seq<Token>, q: nat)
    requires q <= |ts| && !Check(ts, q, Else)
    ensures ElseClause(ts, q) == Ok(Parsed(NoElse, q))
  {
  }

  /** `else { ... }`: the else branch is the braced block after `else`. */
  lemma ElseBlockClause(ts: seq<Token>, q: nat, elseBlock: seq<Stmt>, q2: nat)
    requires q < |ts| && ts[q].kind == Else && BracedBlock(ts, q + 1) == Ok(Parsed(elseBlock, q2))
    ensures ElseClause(ts, q) == Ok(Parsed(ElseBlock(elseBlock), q2))
  {
    assert Check(ts, q, Else);
  }

  /** `v in`: the loop variable is parsed and `in` consumed. */
  lemma ForHead(ts: seq<Token>, p: nat, v: string)
    ensures p + 1 < |ts| && ts[p].kind == TokenKind.Identifier(v) && ts[p + 1].kind == In ==>
              ExpectIdentifier(ts, p) == Ok(Parsed(v, p + 1)) && ExpectToken(ts, p + 1, In) == Ok(p + 2)
  {
  }

  /** `for v in e { ... }`: a For statement over `v` and `e`. */
  lemma ForStatement(ts: seq<Token>, p: nat, v: string, e: Expr, q: nat, body: seq<Stmt>, q2: nat)
    requires p + 1 < |ts| && ts[p].kind == TokenKind.Identifier(v) && ts[p + 1].kind == In
    requires ParseExpression(ts, p + 2) == Ok(Parsed(e, q)) && BracedBlock(ts, q) == Ok(Parsed(body, q2))
    ensures ParseFor(ts, p) == Ok(Parsed(Stmt.For(v, e, body), q2))
  {
    ForHead(ts, p, v);
  }

  /** `while c { ... }`: a While statement. */
  lemma WhileStatement(ts: seq<Token>, p: nat, c: Expr, q: nat, body: seq<Stmt>, q2: nat)
    requires p <= |ts| && ParseExpression(ts, p) == Ok(Parsed(c, q)) && BracedBlock(ts, q) == Ok(Parsed(body, q2))
    ensures ParseWhile(ts, p) == Ok(Parsed(Stmt.While(c, body), q2))
  {
  }

  /** `try { ... }` and its catch clauses: a Try statement. */
  lemma TryStatement(ts: seq<Token>, p: nat, body: seq<Stmt>, q: nat, clauses: seq<CatchClause>, q2: nat)
    requires p <= |ts| && BracedBlock(ts, p) == Ok(Parsed(body, q)) && CatchClauses(ts, q) == Ok(Parsed(clauses, q2))
    ensures ParseTry(ts, p) == Ok(Parsed(Stmt.Try(body, clauses), q2))
  {
  }

  /** `match e { arms }`: a Match statement, ending after the closing brace. */
  lemma MatchStatement(ts: seq<Token>, p: nat, e: Expr, q: nat, arms: seq<MatchArm>, q2: nat)
    requires p <= |ts| && ParseExpression(ts, p) == Ok(Parsed(e, q))
    requires BracedArms(ts, q) == Ok(Parsed(arms, q2))
    ensures ParseMatch(ts, p) == Ok(Parsed(Stmt.Match(e, arms), q2))
  {
  }

  /** `{ }`: a match body without arms. */
  lemma NoArms(ts: seq<Token>, q: nat)
    requires q + 1 < |ts| && ts[q].kind == LeftBrace && ts[q + 1].kind == RightBrace
    ensures BracedArms(ts, q) == Ok(Parsed([], q + 2))
  {
    assert ExpectToken(ts, q, LeftBrace) == Ok(q + 1);
    assert MatchArms(ts, q + 1) == Ok(Parsed([], q + 1));
  }

  // ---------------------------------------------------------------- examples

  /** An integer literal followed by no postfix token is a whole unary expression. */
  lemma IntegerAtom(ts: seq<Token>, p: nat, n: int)
    requires p + 1 < |ts| && ts[p].kind == TokenKind.Integer(n) && NotPostfix(ts[p + 1].kind)
    ensures ParseUnary(ts, p) == Ok(Parsed(Expr.Integer(n), p + 1))
  {
    Atom(ts, p, Expr.Integer(n));
  }

  /** End of input continues no expression. */
  lemma EndIsNoOperator()
    ensures NotBinary(EOF) && NotPostfix(EOF)
  {
    forall m | 1 <= m <= 6
      ensures LevelOperator(m, EOF).None?
    {
    }
  }

  /** Three integer literals separated by binary operators, before a token that continues nothing. */
  lemma IntegerOperands(ts: seq<Token>, p: nat, x: int, y: int, z: int, i: nat, j: nat)
    requires p + 5 < |ts| && ts[p].kind == TokenKind.Integer(x) && ts[p + 2].kind == TokenKind.Integer(y) && ts[p + 4].kind == TokenKind.Integer(z)
    requires 1 <= i <= 6 && LevelOperator(i, ts[p + 1].kind).Some? && NotPostfix(ts[p + 1].kind)
    requires 1 <= j <= 6 && LevelOperator(j, ts[p + 3].kind).Some? && NotPostfix(ts[p + 3].kind)
    requires NotBinary(ts[p + 5].kind) && NotPostfix(ts[p + 5].kind)
    ensures ThreeOperands(ts, p, Expr.Integer(x), Expr.Integer(y), Expr.Integer(z), i, j)
  {
    IntegerAtom(ts, p, x);
    IntegerAtom(ts, p + 2, y);
    IntegerAtom(ts, p + 4, z);
  }

  /** `+` is an additive operator and `*` a multiplicative one, neither continuing a postfix chain. */
  lemma PlusTimesLevels()
    ensures LevelOperator(5, Plus) == Some(Add) && NotPostfix(Plus)
    ensures LevelOperator(6, TokenKind.Multiply) == Some(BinaryOperator.Multiply) && NotPostfix(TokenKind.Multiply)
  {
  }

  /** `-` is an additive operator that continues no postfix chain. */
  lemma MinusLevel()
    ensures LevelOperator(5, TokenKind.Minus) == Some(Subtract) && NotPostfix(TokenKind.Minus)
  {
  }

  /** The kinds of the tokens of `2 + 3 * 4`, one by one. */
  lemma TimesKinds(ts: seq<Token>)
    requires HasKinds(ts, [TokenKind.Integer(2), Plus, TokenKind.Integer(3), TokenKind.Multiply, TokenKind.Integer(4), EOF])
    ensures |ts| == 6 && ts[0].kind == TokenKind.Integer(2) && ts[1].kind == Plus && ts[2].kind == TokenKind.Integer(3)
    ensures ts[3].kind == TokenKind.Multiply && ts[4].kind == TokenKind.Integer(4) && ts[5].kind == EOF
  {
  }

  /** The kinds of the tokens of `1 - 2 - 3`, one by one. */
  lemma MinusKinds(ts: seq<Token>)
    requires HasKinds(ts, [TokenKind.Integer(1), TokenKind.Minus, TokenKind.Integer(2), TokenKind.Minus, TokenKind.Integer(3), EOF])
    ensures |ts| == 6 && ts[0].kind == TokenKind.Integer(1) && ts[1].kind == TokenKind.Minus && ts[2].kind == TokenKind.Integer(2)
    ensures ts[3].kind == TokenKind.Minus && ts[4].kind == TokenKind.Integer(3) && ts[5].kind == EOF
  {
  }

  /** The tokens of `2 + 3 * 4`, as three operands. */
  lemma TimesOperands(ts: seq<Token>)
    requires HasKinds(ts, [TokenKind.Integer(2), Plus, TokenKind.Integer(3), TokenKind.Multiply, TokenKind.Integer(4), EOF])
    ensures ThreeOperands(ts, 0, Expr.Integer(2), Expr.Integer(3), Expr.Integer(4), 5, 6)
    ensures LevelOperator(5, ts[1].kind) == Some(Add) && LevelOperator(6, ts[3].kind) == Some(BinaryOperator.Multiply)
  {
    TimesKinds(ts);
    PlusTimesLevels();
    EndIsNoOperator();
    IntegerOperands(ts, 0, 2, 3, 4, 5, 6);
  }

  /** `2 + 3 * 4`: multiplication binds tighter than addition. */
  lemma TimesBindsTighter(ts: seq<Token>)
    requires HasKinds(ts, [TokenKind.Integer(2), Plus, TokenKind.Integer(3), TokenKind.Multiply, TokenKind.Integer(4), EOF])
    ensures ParseExpression(ts, 0) ==
              Ok(Parsed(Binary(Expr.Integer(2), Add, Binary(Expr.Integer(3), BinaryOperator.Multiply, Expr.Integer(4))), 5))
  {
    TimesOperands(ts);
    Precedence(ts, 0, Expr.Integer(2), Expr.Integer(3), Expr.Integer(4), 5, 6);
  }

  /** The tokens of `1 - 2 - 3`, as three operands. */
  lemma MinusOperands(ts: seq<Token>)
    requires HasKinds(ts, [TokenKind.Integer(1), TokenKind.Minus, TokenKind.Integer(2), TokenKind.Minus, TokenKind.Integer(3), EOF])
    ensures ThreeOperands(ts, 0, Expr.Integer(1), Expr.Integer(2), Expr.Integer(3), 5, 5)
    ensures LevelOperator(5, ts[1].kind) == Some(Subtract) && LevelOperator(5, ts[3].kind) == Some(Subtract)
  {
    MinusKinds(ts);
    MinusLevel();
    EndIsNoOperator();
    IntegerOperands(ts, 0, 1, 2, 3, 5, 5);
  }

  /** `1 - 2 - 3`: subtraction associates to the left. */
  lemma MinusAssociatesLeft(ts: seq<Token>)
    requires HasKinds(ts, [TokenKind.Integer(1), TokenKind.Minus, TokenKind.Integer(2), TokenKind.Minus, TokenKind.Integer(3), EOF])
    ensures ParseExpression(ts, 0) ==
              Ok(Parsed(Binary(Binary(Expr.Integer(1), Subtract, Expr.Integer(2)), Subtract, Expr.Integer(3)), 5))
  {
    MinusOperands(ts);
    Precedence(ts, 0, Expr.Integer(1), Expr.Integer(2), Expr.Integer(3), 5, 5);
  }

  /** A string literal followed by no postfix token is a whole unary expression. */
  lemma StringAtom(ts: seq<Token>, p: nat, text: string)
    requires p + 1 < |ts| && ts[p].kind == TokenKind.String(text) && NotPostfix(ts[p + 1].kind)
    ensures ParseUnary(ts, p) == Ok(Parsed(Expr.String(text), p + 1))
  {
    Atom(ts, p, Expr.String(text));
  }

  /** An expression followed by something other than a comma is a list of one item. */
  lemma SingleItem(ts: seq<Token>, p: nat, e: Expr, q: nat)
    requires p <= |ts| && ParseExpression(ts, p) == Ok(Parsed(e, q)) && q < |ts| && !Check(ts, q, Comma)
    ensures ExprItems(ts, p) == Ok(Parsed([e], q))
  {
  }

  /** A non-empty list of items followed by its closer. */
  lemma ClosedList(ts: seq<Token>, p: nat, closer: TokenKind, items: seq<Expr>, q: nat)
    requires p < |ts| && !Check(ts, p, closer) && ExprItems(ts, p) == Ok(Parsed(items, q))
    requires q < |ts| && ExpectToken(ts, q, closer) == Ok(q + 1)
    ensures ParseList(ts, p, closer) == Ok(Parsed(items, q + 1))
  {
    assert (if Check(ts, p, closer) then Ok(Parsed([], p)) else ExprItems(ts, p)) == Ok(Parsed(items, q));
  }

  /** The tags that the argument list of `print("Hello")` compares. */
  lemma HelloTags(ts: seq<Token>)
    requires HasKinds(ts, [TokenKind.Identifier("print"), LeftParen, TokenKind.String("Hello"), RightParen, EOF])
    ensures ts[0].kind == TokenKind.Identifier("print") && ts[1].kind == LeftParen
    ensures ts[2].kind == TokenKind.String("Hello") && ts[3].kind == RightParen && ts[4].kind == EOF
    ensures !Check(ts, 2, RightParen) && !Check(ts, 3, Comma) && ExpectToken(ts, 3, RightParen) == Ok(4)
  {
    assert ts[2].kind == TokenKind.String("Hello") && ts[3].kind == RightParen;
  }

  /** The argument list of `print("Hello")`. */
  lemma HelloArguments(ts: seq<Token>)
    requires HasKinds(ts, [TokenKind.Identifier("print"), LeftParen, TokenKind.String("Hello"), RightParen, EOF])
    ensures ParseList(ts, 2, RightParen) == Ok(Parsed([Expr.String("Hello")], 4))
  {
    HelloTags(ts);
    HelloArgument(ts);
    SingleItem(ts, 2, Expr.String("Hello"), 3);
    ClosedList(ts, 2, RightParen, [Expr.String("Hello")], 3);
  }

  /** The one argument of `print("Hello")`. */
  lemma HelloArgument(ts: seq<Token>)
    requires HasKinds(ts, [TokenKind.Identifier("print"), LeftParen, TokenKind.String("Hello"), RightParen, EOF])
    ensures ParseExpression(ts, 2) == Ok(Parsed(Expr.String("Hello"), 3))
  {
    HelloTags(ts);
    StringAtom(ts, 2, "Hello");
    Operand(ts, 2, Expr.String("Hello"), 3);
  }

  /** A postfix expression not led by a unary operator is a whole unary expression. */
  lemma UnaryIsPostfix(ts: seq<Token>, p: nat)
    requires p < |ts| && UnaryOperatorOf(ts[p].kind).None?
    ensures ParseUnary(ts, p) == ParsePostfix(ts, p)
  {
  }

  /** `print("Hello")` as a postfix chain: the call. */
  lemma HelloPostfix(ts: seq<Token>)
    requires HasKinds(ts, [TokenKind.Identifier("print"), LeftParen, TokenKind.String("Hello"), RightParen, EOF])
    ensures ParsePostfix(ts, 0) == Ok(Parsed(Call("print", [Expr.String("Hello")]), 4))
  {
    HelloTags(ts);
    HelloArguments(ts);
    CallOfName(ts, 0, "print", [Expr.String("Hello")], 4);
  }

  /** `print("Hello")` is one call of `print` with one argument. */
  lemma HelloCall(ts: seq<Token>)
    requires HasKinds(ts, [TokenKind.Identifier("print"), LeftParen, TokenKind.String("Hello"), RightParen, EOF])
    ensures ParseExpression(ts, 0) == Ok(Parsed(Call("print", [Expr.String("Hello")]), 4))
    ensures !IsAssignment(ts, 0)
  {
    HelloPostfix(ts);
    HelloUnary(ts);
    EndIsNoOperator();
    HelloTags(ts);
    Operand(ts, 0, Call("print", [Expr.String("Hello")]), 4);
    CallIsNoAssignment(ts, 0, "print", [Expr.String("Hello")], 4);
  }

  /** `print("Hello")` as a unary expression: the call, with no operator before it. */
  lemma HelloUnary(ts: seq<Token>)
    requires HasKinds(ts, [TokenKind.Identifier("print"), LeftParen, TokenKind.String("Hello"), RightParen, EOF])
    ensures ParseUnary(ts, 0) == Ok(Parsed(Call("print", [Expr.String("Hello")]), 4))
  {
    HelloTags(ts);
    UnaryIsPostfix(ts, 0);
    HelloPostfix(ts);
  }

  /** The program `print("Hello")`: one expression statement calling `print`. */
  lemma ParseHello(ts: seq<Token>)
    requires HasKinds(ts, [TokenKind.Identifier("print"), LeftParen, TokenKind.String("Hello"), RightParen, EOF])
    ensures Parse(ts) == Ok(Program([Stmt.Expression(Call("print", [Expr.String("Hello")]))]))
  {
    var stmt := Stmt.Expression(Call("print", [Expr.String("Hello")]));
    HelloCall(ts);
    ExpressionStatement(ts, 0, Call("print", [Expr.String("Hello")]), 4);
    assert SkipSeparators(ts, 4) == 4;
    ProgramNext(ts, 0, NewProgram(), stmt, 4);
    assert AddStatement(NewProgram(), stmt).statements == [stmt];
  }

  /** The program `name is "World"`: one declaration of `name`, untyped. */
  lemma ParseWorld(ts: seq<Token>)
    requires HasKinds(ts, [TokenKind.Identifier("name"), Is, TokenKind.String("World"), EOF])
    ensures Parse(ts) == Ok(Program([Stmt.Let("name", None, Expr.String("World"))]))
  {
    var stmt := Stmt.Let("name", None, Expr.String("World"));
    WorldStatement(ts);
    ProgramNext(ts, 0, NewProgram(), stmt, 3);
    assert AddStatement(NewProgram(), stmt).statements == [stmt];
  }

  /** `name is "text"` at the end of input: a declaration of `name`, untyped, ending at the end. */
  lemma StringDeclaration(ts: seq<Token>, name: string, text: string)
    requires |ts| == 4 && ts[0].kind == TokenKind.Identifier(name) && ts[1].kind == Is
    requires ts[2].kind == TokenKind.String(text) && ts[3].kind == EOF
    ensures ParseStatement(ts, 0) == Ok(Parsed(Stmt.Let(name, None, Expr.String(text)), 3))
    ensures !AtEnd(ts, 0) && !IsSeparator(ts[0].kind) && AtEnd(ts, 3)
  {
    EndIsNoOperator();
    StringAtom(ts, 2, text);
    Operand(ts, 2, Expr.String(text), 3);
    IsDeclaration(ts, 0, name, Expr.String(text), 3);
    assert SkipSeparators(ts, 3) == 3;
  }

  /** The statement `name is "World"`, which ends at the end of input. */
  lemma WorldStatement(ts: seq<Token>)
    requires HasKinds(ts, [TokenKind.Identifier("name"), Is, TokenKind.String("World"), EOF])
    ensures ParseStatement(ts, 0) == Ok(Parsed(Stmt.Let("name", None, Expr.String("World")), 3))
    ensures !AtEnd(ts, 0) && !IsSeparator(ts[0].kind) && AtEnd(ts, 3)
  {
    FourKinds(ts, TokenKind.Identifier("name"), Is, TokenKind.String("World"), EOF);
    StringDeclaration(ts, "name", "World");
  }
}

=== FILE: sequences.dfy ===
/**
 * Joining strings with a separator, as Rust's `[String]::join` does: the
 * parts in order, with one copy of the separator between each neighbouring
 * pair and none at either end.
 */
module Sequences {
  /** `parts.join(sep)`. */
  function Join(parts: seq<string>, sep: string): (r: string)
    ensures |parts| == 0 ==> r == ""
    ensures |parts| == 1 ==> r == parts[0]
    ensures |parts| >= 1 ==> parts[0] <= r
  {
    if |parts| == 0 then ""
    else if |parts| == 1 then parts[0]
    else parts[0] + sep + Join(parts[1..], sep)
  }

  /** The separator goes between the parts, so adding a part at the end adds the separator and the part. */
  lemma {:induction false} JoinAppend(parts: seq<string>, p: string, sep: string)
    requires |parts| >= 1
    ensures Join(parts + [p], sep) == Join(parts, sep) + sep + p
  {
    if |parts| == 1 {
      assert parts + [p] == [parts[0], p];
      assert [parts[0], p][1..] == [p];
    } else {
      var rest := parts[1..];
      assert (parts + [p])[1..] == rest + [p];
      JoinAppend(rest, p, sep);
      calc {
        Join(parts + [p], sep);
        parts[0] + sep + Join(rest + [p], sep);
        parts[0] + sep + (Join(rest, sep) + sep + p);
        { assert parts[0] + sep + (Join(rest, sep) + sep + p) == (parts[0] + sep + Join(rest, sep)) + sep + p; }
        Join(parts, sep) + sep + p;
      }
    }
  }
}

=== FILE: source_tests.dfy ===
/**
 * The parser's own tests (src/parser/mod.rs), from source text to
 * program: the text is lexed by the lexer model and the tokens parsed by
 * the parser model.
 *
 * As in the lexer tests, each text is a parameter fixed by the
 * precondition, and each token is established by a small lemma of its own.
 */
module SourceTests {
  import opened Wrappers
  import opened Tokens
  import opened Lexer
  import opened LexerProps
  import opened LexerTests
  import opened Ast
  import opened Parser
  import opened ParserProps

  /** Token kinds read off with `Kinds` are the kinds of the tokens, one for one. */
  lemma {:induction false} KindsGive(ts: seq<Token>, ks: seq<TokenKind>)
    requires Kinds(ts) == ks
    ensures HasKinds(ts, ks)
    decreases |ts|
  {
    if ts != [] {
      KindsGive(ts[1..], ks[1..]);
      assert forall i | 1 <= i < |ts| :: ts[i] == ts[1..][i - 1];
    }
  }

  /** test_parse_simple_let: `name is "World"` is one declaration of `name` holding a string. */
  lemma SimpleLet(s: string)
    requires s == "name is \"World\""
    ensures Parse(Tokenize(s)) == Ok(Program([Stmt.Let("name", None, Expr.String("World"))]))
  {
    WorldTokens(s);
    KindsGive(Tokenize(s), [TokenKind.Identifier("name"), Is, TokenKind.String("World"), EOF]);
    ParseWorld(Tokenize(s));
  }

  /** test_parse_function_call: `print("Hello")` is one call of `print` with one argument. */
  lemma FunctionCall(s: string)
    requires s == "print(\"Hello\")"
    ensures Parse(Tokenize(s)) == Ok(Program([Stmt.Expression(Call("print", [Expr.String("Hello")]))]))
  {
    HelloTokens(s);
    KindsGive(Tokenize(s), [TokenKind.Identifier("print"), LeftParen, TokenKind.String("Hello"), RightParen, EOF]);
    ParseHello(Tokenize(s));
  }
}

=== FILE: tokens.dfy ===
/**
 * Token kinds and token records of the shell language (src/lexer/token.rs).
 */
module Tokens {

  /** Bounds of Rust's `i64`, the width of integer literals and integer values. */
  const I64_MIN: int := -0x8000_0000_0000_0000
  const I64_MAX: int := 0x7FFF_FFFF_FFFF_FFFF

  predicate InI64(n: int) {
    I64_MIN <= n <= I64_MAX
  }

  /**
   * A floating-point number, kept opaque: it is represented by a decimal
   * spelling and the only property observed by the model is whether it is zero.
   */
  datatype FloatLit = FloatLit(text: string)

  /**
   * The spelling denotes zero exactly: it has a `0` and otherwise only
   * `0`, `.` and a sign (so `0.0` and `-0.00`, but neither `0.5` nor
   * `NaN`). Rounding to the nearest `f64` is not modelled, so a spelling
   * too small to be represented is not zero here.
   */
  predicate IsZeroFloat(f: FloatLit) {
    && '0' in f.text
    && forall i | 0 <= i < |f.text| :: f.text[i] in "0.-"
  }

  datatype TokenKind =
    // literals
    | Integer(intValue: int)
    | Float(floatValue: FloatLit)
    | String(strValue: string)
    | Boolean(boolValue: bool)
    | Identifier(name: string)
    // keywords
    | Let | Const | Fn | Return | If | Else | For | While | In
    | Try | Catch | Match | True | False | Nil | Is
    // operators
    | Plus | Minus | Multiply | Divide | Modulo | Power
    | Assign | ColonAssign | PlusAssign | MinusAssign
    | Equal | NotEqual | Less | LessEqual | Greater | GreaterEqual
    | And | Or | Not
    | BitwiseAnd | BitwiseOr | BitwiseXor | BitwiseNot | LeftShift | RightShift
    // punctuation
    | LeftParen | RightParen | LeftBrace | RightBrace | LeftBracket | RightBracket
    | Comma | Semicolon | Colon | Dot | Arrow | Pipeline
    // string interpolation and commands
    | InterpolationStart | InterpolationEnd
    | Command(command: string)
    | Comment(text: string)
    // special
    | Newline
    | EOF
    | Error(message: string)

  /** A token with its 1-based start position and its length. */
  datatype Token = Token(kind: TokenKind, line: nat, column: nat, length: nat)

  /**
   * Two kinds carry the same variant tag. This is the comparison Rust's
   * `std::mem::discriminant` makes: payloads are ignored.
   */
  predicate SameTag(a: TokenKind, b: TokenKind) {
    || a == b
    || (a.Integer? && b.Integer?)
    || (a.Float? && b.Float?)
    || (a.String? && b.String?)
    || (a.Boolean? && b.Boolean?)
    || (a.Identifier? && b.Identifier?)
    || (a.Command? && b.Command?)
    || (a.Comment? && b.Comment?)
    || (a.Error? && b.Error?)
  }

  /** The variants that carry a payload. */
  predicate HasPayload(k: TokenKind) {
    k.Integer? || k.Float? || k.String? || k.Boolean? || k.Identifier? || k.Command? || k.Comment? || k.Error?
  }

  /** Token::new */
  function NewToken(kind: TokenKind, line: nat, column: nat, length: nat): (t: Token)
    ensures t.kind == kind && t.line == line && t.column == column && t.length == length
  {
    Token(kind, line, column, length)
  }

  /** Token::error: an error token always has length 1. */
  function ErrorToken(message: string, line: nat, column: nat): (t: Token)
    ensures t.kind == Error(message) && t.line == line && t.column == column && t.length == 1
  {
    Token(Error(message), line, column, 1)
  }

  /** Token::eof: the end-of-input sentinel has length 0. */
  function EofToken(line: nat, column: nat): (t: Token)
    ensures t.kind == EOF && t.line == line && t.column == column && t.length == 0
  {
    Token(EOF, line, column, 0)
  }


  predicate IsKeywordKind(k: TokenKind) {
    k.Let? || k.Const? || k.Fn? || k.Return? || k.If? || k.Else? || k.For? || k.While? || k.In?
    || k.Try? || k.Catch? || k.Match? || k.True? || k.False? || k.Nil? || k.Is?
  }

  /** The spelling of a keyword kind: the inverse of `KeywordOrIdentifier` on keywords. */
  function KeywordSpelling(k: TokenKind): (w: string)
    requires IsKeywordKind(k)
  {
    match k
    case Let => "let"
    case Const => "const"
    case Fn => "fn"
    case Return => "return"
    case If => "if"
    case Else => "else"
    case For => "for"
    case While => "while"
    case In => "in"
    case Try => "try"
    case Catch => "catch"
    case Match => "match"
    case True => "true"
    case False => "false"
    case Nil => "nil"
    case Is => "is"
  }

  /** The reserved words with the kinds they lex to, in the order keyword_or_identifier tests them. */
  const KeywordTable: seq<(string, TokenKind)> :=
    [("let", Let), ("const", Const), ("fn", Fn), ("return", Return), ("if", If),
     ("else", Else), ("for", For), ("while", While), ("in", In), ("try", Try),
     ("catch", Catch), ("match", Match), ("true", True), ("false", False),
     ("nil", Nil), ("is", Is)]

  /** The sixteen reserved words. */
  const Keywords: set<string> := set i | 0 <= i < |KeywordTable| :: KeywordTable[i].0

  /** The kind the first entry spelled `word` gives, or an identifier when there is none. */
  function Lookup(word: string, table: seq<(string, TokenKind)>): (k: TokenKind)
    ensures KindsAreKeywords(table) ==> k == Identifier(word) || IsKeywordKind(k)
    decreases |table|
  {
    if table == [] then Identifier(word)
    else if table[0].0 == word then table[0].1
    else Lookup(word, table[1..])
  }

  /** Every entry of the table gives a keyword kind. */
  predicate KindsAreKeywords(table: seq<(string, TokenKind)>) {
    forall i | 0 <= i < |table| :: IsKeywordKind(table[i].1)
  }

  /** keyword_or_identifier: classify a scanned word. */
  function KeywordOrIdentifier(word: string): (k: TokenKind)
    ensures k == Identifier(word) || IsKeywordKind(k)
  {
    KeywordTableConsistent();
    Lookup(word, KeywordTable)
  }

  /** A word spelled by no entry of the table is an identifier. */
  lemma {:induction false} LookupMiss(word: string, table: seq<(string, TokenKind)>)
    requires forall i | 0 <= i < |table| :: table[i].0 != word
    ensures Lookup(word, table) == Identifier(word)
    decreases |table|
  {
    if table != [] {
      assert table[0].0 != word;
      LookupMiss(word, table[1..]);
    }
  }

  /** A word spelled by some entry gets the kind of an entry spelled that way. */
  lemma {:induction false} LookupFound(word: string, table: seq<(string, TokenKind)>)
    requires exists i | 0 <= i < |table| :: table[i].0 == word
    ensures exists i | 0 <= i < |table| :: table[i].0 == word && Lookup(word, table) == table[i].1
    decreases |table|
  {
    if table[0].0 == word {
      assert table[0].0 == word && Lookup(word, table) == table[0].1;
    } else {
      var i :| 0 <= i < |table| && table[i].0 == word;
      assert table[1..][i - 1].0 == word;
      LookupFound(word, table[1..]);
      var j :| 0 <= j < |table| - 1 && table[1..][j].0 == word && Lookup(word, table[1..]) == table[1..][j].1;
      assert table[j + 1].0 == word && Lookup(word, table) == table[j + 1].1;
    }
  }

  /** A word spelled by the entry at `i` and by none before it gets that entry's kind. */
  lemma {:induction false} LookupFirst(word: string, table: seq<(string, TokenKind)>, i: nat)
    requires i < |table| && table[i].0 == word
    requires forall j | 0 <= j < i :: table[j].0 != word
    ensures Lookup(word, table) == table[i].1
    decreases i
  {
    if i > 0 {
      assert table[0].0 != word;
      LookupFirst(word, table[1..], i - 1);
    }
  }

  /** Every entry of the table pairs a keyword kind with its spelling. */
  lemma KeywordTableConsistent()
    ensures forall i | 0 <= i < |KeywordTable| ::
              IsKeywordKind(KeywordTable[i].1) && KeywordSpelling(KeywordTable[i].1) == KeywordTable[i].0
  {
  }

  /** Where each keyword kind sits in the table. */
  function KeywordIndex(k: TokenKind): (i: nat)
    requires IsKeywordKind(k)
  {
    match k
    case Let => 0
    case Const => 1
    case Fn => 2
    case Return => 3
    case If => 4
    case Else => 5
    case For => 6
    case While => 7
    case In => 8
    case Try => 9
    case Catch => 10
    case Match => 11
    case True => 12
    case False => 13
    case Nil => 14
    case Is => 15
  }

  /** Each keyword kind is the first table entry with its spelling. */
  lemma KeywordTableAt(k: TokenKind)
    requires IsKeywordKind(k)
    ensures KeywordIndex(k) < |KeywordTable| && KeywordTable[KeywordIndex(k)] == (KeywordSpelling(k), k)
    ensures forall j | 0 <= j < KeywordIndex(k) :: KeywordTable[j].0 != KeywordSpelling(k)
  {
  }

  /**
   * A word is classified as a keyword exactly when it is one of the sixteen
   * reserved words, and then as the keyword spelled that way; every other
   * word is an identifier carrying the word.
   */
  lemma KeywordClassification(word: string)
    ensures word in Keywords <==> IsKeywordKind(KeywordOrIdentifier(word))
    ensures word !in Keywords <==> KeywordOrIdentifier(word) == Identifier(word)
    ensures IsKeywordKind(KeywordOrIdentifier(word)) ==> KeywordSpelling(KeywordOrIdentifier(word)) == word
  {
    if word in Keywords {
      LookupFound(word, KeywordTable);
      KeywordTableConsistent();
    } else {
      LookupMiss(word, KeywordTable);
    }
  }

  /** Every keyword kind is recovered from its own spelling. */
  lemma KeywordRoundTrip(k: TokenKind)
    requires IsKeywordKind(k)
    ensures KeywordOrIdentifier(KeywordSpelling(k)) == k
  {
    KeywordTableAt(k);
    LookupFirst(KeywordSpelling(k), KeywordTable, KeywordIndex(k));
  }

  /** Matching by tag ignores payloads, but never confuses two different tags. */
  lemma SameTagIgnoresPayload(a: TokenKind, b: TokenKind)
    ensures a.Identifier? && b.Identifier? ==> SameTag(a, b)
    ensures !HasPayload(a) ==> (SameTag(a, b) <==> a == b)
    ensures SameTag(a, b) ==> SameTag(b, a)
  {
  }

  /**
   * The variant index of a kind, in declaration order: a reference for
   * `std::mem::discriminant`, which tells variants apart and nothing else.
   */
  function Tag(k: TokenKind): nat
  {
    match k
    case Integer(_) => 0
    case Float(_) => 1
    case String(_) => 2
    case Boolean(_) => 3
    case Identifier(_) => 4
    case Let => 5
    case Const => 6
    case Fn => 7
    case Return => 8
    case If => 9
    case Else => 10
    case For => 11
    case While => 12
    case In => 13
    case Try => 14
    case Catch => 15
    case Match => 16
    case True => 17
    case False => 18
    case Nil => 19
    case Is => 20
    case Plus => 21
    case Minus => 22
    case Multiply => 23
    case Divide => 24
    case Modulo => 25
    case Power => 26
    case Assign => 27
    case ColonAssign => 28
    case PlusAssign => 29
    case MinusAssign => 30
    case Equal => 31
    case NotEqual => 32
    case Less => 33
    case LessEqual => 34
    case Greater => 35
    case GreaterEqual => 36
    case And => 37
    case Or => 38
    case Not => 39
    case BitwiseAnd => 40
    case BitwiseOr => 41
    case BitwiseXor => 42
    case BitwiseNot => 43
    case LeftShift => 44
    case RightShift => 45
    case LeftParen => 46
    case RightParen => 47
    case LeftBrace => 48
    case RightBrace => 49
    case LeftBracket => 50
    case RightBracket => 51
    case Comma => 52
    case Semicolon => 53
    case Colon => 54
    case Dot => 55
    case Arrow => 56
    case Pipeline => 57
    case InterpolationStart => 58
    case InterpolationEnd => 59
    case Command(_) => 60
    case Comment(_) => 61
    case Newline => 62
    case EOF => 63
    case Error(_) => 64
  }

  /**
   * The kind with variant index `n` (the last one beyond the range), its
   * payload, if any, set to a default.
   */
  function KindOfTag(n: nat): TokenKind
  {
    if n < 32 then
      if n < 16 then
        if n < 8 then
          if n < 4 then
            if n < 2 then
              if n == 0 then Integer(0) else Float(FloatLit([]))
            else
              if n == 2 then String([]) else Boolean(false)
          else
            if n < 6 then
              if n == 4 then Identifier([]) else Let
            else
              if n == 6 then Const else Fn
        else
          if n < 12 then
            if n < 10 then
              if n == 8 then Return else If
            else
              if n == 10 then Else else For
          else
            if n < 14 then
              if n == 12 then While else In
            else
              if n == 14 then Try else Catch
      else
        if n < 24 then
          if n < 20 then
            if n < 18 then
              if n == 16 then Match else True
            else
              if n == 18 then False else Nil
          else
            if n < 22 then
              if n == 20 then Is else Plus
            else
              if n == 22 then Minus else Multiply
        else
          if n < 28 then
            if n < 26 then
              if n == 24 then Divide else Modulo
            else
              if n == 26 then Power else Assign
          else
            if n < 30 then
              if n == 28 then ColonAssign else PlusAssign
            else
              if n == 30 then MinusAssign else Equal
    else
      if n < 48 then
        if n < 40 then
          if n < 36 then
            if n < 34 then
              if n == 32 then NotEqual else Less
            else
              if n == 34 then LessEqual else Greater
          else
            if n < 38 then
              if n == 36 then GreaterEqual else And
            else
              if n == 38 then Or else Not
        else
          if n < 44 then
            if n < 42 then
              if n == 40 then BitwiseAnd else BitwiseOr
            else
              if n == 42 then BitwiseXor else BitwiseNot
          else
            if n < 46 then
              if n == 44 then LeftShift else RightShift
            else
              if n == 46 then LeftParen else RightParen
      else
        if n < 56 then
          if n < 52 then
            if n < 50 then
              if n == 48 then LeftBrace else RightBrace
            else
              if n == 50 then LeftBracket else RightBracket
          else
            if n < 54 then
              if n == 52 then Comma else Semicolon
            else
              if n == 54 then Colon else Dot
        else
          if n < 60 then
            if n < 58 then
              if n == 56 then Arrow else Pipeline
            else
              if n == 58 then InterpolationStart else InterpolationEnd
          else
            if n < 62 then
              if n == 60 then Command([]) else Comment([])
            else
              if n < 63 then
                Newline
              else
                if n == 63 then EOF else Error([])
  }

  /** `k` with its payload, if any, replaced by the default `KindOfTag` uses. */
  function Canonical(k: TokenKind): TokenKind
  {
    match k
    case Integer(_) => Integer(0)
    case Float(_) => Float(FloatLit([]))
    case String(_) => String([])
    case Boolean(_) => Boolean(false)
    case Identifier(_) => Identifier([])
    case Command(_) => Command([])
    case Comment(_) => Comment([])
    case Error(_) => Error([])
    case _ => k
  }

  /** The variant index determines the kind up to its payload. */
  lemma TagInverse(k: TokenKind)
    ensures KindOfTag(Tag(k)) == Canonical(k)
  {
    if Tag(k) < 16 {
      InverseBelow16(k);
    } else if Tag(k) < 32 {
      InverseBelow32(k);
    } else if Tag(k) < 48 {
      InverseBelow48(k);
    } else {
      InverseFrom48(k);
    }
  }

  /** TagInverse for the indices 0 to 15. */
  lemma InverseBelow16(k: TokenKind)
    requires Tag(k) < 16
    ensures KindOfTag(Tag(k)) == Canonical(k)
  {
  }

  /** TagInverse for the indices 16 to 31. */
  lemma InverseBelow32(k: TokenKind)
    requires 16 <= Tag(k) < 32
    ensures KindOfTag(Tag(k)) == Canonical(k)
  {
  }

  /** TagInverse for the indices 32 to 47. */
  lemma InverseBelow48(k: TokenKind)
    requires 32 <= Tag(k) < 48
    ensures KindOfTag(Tag(k)) == Canonical(k)
  {
  }

  /** TagInverse for the indices from 48 on. */
  lemma InverseFrom48(k: TokenKind)
    requires 48 <= Tag(k)
    ensures KindOfTag(Tag(k)) == Canonical(k)
  {
  }

  /** Canonical keeps the variant and changes only payloads. */
  lemma CanonicalKeepsVariant(k: TokenKind)
    ensures !HasPayload(k) ==> Canonical(k) == k
    ensures HasPayload(Canonical(k)) == HasPayload(k)
    ensures Canonical(k).Integer? == k.Integer? && Canonical(k).Float? == k.Float?
    ensures Canonical(k).String? == k.String? && Canonical(k).Boolean? == k.Boolean?
    ensures Canonical(k).Identifier? == k.Identifier? && Canonical(k).Command? == k.Command?
    ensures Canonical(k).Comment? == k.Comment? && Canonical(k).Error? == k.Error?
  {
  }

  /** Two kinds match by tag exactly when their variant indices are equal. */
  lemma SameTagIsDiscriminant(a: TokenKind, b: TokenKind)
    ensures SameTag(a, b) <==> Tag(a) == Tag(b)
  {
    TagInverse(a);
    TagInverse(b);
    CanonicalKeepsVariant(a);
    CanonicalKeepsVariant(b);
  }
}

=== FILE: values.dfy ===
/**
 * Runtime values and environments of the evaluator (src/interpreter/mod.rs):
 * `Value` with `type_name`, `is_truthy`, `to_string` and its custom
 * equality, and the scoped `Environment`.
 *
 * The Rust environment is held by value (the parent is a `Box`, and it is
 * cloned on every block, call and closure capture), so it is an immutable
 * datatype here.
 */
module Values {
  import opened Wrappers
  import Tokens
  import Ast
  import Lexer
  import Sequences

  datatype Value =
    | Integer(intValue: int)
    | Float(floatValue: Tokens.FloatLit)
    | String(strValue: string)
    | Boolean(boolValue: bool)
    | Nil
    | Array(elements: seq<Value>)
    | Map(entries: map<string, Value>)
    | Function(name: string, parameters: seq<Ast.Parameter>, body: seq<Ast.Stmt>, closure: Env)

  /** One scope: its variables, the const flag of each, and the enclosing scope. */
  datatype Env = Env(vars: map<string, Value>, consts: map<string, bool>, parent: Option<Env>)

  /** Value::type_name */
  function TypeName(v: Value): (t: string)
    ensures t in {"int", "float", "string", "bool", "nil", "array", "map", "function"}
  {
    match v
    case Integer(_) => "int"
    case Float(_) => "float"
    case String(_) => "string"
    case Boolean(_) => "bool"
    case Nil => "nil"
    case Array(_) => "array"
    case Map(_) => "map"
    case Function(_, _, _, _) => "function"
  }

  /** Two values carry the same variant. */
  predicate SameVariant(a: Value, b: Value) {
    || (a.Integer? && b.Integer?) || (a.Float? && b.Float?) || (a.String? && b.String?)
    || (a.Boolean? && b.Boolean?) || (a.Nil? && b.Nil?) || (a.Array? && b.Array?)
    || (a.Map? && b.Map?) || (a.Function? && b.Function?)
  }

  /** type_name names variants exactly: equal names, equal variants. */
  lemma TypeNameNamesVariant(a: Value, b: Value)
    ensures TypeName(a) == TypeName(b) <==> SameVariant(a, b)
  {
  }

  /** The falsy values: false, nil, 0, 0.0, "", an empty array and an empty map. */
  predicate IsFalsy(v: Value) {
    || v == Boolean(false) || v == Nil || v == Integer(0)
    || (v.Float? && Tokens.IsZeroFloat(v.floatValue))
    || v == String("") || v == Array([]) || (v.Map? && |v.entries| == 0)
  }

  /** Value::is_truthy */
  function IsTruthy(v: Value): (b: bool)
    ensures b <==> !IsFalsy(v)
    ensures v.Function? ==> b
  {
    match v
    case Boolean(b) => b
    case Nil => false
    case Integer(i) => i != 0
    case Float(f) => !Tokens.IsZeroFloat(f)
    case String(s) => s != ""
    case Array(a) => a != []
    case Map(m) => |m| != 0
    case Function(_, _, _, _) => true
  }

  // ---------------------------------------------------------------- equality

  /**
   * `impl PartialEq for Value`. Floats are equal when their difference is
   * below machine epsilon; that test is the parameter `close`. Arrays and
   * maps compare element-wise with this same equality; functions compare
   * by name only.
   */
  predicate ValueEq(close: (Tokens.FloatLit, Tokens.FloatLit) -> bool, a: Value, b: Value)
  {
    match (a, b)
    case (Integer(x), Integer(y)) => x == y
    case (Float(x), Float(y)) => close(x, y)
    case (String(x), String(y)) => x == y
    case (Boolean(x), Boolean(y)) => x == y
    case (Nil, Nil) => true
    case (Array(xs), Array(ys)) =>
      |xs| == |ys| && forall i | 0 <= i < |xs| :: ValueEq(close, xs[i], ys[i])
    case (Map(m), Map(n)) =>
      |m| == |n| && forall k | k in m :: k in n && ValueEq(close, m[k], n[k])
    case (Function(x, _, _, _), Function(y, _, _, _)) => x == y
    case (_, _) => false
  }

  /**
   * Values of different types are never equal, two nils always are, and
   * equal arrays have equal lengths and equal maps equal key sets.
   */
  lemma ValueEqShape(close: (Tokens.FloatLit, Tokens.FloatLit) -> bool, a: Value, b: Value)
    ensures ValueEq(close, a, b) ==> TypeName(a) == TypeName(b)
    ensures a.Nil? && b.Nil? ==> ValueEq(close, a, b)
    ensures ValueEq(close, a, b) && a.Array? ==> |a.elements| == |b.elements|
    ensures ValueEq(close, a, b) && a.Map? ==> a.entries.Keys == b.entries.Keys
  {
    if ValueEq(close, a, b) && a.Map? {
      var m, n := a.entries, b.entries;
      assert m.Keys <= n.Keys;
      if m.Keys != n.Keys {
        var k :| k in n.Keys && k !in m.Keys;
        SubsetCard(m.Keys, n.Keys - {k});
      }
    }
  }

  /** Equality is reflexive whenever float closeness is (it fails for NaN). */
  lemma {:induction false} ValueEqReflexive(close: (Tokens.FloatLit, Tokens.FloatLit) -> bool, v: Value)
    requires forall f :: close(f, f)
    ensures ValueEq(close, v, v)
  {
    match v
    case Array(xs) =>
      forall i | 0 <= i < |xs| ensures ValueEq(close, xs[i], xs[i]) {
        ValueEqReflexive(close, xs[i]);
      }
    case Map(m) =>
      forall k | k in m ensures ValueEq(close, m[k], m[k]) {
        ValueEqReflexive(close, m[k]);
      }
    case _ =>
  }

  /** Equality is symmetric whenever float closeness is. */
  lemma {:induction false} ValueEqSymmetric(close: (Tokens.FloatLit, Tokens.FloatLit) -> bool, a: Value, b: Value)
    requires forall f, g :: close(f, g) == close(g, f)
    requires ValueEq(close, a, b)
    ensures ValueEq(close, b, a)
  {
    match (a, b)
    case (Array(xs), Array(ys)) =>
      forall i | 0 <= i < |ys| ensures ValueEq(close, ys[i], xs[i]) {
        ValueEqSymmetric(close, xs[i], ys[i]);
      }
    case (Map(m), Map(n)) =>
      assert m.Keys <= n.Keys;
      SubsetOfSameSize(m.Keys, n.Keys);
      forall k | k in n ensures k in m && ValueEq(close, n[k], m[k]) {
        ValueEqSymmetric(close, m[k], n[k]);
      }
    case (_, _) =>
  }

  lemma SubsetOfSameSize<T>(a: set<T>, b: set<T>)
    requires a <= b && |a| == |b|
    ensures a == b
  {
    if a != b {
      var x :| x in b && x !in a;
      assert a <= b - {x};
      assert |b - {x}| == |b| - 1;
      SubsetCard(a, b - {x});
    }
  }

  lemma {:induction false} SubsetCard<T>(a: set<T>, b: set<T>)
    requires a <= b
    ensures |a| <= |b|
    decreases b
  {
    if a != {} {
      var x :| x in a;
      SubsetCard(a - {x}, b - {x});
    }
  }

  // ---------------------------------------------------------------- rendering

  /** i64's Display: the decimal digits of `n`, with a leading `-` when negative. */
  function NatToString(n: nat): (s: string)
    ensures |s| >= 1
    ensures forall i | 0 <= i < |s| :: Lexer.IsDigit(s[i])
    ensures Lexer.DecimalValue(s) == n
    ensures |s| == 1 || s[0] != '0'
  {
    if n < 10 then [DigitChar(n)]
    else
      var s := NatToString(n / 10) + [DigitChar(n % 10)];
      assert s[..|s| - 1] == NatToString(n / 10);
      s
  }

  function DigitChar(d: nat): (c: char)
    requires d < 10
    ensures Lexer.IsDigit(c) && Lexer.DigitValue(c) == d
  {
    ('0' as int + d) as char
  }

  function IntToString(n: int): (s: string)
    ensures n >= 0 ==> (forall i | 0 <= i < |s| :: Lexer.IsDigit(s[i])) && |s| >= 1 && Lexer.DecimalValue(s) == n
    ensures n < 0 ==> |s| >= 2 && s[0] == '-' && (forall i | 1 <= i < |s| :: Lexer.IsDigit(s[i]))
                      && Lexer.DecimalValue(s[1..]) == -n
    ensures n >= 0 ==> |s| == 1 || s[0] != '0'
    ensures n < 0 ==> |s| == 2 || s[1] != '0'
  {
    if n >= 0 then NatToString(n) else "-" + NatToString(-n)
  }

  /** A digit string that starts with a nonzero digit has a positive value. */
  lemma {:induction false} LeadingDigitPositive(t: string)
    requires |t| >= 1 && forall i | 0 <= i < |t| :: Lexer.IsDigit(t[i])
    requires t[0] != '0'
    ensures Lexer.DecimalValue(t) >= 1
    decreases |t|
  {
    if |t| > 1 {
      LeadingDigitPositive(t[..|t| - 1]);
    }
  }

  /**
   * The rendering is canonical: a digit string without a leading zero is
   * exactly the rendering of its own value.
   */
  lemma {:induction false} DecimalCanonical(t: string)
    requires |t| >= 1 && forall i | 0 <= i < |t| :: Lexer.IsDigit(t[i])
    requires |t| == 1 || t[0] != '0'
    ensures NatToString(Lexer.DecimalValue(t)) == t
    decreases |t|
  {
    if |t| > 1 {
      var p := t[..|t| - 1];
      LeadingDigitPositive(p);
      DecimalCanonical(p);
      var n := Lexer.DecimalValue(t);
      assert n / 10 == Lexer.DecimalValue(p) && n % 10 == Lexer.DigitValue(t[|t| - 1]);
      assert t == p + [t[|t| - 1]];
    }
  }

  /**
   * Value::to_string. Float formatting and the (unordered) rendering of
   * maps are not modelled and come in as the parameters `showFloat` and
   * `showMap`.
   */
  function ToString(showFloat: Tokens.FloatLit -> string, showMap: map<string, Value> -> string, v: Value): (s: string)
    ensures v.Integer? && v.intValue >= 0 ==>
              && |s| >= 1 && (forall i | 0 <= i < |s| :: Lexer.IsDigit(s[i]))
              && Lexer.DecimalValue(s) == v.intValue && (|s| == 1 || s[0] != '0')
    ensures v.Integer? && v.intValue < 0 ==>
              && |s| >= 2 && s[0] == '-' && (forall i | 1 <= i < |s| :: Lexer.IsDigit(s[i]))
              && Lexer.DecimalValue(s[1..]) == -v.intValue && (|s| == 2 || s[1] != '0')
    ensures v.String? ==> s == v.strValue
    ensures v.Boolean? ==> (s == "true" <==> v.boolValue) && (s == "false" <==> !v.boolValue)
    ensures v.Nil? ==> s == "nil"
    ensures v.Array? ==> |s| >= 2 && s[0] == '[' && s[|s| - 1] == ']'
    ensures v.Array? && v.elements == [] ==> s == "[]"
    ensures v.Function? ==> s == "function " + v.name
  {
    match v
    case Integer(i) => IntToString(i)
    case Float(f) => showFloat(f)
    case String(s) => s
    case Boolean(b) => if b then "true" else "false"
    case Nil => "nil"
    case Array(xs) => "[" + JoinValues(showFloat, showMap, xs) + "]"
    case Map(m) => showMap(m)
    case Function(name, _, _, _) => "function " + name
  }

  /** The elements rendered and joined with ", ". */
  function JoinValues(showFloat: Tokens.FloatLit -> string, showMap: map<string, Value> -> string, xs: seq<Value>): string
  {
    if xs == [] then ""
    else if |xs| == 1 then ToString(showFloat, showMap, xs[0])
    else ToString(showFloat, showMap, xs[0]) + ", " + JoinValues(showFloat, showMap, xs[1..])
  }

  /** Each element rendered on its own, in order. */
  function Renderings(showFloat: Tokens.FloatLit -> string, showMap: map<string, Value> -> string, xs: seq<Value>): (ss: seq<string>)
    ensures |ss| == |xs|
    ensures forall i | 0 <= i < |xs| :: ss[i] == ToString(showFloat, showMap, xs[i])
  {
    seq(|xs|, i requires 0 <= i < |xs| => ToString(showFloat, showMap, xs[i]))
  }

  /** The array body is the element renderings joined with ", ". */
  lemma {:induction false} JoinValuesJoins(showFloat: Tokens.FloatLit -> string, showMap: map<string, Value> -> string, xs: seq<Value>)
    ensures JoinValues(showFloat, showMap, xs) == Sequences.Join(Renderings(showFloat, showMap, xs), ", ")
  {
    if |xs| >= 2 {
      JoinValuesJoins(showFloat, showMap, xs[1..]);
      assert Renderings(showFloat, showMap, xs)[1..] == Renderings(showFloat, showMap, xs[1..]);
    }
  }

  /** An array renders as `[`, its elements rendered and joined with ", ", then `]`. */
  lemma ArrayToString(showFloat: Tokens.FloatLit -> string, showMap: map<string, Value> -> string, xs: seq<Value>)
    ensures ToString(showFloat, showMap, Array(xs)) == "[" + Sequences.Join(Renderings(showFloat, showMap, xs), ", ") + "]"
  {
    JoinValuesJoins(showFloat, showMap, xs);
  }

  /** Rendering an array with one more element renders that element after the others. */
  lemma RenderingsAppend(showFloat: Tokens.FloatLit -> string, showMap: map<string, Value> -> string, xs: seq<Value>, x: Value)
    ensures Renderings(showFloat, showMap, xs + [x]) == Renderings(showFloat, showMap, xs) + [ToString(showFloat, showMap, x)]
  {
  }

  /**
   * Appending an element to an array puts ", " and that element's
   * rendering after the others, before the closing bracket.
   */
  lemma ArrayToStringAppend(showFloat: Tokens.FloatLit -> string, showMap: map<string, Value> -> string, xs: seq<Value>, x: Value)
    requires |xs| >= 1
    ensures ToString(showFloat, showMap, Array(xs + [x]))
              == "[" + Sequences.Join(Renderings(showFloat, showMap, xs), ", ") + ", " + ToString(showFloat, showMap, x) + "]"
  {
    ArrayToString(showFloat, showMap, xs + [x]);
    RenderingsAppend(showFloat, showMap, xs, x);
    Sequences.JoinAppend(Renderings(showFloat, showMap, xs), ToString(showFloat, showMap, x), ", ");
  }

  /** A worked example: the array `[1, true, "a"]` renders as `[1, true, a]`. */
  lemma MixedArrayToString(showFloat: Tokens.FloatLit -> string, showMap: map<string, Value> -> string)
    ensures ToString(showFloat, showMap, Array([Integer(1), Boolean(true), String("a")])) == "[1, true, a]"
  {
    var xs := [Integer(1), Boolean(true), String("a")];
    assert IntToString(1) == "1";
    var ss := Renderings(showFloat, showMap, xs);
    assert ss[0] == "1" && ss[1] == "true" && ss[2] == "a";
    assert ss == ["1", "true", "a"];
    ArrayToString(showFloat, showMap, xs);
    assert Sequences.Join(["a"], ", ") == "a";
    assert ["1", "true", "a"][1..] == ["true", "a"];
    assert ["true", "a"][1..] == ["a"];
  }

  // ---------------------------------------------------------------- environments

  /** Environment::new */
  function NewEnv(): (e: Env)
    ensures e.parent.None? && |e.vars| == 0 && |e.consts| == 0
  {
    Env(map[], map[], None)
  }

  /** Environment::new_with_parent */
  function Child(parent: Env): (e: Env)
    ensures e.parent == Some(parent) && |e.vars| == 0 && |e.consts| == 0
  {
    Env(map[], map[], Some(parent))
  }

  /** Environment::define_variable: value and const flag, in the current scope only. */
  function DefineVariable(env: Env, name: string, value: Value, isConst: bool): (e: Env)
    ensures e.vars == env.vars[name := value]
    ensures e.consts == env.consts[name := isConst]
    ensures e.parent == env.parent
  {
    env.(vars := env.vars[name := value], consts := env.consts[name := isConst])
  }

  /** Environment::define */
  function Define(env: Env, name: string, value: Value): (e: Env)
    ensures e == DefineVariable(env, name, value, false)
  {
    DefineVariable(env, name, value, false)
  }

  /** Environment::define_const */
  function DefineConst(env: Env, name: string, value: Value): (e: Env)
    ensures e == DefineVariable(env, name, value, true)
  {
    DefineVariable(env, name, value, true)
  }

  /**
   * Environment::get: the innermost binding along the parent chain. It
   * agrees with the reference lookup over the explicit list of scopes,
   * innermost first.
   */
  function Get(env: Env, name: string): (r: Option<Value>)
    ensures r == LookupScopes(Scopes(env), name)
    decreases env
  {
    if name in env.vars then Some(env.vars[name])
    else
      match env.parent
      case Some(p) =>
        assert Scopes(env)[1..] == Scopes(p);
        Get(p, name)
      case None => None
  }

  /** The binding of `name` that `Get` finds is const (false when there is none). */
  predicate BoundConst(env: Env, name: string)
    decreases env
  {
    if name in env.vars then name in env.consts && env.consts[name]
    else
      match env.parent
      case Some(p) => BoundConst(p, name)
      case None => false
  }

  /** The runtime failures of the evaluator, one per distinct error message. */
  datatype Failure =
    | ConstAssignment(name: string)
    | UndefinedVariable(name: string)
    | DivisionByZero
    | UnsupportedIntOp(op: Ast.BinaryOperator)
    | UnsupportedFloatOp(op: Ast.BinaryOperator)
    | UnsupportedStringOp(op: Ast.BinaryOperator)
    | UnsupportedBoolOp(op: Ast.BinaryOperator)
    | UnsupportedOperation(leftType: string, op: Ast.BinaryOperator, rightType: string)
    | UnsupportedUnary(unaryOp: Ast.UnaryOperator, typeName: string)
    | ArityMismatch(callee: string, expected: nat, got: nat)
    | ComplexAssignmentTarget
    | StatementNotImplemented(stmt: Ast.Stmt)
    | ExpressionNotImplemented(expr: Ast.Expr)
    | CommandFailed(command: string, exitCode: int)
    | CommandNotFound(command: string)
    | CommandError(command: string, reason: string)
    | ShellError(reason: string)
    | BuiltinError(message: string)
    | Unspecified
    | OutOfFuel

  /**
   * Environment::set: update the innermost scope that binds `name`; a const
   * binding or an unbound name is an error.
   */
  function Set(env: Env, name: string, value: Value): (r: Result<Env, Failure>)
    ensures r.Ok? <==> Get(env, name).Some? && !BoundConst(env, name)
    ensures Get(env, name).None? ==> r == Err(UndefinedVariable(name))
    ensures BoundConst(env, name) ==> r == Err(ConstAssignment(name))
    decreases env
  {
    if name in env.vars then
      if name in env.consts && env.consts[name] then Err(ConstAssignment(name))
      else Ok(env.(vars := env.vars[name := value]))
    else
      match env.parent
      case Some(p) =>
        var q :- Set(p, name, value);
        Ok(env.(parent := Some(q)))
      case None => Err(UndefinedVariable(name))
  }

  // ---------------------------------------------------------------- environment properties

  /** Every scope carries a const flag for exactly the names it binds. */
  predicate WellFormed(env: Env)
    decreases env
  {
    && env.vars.Keys == env.consts.Keys
    && match env.parent
       case Some(p) => WellFormed(p)
       case None => true
  }

  /** The number of scopes. */
  function Depth(env: Env): nat
    decreases env
  {
    match env.parent
    case Some(p) => 1 + Depth(p)
    case None => 1
  }

  /** Reading back a definition: the new binding, every other name as before. */
  lemma GetAfterDefine(env: Env, name: string, value: Value, isConst: bool, other: string)
    ensures Get(DefineVariable(env, name, value, isConst), name) == Some(value)
    ensures other != name ==> Get(DefineVariable(env, name, value, isConst), other) == Get(env, other)
    ensures BoundConst(DefineVariable(env, name, value, isConst), name) == isConst
  {
  }

  /** Defining preserves well-formedness and the scope chain. */
  lemma DefinePreserves(env: Env, name: string, value: Value, isConst: bool)
    requires WellFormed(env)
    ensures WellFormed(DefineVariable(env, name, value, isConst))
    ensures Depth(DefineVariable(env, name, value, isConst)) == Depth(env)
  {
  }

  /**
   * A successful assignment: the name now reads as the new value, every
   * other name reads as before, constness and the scope chain are unchanged.
   */
  lemma {:induction false} SetEffect(env: Env, name: string, value: Value, other: string)
    requires Set(env, name, value).Ok?
    ensures Get(Set(env, name, value).value, name) == Some(value)
    ensures other != name ==> Get(Set(env, name, value).value, other) == Get(env, other)
    ensures BoundConst(Set(env, name, value).value, other) == BoundConst(env, other)
    ensures Depth(Set(env, name, value).value) == Depth(env)
    ensures WellFormed(env) ==> WellFormed(Set(env, name, value).value)
    decreases env
  {
    if name !in env.vars {
      SetEffect(env.parent.value, name, value, other);
    }
  }

  /** A child scope sees every binding of its parent until it shadows one. */
  lemma ChildSeesParent(parent: Env, name: string)
    ensures Get(Child(parent), name) == Get(parent, name)
    ensures BoundConst(Child(parent), name) == BoundConst(parent, name)
    ensures WellFormed(parent) ==> WellFormed(Child(parent))
  {
  }

  /** Reference lookup over an explicit list of scopes, innermost first. */
  function Scopes(env: Env): (ss: seq<map<string, Value>>)
    ensures |ss| == Depth(env) && ss[0] == env.vars
    decreases env
  {
    match env.parent
    case Some(p) => [env.vars] + Scopes(p)
    case None => [env.vars]
  }

  /** The value in the first scope of `ss` that binds `name`. */
  function LookupScopes(ss: seq<map<string, Value>>, name: string): Option<Value>
  {
    if ss == [] then None
    else if name in ss[0] then Some(ss[0][name])
    else LookupScopes(ss[1..], name)
  }
}

=== FILE: wrappers.dfy ===
/** Failure-compatible wrappers shared by every stage of the pipeline. */
module Wrappers {

  /** A value that may be absent (Rust's `Option`). */
  datatype Option<+T> = None | Some(value: T) {

    predicate IsFailure() {
      None?
    }

    function PropagateFailure<U>(): Option<U>
      requires None?
    {
      None
    }

    function Extract(): T
      requires Some?
    {
      value
    }
  }

  /** The outcome of a fallible step (Rust's `Result`). */
  datatype Result<+T, +E> = Ok(value: T) | Err(error: E) {

    predicate IsFailure() {
      Err?
    }

    function PropagateFailure<U>(): Result<U, E>
      requires Err?
    {
      Err(error)
    }

    function Extract(): T
      requires Ok?
    {
      value
    }
  }
}
